=== FILE: README.md ===
# Release Quest — a Dafny model of the game's progression and combat rules

Release Quest is a browser arcade game. An independent artist fights
"competitors" and bosses across five worlds on the way to a music release.
This project models its rules as pure Dafny functions over immutable
records:

- the **score ledger**: a score clamped to [0, 100] and moved by named
  modifiers and a genre bonus;
- the **budget ledger**: an unclamped budget with a derived tier, perks and a
  spend that can be refused;
- the **weapon registry**: an ordered unlock list without duplicates, a
  circular current weapon and a fire cooldown;
- the **player**: hit points, invulnerability after a hit, one-way death,
  heal, and movement and attack keys;
- the **enemies**: defaults, per-frame behaviour, a proximity attack, special
  abilities, death that is credited once, and coin drops;
- the **constant tables** the rules above read;
- the rules of the two modelled worlds: Data Valley's temples, puzzles and
  phased boss, and the Scoring Maze's carried-over score, score doors,
  once-only genre choice and score-dependent boss;
- the **title menu** and its new-game form;
- the **HUD** texts and colours;
- the **game-over and victory screens**.

Time is an explicit `now: int`. Every engine timer (invulnerability, slow,
puzzle resolve, genre-to-boss delay, completion) and the end of the death and
exit tweens is an explicit event. A projectile's 3000 ms lifetime is its
`expiresAt` time: a hit reported at or after that time does nothing. Every collision the physics engine would detect
is an event that names the objects involved. The engine's random drop pick is
an index the caller supplies. Whatever an entity would do to the scene
(damage the player, steal points, drop a coin, report a boss defeat) comes
back as a returned list of effects or signals.

Modules follow the source files:

- `ScoreSystem`, `BudgetSystem`, `WeaponSystem`, `PlayerEntity`,
  `EnemyEntity`, `Constants`;
- `World1DataValley`, `World2ScoringMaze`, and `Level`, which holds the play
  rules both scenes wire up in the same way;
- `MenuScene`, `Hud`, `GameOver`, `Victory`;
- `Progress`: world names, scene keys, the save record and transfer data;
- `Bands`: the one competition-band function, which the four copies in the
  source are proved to agree with;
- `Strings`: decimal and hex rendering with their parsers, `padStart`,
  `includes` and first-match `replace`;
- `Common`: `Option`, clamps, the JavaScript `x || fallback` idiom,
  occurrence counting, and the two readings of the scene handlers.

The scene steps (`Level.Step`, `World1DataValley.Step`,
`World2ScoringMaze.Step`) and their runs take a `Handlers` argument.
`AsWritten` follows the handlers as the source writes them. `Corrected`
applies the three corrections listed under "## Findings":

- a slow's timer undoes one halving;
- world 1's boss spawns once;
- a defeated boss ignores further hits.

The invariants are proved for both readings. The once-only properties hold
only for the corrected one, and lemmas named `...AsWritten` exhibit, step by
step, where the code as written breaks them.

The model follows the code, including these behaviours a reader may not
expect:

- the budget tier is not always consistent with the budget: a negative budget
  keeps its old tier, and `deserialize` trusts the stored tier;
- `canFire` needs strictly more than the cooldown, so a shot exactly at the
  cooldown is refused;
- `setGenre` itself accepts repeated calls, and only world 2's gate makes the
  choice once-only;
- world 1's save record has no genre;
- world 2 does not listen for the player's death, so hit points can reach 0
  there without leaving the scene;
- a selection call, `setWeapon`, exists next to `switchWeapon`;
- a patrolling enemy does not turn once at its bound: its direction flips on every frame while it is at or beyond the bound.

## Model

| member | source | states |
|---|---|---|
| Common.OrNumber | src/systems/ScoreSystem.js:88 | `n \|\| fallback` on a number: a missing value and 0 both give the fallback, any other number passes through |
| Common.OrString | src/scenes/VictoryScene.js:11-12 | `s \|\| fallback` on a string: a missing or empty string gives the fallback |
| Common.OrNull | src/systems/ScoreSystem.js:89 | `s \|\| null`: the empty string collapses to absent, any other string is kept |
| Common.Lookup | src/systems/BudgetSystem.js:39 | an object-literal lookup is absent exactly for keys the table lacks, and otherwise returns a value stored under that key |
| Common.CountAppend | src/scenes/World1_DataValley.js:583-602 | counting a signal over two concatenated signal lists adds the counts; this is what lets per-event counts add up over a run |
| Strings.IntToString | src/ui/HUD.js:123 | a template literal renders an integer as an optional minus sign followed by decimal digits |
| Strings.IntToStringRoundTrip | src/ui/HUD.js:123 | parsing the rendered integer gives back the integer |
| Strings.IntToStringInjective | src/ui/HUD.js:139 | distinct integers render as distinct texts |
| Strings.DigitsRoundTrip | src/ui/HUD.js:171 | reading back the digits of `n.toString(base)` gives `n`, for every base from 2 to 16 |
| Strings.PadStart | src/ui/HUD.js:171 | `padStart` keeps the text as its suffix, fills on the left with the pad character and reaches the width |
| Strings.IndexFrom | src/entities/Enemy.js:230 | the search finds the first occurrence at or after the start, and reports none exactly when there is none |
| Strings.IncludesMeansOccurs | src/entities/Enemy.js:230 | `includes` holds exactly when the pattern occurs somewhere |
| Strings.ReplaceFirst | src/entities/Enemy.js:231 | `replace` with a string pattern rewrites only the first occurrence and leaves a text without one unchanged |
| Bands.CompetitionOf | src/systems/ScoreSystem.js:62-68 | every score falls in exactly one of five bands, whose rank is the number of cut-offs 40, 55, 70 and 85 it reaches |
| Bands.ReachedMonotone | src/systems/ScoreSystem.js:62-68 | a higher score never reaches fewer cut-offs, whatever the cut-off list |
| Bands.CompetitionMonotone | src/scenes/VictoryScene.js:194-200 | a higher score never yields a worse competition band |
| Constants.GenreTablesAgree | src/config/constants.js:111-196 | the genre-bonus table and the genre stereotypes name the same seven genres, and every bonus lies in [8, 15] |
| Constants.RowOf | src/config/constants.js:29-34 | each tier name looks up a row of the tier table that carries that tier |
| Constants.TiersContiguous | src/config/constants.js:29-34 | the tier ranges start at 0, follow each other without gap or overlap, and the last has no upper bound |
| Constants.TiersPartition | src/config/constants.js:29-34 | a non-negative budget lies in a tier row exactly when that row carries the budget's tier, so in exactly one row; a negative budget lies in none |
| Constants.CoinValuesIncrease | src/config/constants.js:36-41 | coins are worth 50, 200, 500 and 1000, strictly increasing from bronze to platinum |
| Constants.WeaponsWellFormed | src/config/constants.js:43-94 | every weapon has positive damage, cooldown and projectile speed and its own unlock world in 1..5; cooldowns order synth < violin < guitar < drums < mic |
| ScoreSystem.New | src/systems/ScoreSystem.js:4-7 | a fresh ledger has score 50 and no genre |
| ScoreSystem.AddScore | src/systems/ScoreSystem.js:22-26 | the new score is old plus amount when that lies in [0, 100], and otherwise the bound it passed; the genre is kept |
| ScoreSystem.SubtractScore | src/systems/ScoreSystem.js:28-30 | subtracting is adding the negated amount, and a non-negative amount never raises the score |
| ScoreSystem.CollectDataCrystal | src/systems/ScoreSystem.js:32-34 | a crystal is worth 5 points, capped at 100; the ledger stays in range and keeps its genre |
| ScoreSystem.DefeatCompetitor | src/systems/ScoreSystem.js:36-38 | a defeat is worth 10 points, capped at 100; the ledger stays in range and keeps its genre |
| ScoreSystem.CollectBudgetCoin | src/systems/ScoreSystem.js:40-42 | a budget coin is worth 2 points, capped at 100; the ledger stays in range and keeps its genre |
| ScoreSystem.CompleteQuest | src/systems/ScoreSystem.js:44-46 | a quest is worth 15 points, capped at 100; the ledger stays in range and keeps its genre |
| ScoreSystem.LoseToBoss | src/systems/ScoreSystem.js:48-50 | losing to a boss costs 15 points, floored at 0; the ledger stays in range and keeps its genre |
| ScoreSystem.WrongFridayChoice | src/systems/ScoreSystem.js:52-54 | a wrong Friday choice costs 20 points, floored at 0; the ledger stays in range and keeps its genre |
| ScoreSystem.GenreBonus | src/systems/ScoreSystem.js:58 | an unknown genre earns 0, and a known one earns its table entry, which lies in [8, 15] |
| ScoreSystem.SetGenre | src/systems/ScoreSystem.js:56-60 | the genre is recorded whatever it is, and the score becomes the old score plus the genre's bonus (0 for an unknown genre) clamped to [0, 100]; a known genre adds 8 to 15 points below the cap |
| ScoreSystem.SetGenreRepeats | src/systems/ScoreSystem.js:56-60 | the ledger does not refuse a second call: the later genre replaces the first and both bonuses are added |
| ScoreSystem.GetCompetitionLevel | src/systems/ScoreSystem.js:62-68 | the ledger's label and colour are those of the score's band |
| ScoreSystem.Reset | src/systems/ScoreSystem.js:74-78 | a reset ledger is in range with score 50 and no genre |
| ScoreSystem.Serialize | src/systems/ScoreSystem.js:80-85 | the saved record holds exactly the score and the genre |
| ScoreSystem.Deserialize | src/systems/ScoreSystem.js:87-91 | a non-zero stored score is restored, a missing or zero one reads as 50, and an empty genre reads as none |
| ScoreSystem.SerializeRoundTrip | src/systems/ScoreSystem.js:80-91 | saving then restoring gives the ledger back when the score is not 0 and the genre is not the empty string; a score of 0 comes back as 50 |
| ScoreSystem.AnyAddScoresStayInRange | src/systems/ScoreSystem.js:22-26 | any sequence of score changes from a fresh ledger ends in [0, 100] |
| ScoreSystem.AddScoreAll | src/systems/ScoreSystem.js:22-26 | a non-empty run of score changes always ends in range and never touches the genre |
| ScoreSystem.CrystalsThenBossScenario | src/systems/ScoreSystem.js:32-50 | three crystals then a lost boss fight from a fresh ledger end at 50 |
| BudgetSystem.New | src/systems/BudgetSystem.js:4-6 | a fresh ledger has budget 0 in tier 1, which is consistent |
| BudgetSystem.ScanTiers | src/systems/BudgetSystem.js:43-50 | the table scan finds nothing exactly when no row holds the budget, and otherwise the first row that does |
| BudgetSystem.UpdateTier | src/systems/BudgetSystem.js:43-50 | a non-negative budget gets the tier whose range holds it; a negative one keeps the previous tier |
| BudgetSystem.AddBudget | src/systems/BudgetSystem.js:21-26 | the budget grows by exactly the amount, and the tier follows it whenever it stays non-negative |
| BudgetSystem.SpendBudget | src/systems/BudgetSystem.js:28-36 | the spend succeeds exactly when the ledger can afford it, then takes exactly the amount; a refused spend changes nothing |
| BudgetSystem.CoinValue | src/systems/BudgetSystem.js:38-41 | bronze, silver, gold and platinum are worth 50, 200, 500 and 1000; any other tag is worth 0 |
| BudgetSystem.CollectCoin | src/systems/BudgetSystem.js:38-41 | collecting adds the coin's value, keeps a consistent ledger consistent, and an unknown coin changes nothing |
| BudgetSystem.HasPerkByRange | src/systems/BudgetSystem.js:60-63 | for a consistent ledger a perk is held exactly when the budget's range lists it; nothing is held below 200, and `all_weapons` from 1500 |
| BudgetSystem.HasPerk | src/systems/BudgetSystem.js:60-63 | a perk is held exactly when the tier table's row for the ledger's tier lists it |
| BudgetSystem.CanAfford | src/systems/BudgetSystem.js:69-71 | an amount is affordable exactly when spending it leaves the budget non-negative, and for a consistent ledger nothing non-positive is refused |
| BudgetSystem.Reset | src/systems/BudgetSystem.js:73-77 | a reset ledger has budget 0 in tier 1 |
| BudgetSystem.Serialize | src/systems/BudgetSystem.js:79-84 | the saved record holds exactly the budget and the tier |
| BudgetSystem.Deserialize | src/systems/BudgetSystem.js:86-90 | missing fields read as 0 and tier 1, and a stored tier is taken as it is |
| BudgetSystem.SerializeRoundTrip | src/systems/BudgetSystem.js:79-90 | saving then restoring gives the ledger back exactly |
| BudgetSystem.DeserializeTrustsTier | src/systems/BudgetSystem.js:86-90 | a stored tier that disagrees with the budget is restored inconsistent (600 in tier 1) |
| BudgetSystem.GoldCoinScenario | src/systems/BudgetSystem.js:38-41 | from an empty ledger a gold coin gives 500 in tier 3 |
| WeaponSystem.New | src/systems/WeaponSystem.js:4-10 | a new registry is valid: the guitar, alone and current, never fired |
| WeaponSystem.UnlockWeapon | src/systems/WeaponSystem.js:12-18 | a weapon is appended and reported exactly when it was absent; otherwise nothing changes; no duplicates appear and validity is kept |
| WeaponSystem.UnlockIdempotent | src/systems/WeaponSystem.js:12-18 | unlocking the same weapon twice is unlocking it once, and the second call reports false |
| WeaponSystem.IndexOfFirst | src/systems/WeaponSystem.js:21 | `indexOf` answers -1 exactly for an absent key, and otherwise the first position holding it |
| WeaponSystem.IndexOfDistinct | src/systems/WeaponSystem.js:21 | in a list without duplicates every entry is found at its own position |
| WeaponSystem.SwitchWeapon | src/systems/WeaponSystem.js:20-25 | switching selects the entry after the current one in unlock order, wrapping from the last to the first |
| WeaponSystem.SwitchKeepsValid | src/systems/WeaponSystem.js:20-25 | a switch always lands on an unlocked weapon and keeps the registry valid |
| WeaponSystem.SwitchTimesAdvances | src/systems/WeaponSystem.js:20-25 | before the end of the list, n switches move n places forward |
| WeaponSystem.SwitchCycleReturns | src/systems/WeaponSystem.js:20-25 | as many switches as there are unlocked weapons return to the starting weapon |
| WeaponSystem.UnlockThenSwitchScenario | src/systems/WeaponSystem.js:12-25 | from a new registry, unlocking the synthesizer then switching selects it, and switching again returns to the guitar |
| WeaponSystem.SetWeapon | src/systems/WeaponSystem.js:27-33 | a weapon becomes current, and the call reports true, exactly when it is unlocked; otherwise nothing changes |
| WeaponSystem.Fire | src/systems/WeaponSystem.js:35-73 | a shot is refused, leaving the registry alone, exactly when no more than the cooldown has passed; otherwise it is stamped now, carries the weapon's damage and speed, and expires 3000 ms later |
| WeaponSystem.NoTwoShotsAtOnce | src/systems/WeaponSystem.js:35-45 | a second shot at the same instant as a successful one is always refused |
| WeaponSystem.CanFire | src/systems/WeaponSystem.js:35-39 | firing is allowed only after more than 250 ms, the shortest cooldown, always after more than 1000 ms, the longest, and for the microphone exactly after more than 1000 ms |
| PlayerEntity.New | src/entities/Player.js:9-14 | a new player has 100 of 100 hit points, is alive and vulnerable, and faces right |
| PlayerEntity.Die | src/entities/Player.js:384-399 | death is a one-way switch: the animation starts only for a live player, and the player is dead afterwards |
| PlayerEntity.TakeDamage | src/entities/Player.js:308-319 | damage is ignored exactly while the player is invulnerable or dead; otherwise hit points drop, floored at 0; a hit to 0 kills without invulnerability, and any other hit grants invulnerability for 1000 ms |
| PlayerEntity.ExpireInvulnerability | src/entities/Player.js:348-353 | the invulnerability timer clears the flag and nothing else |
| PlayerEntity.Heal | src/entities/Player.js:363-364 | healing adds hit points up to the maximum and changes nothing else |
| PlayerEntity.Reset | src/entities/Player.js:401-408 | a reset player is at full health, alive and vulnerable |
| PlayerEntity.HandleMovement | src/entities/Player.js:239-256 | left beats right and up beats down; the player faces the horizontal direction and keeps its facing without horizontal input |
| PlayerEntity.HandleAttack | src/entities/Player.js:267-297 | an attack happens exactly with space held and more than 300 ms since the last one; it stamps the time even when the weapon then declines to fire, and the shot heads the way the player faces; the registry returned has its fire time stamped exactly when the attack happens and the weapon's cooldown has passed, and is otherwise unchanged |
| PlayerEntity.Update | src/entities/Player.js:230-237 | a frame does nothing at all to a dead player; otherwise it moves, attacks and, on a fresh Q press, switches weapon and reports the new weapon |
| PlayerEntity.HpStaysInRange | src/entities/Player.js:308-364 | non-negative damage and non-negative heals keep hit points within [0, max] |
| PlayerEntity.HealInRange | src/entities/Player.js:363-365 | a heal of any amount keeps hit points in range exactly when it does not take them below 0; a negative amount larger than the hit points leaves them at their sum, below 0 |
| PlayerEntity.SecondHitIgnoredScenario | src/entities/Player.js:308-353 | a full-health player hit for 30 drops to 70 and becomes invulnerable, and an immediate second hit changes nothing |
| PlayerEntity.DeathIsTerminal | src/entities/Player.js:230-399 | once dead, damage, `die`, frames, heals and timers leave the player dead |
| PlayerEntity.RunEvents | src/entities/Player.js:308-399 | over any run of hits, heals and timer expiries, `die` starts at most once, and never for an already dead player |
| EnemyEntity.BehaviorOf | src/entities/Enemy.js:46-69 | each known behaviour tag selects its rule, and any other tag patrols horizontally |
| EnemyEntity.Create | src/entities/Enemy.js:5-44 | the defaults are 20 hp, 5 damage, 50 speed, horizontal patrol, one bronze coin, no special and a 1000 ms cooldown; a zero setting counts as missing; max hp is the starting hp |
| EnemyEntity.Patrol | src/entities/Enemy.js:72-91 | the direction flips once the enemy is at least the patrol distance from its start, and the velocity is speed times direction along the axis and zero across it |
| EnemyEntity.SpecialEffects | src/entities/Enemy.js:138-161 | steal-score takes 10 points, steal-budget asks to spend 50, slow halves the speed, and any other special does nothing |
| EnemyEntity.CheckAttack | src/entities/Enemy.js:120-136 | the enemy strikes exactly when a live player is within 40 pixels and more than the cooldown has passed; a strike stamps the time, damages the player, then fires the special |
| EnemyEntity.Update | src/entities/Enemy.js:46-69 | a dead enemy does nothing; static stands still; chase steers only toward a live player; random walk re-aims when the last change is unset or over 2000 ms old; the attack check follows every live frame |
| EnemyEntity.DropValue | src/entities/Enemy.js:232 | a dropped coin is worth its table value, or 50 for a type the table lacks |
| EnemyEntity.CoinValueTableNonZero | src/entities/Enemy.js:232 | no listed coin is worth 0, so the fallback only replaces a missing entry |
| EnemyEntity.DropLoot | src/entities/Enemy.js:225-261 | an empty drop list and a picked tag without "coin" drop nothing; a coin tag drops one coin typed by the tag without "_coin" and valued as above |
| EnemyEntity.Die | src/entities/Enemy.js:200-211 | dying credits the defeat and then drops loot, only for a live enemy; the enemy is dead afterwards |
| EnemyEntity.TakeDamage | src/entities/Enemy.js:164-198 | a dead enemy ignores damage; otherwise hit points drop, floored at 0, and the enemy dies exactly when the damage reaches its hit points |
| EnemyEntity.DieIdempotent | src/entities/Enemy.js:200-201 | a second `die` changes nothing and produces no effect |
| EnemyEntity.TakeHits | src/entities/Enemy.js:164-211 | over any run of hits the defeat is credited exactly once if the enemy dies in it, and never otherwise |
| EnemyEntity.DropAndCollectDisagree | src/entities/Enemy.js:232 | an unknown coin type is worth 50 when dropped but 0 when the budget ledger collects it |
| EnemyEntity.SlowStepAsWritten | src/entities/Enemy.js:152-159 | as written, a slow halves the speed and remembers the speed it found, and its timer puts back that remembered speed |
| EnemyEntity.SlowOverlapLosesSpeed | src/entities/Enemy.js:152-159 | two overlapping slows leave the player at 75 for good as written, and at 150 with the correction |
| EnemyEntity.RestoreSpeed | src/entities/Enemy.js:156-158 | the corrected restore undoes exactly one halving |
| EnemyEntity.SlowStep | src/entities/Enemy.js:152-159 | corrected slow: each slow halves the speed and counts one running timer, and each expiry undoes one halving |
| EnemyEntity.SlowTracksActive | src/entities/Enemy.js:152-159 | with the correction the speed is always the base speed halved once per running slow, whatever the order of slows and expiries |
| EnemyEntity.SlowsWearOff | src/entities/Enemy.js:152-159 | with the correction the speed is back to its base once every slow timer has fired |
| Level.Enter | src/scenes/World1_DataValley.js:14-58 | a scene starts with a new player at base speed and no slow running, and it is valid when its ledgers, registry and enemies are |
| Level.ApplyEffect | src/entities/Enemy.js:138-211 | contact damage is the player's `takeDamage`, and only it can start `die`, only on a live player; a steal takes points or budget through the ledgers' own subtraction; the slow halves the speed and remembers the speed it found; a credited defeat is one `defeatCompetitor`; a drop adds one coin of the dropped type and value when the scene has a coin group, and nothing otherwise; no effect touches the genre |
| Level.ApplyEffects | src/entities/Enemy.js:120-211 | a sequence of effects reports a death only when it turns a live player dead, and never revives a dead one |
| Level.ApplyEffectKeepsValid | src/entities/Enemy.js:138-161 | each sane effect keeps both ledgers in range, hit points in range and every current or remembered speed positive |
| Level.ApplyEffectsKeepsValid | src/entities/Enemy.js:120-211 | any sequence of sane effects keeps the scene valid and leaves the enemies and the registry alone |
| Level.Fit | src/entities/Enemy.js:228 | the engine's pick always indexes a non-empty drop list |
| Level.RemoveAt | src/scenes/World1_DataValley.js:296 | a collected coin leaves the group and the order of the others is kept |
| Level.UpdateEffectsSane | src/entities/Enemy.js:120-136 | an enemy with non-negative damage only ever asks for non-negative damage |
| Level.HitEffectsSane | src/entities/Enemy.js:225-261 | every coin a killed enemy drops is worth more than 0 |
| Level.StepKeepsValid | src/scenes/World1_DataValley.js:286-319 | under either reading, every enemy frame, collision and timer of the shared play rules keeps the ledgers in range, hit points in range, speeds positive and the enemies and coins well-formed |
| Level.StepKeepsGenre | src/scenes/World1_DataValley.js:286-319 | under either reading, no event of play changes the chosen genre |
| Level.DeadEnemyIsInert | src/scenes/World1_DataValley.js:287-317 | touching or shooting a dead enemy changes nothing |
| Level.TouchCost | src/scenes/World1_DataValley.js:287-291 | touching a live enemy costs a vulnerable player the enemy's damage, or 5 when that damage is 0, floored at 0 hit points |
| Level.PickupRewards | src/scenes/World1_DataValley.js:293-303 | a coin pickup adds exactly the coin's value and removes the coin; a crystal adds 5 points, capped at 100 |
| Level.KillCreditsOnce | src/scenes/World1_DataValley.js:311-317 | a projectile still in flight that kills a live enemy raises the score exactly as one defeat does and leaves the enemy dead |
| Level.Step | src/scenes/World1_DataValley.js:286-319 | one collision or timer of play reports a death only when it turns a live player dead, and only from an enemy frame, a contact or a projectile hit; pickups leave the player and the enemies alone; a projectile past its lifetime changes nothing |
| Level.Run | src/scenes/World1_DataValley.js:286-319 | under either reading, the scene is still valid after any run of timed play events |
| Level.SlowsAlwaysWearOff | src/entities/Enemy.js:152-159 | corrected: in any run of the scene, once no slow timer is running the player is at full speed |
| Level.ApplyEffectSlowOnly | src/entities/Enemy.js:138-161 | only the slow touches the player's speed and the remembered speeds |
| Level.ApplyEffectKeepsSlowTracked | src/entities/Enemy.js:152-159 | every effect keeps the speed at the base speed halved once per running slow |
| Level.ApplyEffectsKeepSlowTracked | src/entities/Enemy.js:120-161 | a sequence of effects keeps the speed at the base speed halved once per running slow |
| Level.StepKeepsSlowTracked | src/entities/Enemy.js:152-159 | corrected: every event of play keeps the speed at the base speed halved once per running slow |
| Level.RunKeepsSlowTracked | src/entities/Enemy.js:152-159 | corrected: any run keeps the speed at the base speed halved once per running slow |
| Level.SlowTimerReadings | src/entities/Enemy.js:155-158 | the slow timer ends the oldest running slow; as written it puts back the speed that slow remembered, corrected it doubles the current speed |
| Level.SlowOverlapInScene | src/entities/Enemy.js:152-159 | two overlapping slows on a player at full speed, then both timers: as written the player ends at half speed, corrected at full speed |
| World1DataValley.NewBoss | src/scenes/World1_DataValley.js:466-468 | the boss starts with 200 of 200 hit points in phase 1 |
| World1DataValley.Create | src/scenes/World1_DataValley.js:14-58 | world 1 starts with fresh ledgers (50 points, 0 budget), a new player and registry, 15 crystals, five untouched temples and no boss, and satisfies the scene invariant |
| World1DataValley.EnterTemple | src/scenes/World1_DataValley.js:305-364 | only an uncompleted temple opens, with the interact key, and it is marked completed at once, before its puzzle is solved |
| World1DataValley.ClickPuzzle | src/scenes/World1_DataValley.js:412-425 | a click counts even on the same button, and the resolve timer starts exactly on the third click |
| World1DataValley.ResolveAfterThreeClicks | src/scenes/World1_DataValley.js:412-425 | on a fresh puzzle, n clicks start the resolve timer once when n is at least 3 and never before |
| World1DataValley.CheckAllTemplesAsWritten | src/scenes/World1_DataValley.js:431-437 | as written, the boss is (re)spawned whenever every temple is completed |
| World1DataValley.RespawnAsWritten | src/scenes/World1_DataValley.js:431-437 | as written, a resolution after the boss's defeat spawns a fresh boss over the defeated one |
| World1DataValley.CheckAllTemples | src/scenes/World1_DataValley.js:431-437 | corrected: the boss spawns exactly when every temple is completed and none has spawned yet |
| World1DataValley.CheckTemples | src/scenes/World1_DataValley.js:431-437 | the check spawns exactly when every temple is completed and, under the corrected reading, no boss exists yet |
| World1DataValley.ResolvePuzzle | src/scenes/World1_DataValley.js:417-437 | the resolve timer closes the puzzle, completes a quest (+15) and runs the boss check; the boss spawns exactly when every temple is completed and, corrected, none has spawned yet; as written a fresh boss replaces any present one; a puzzle not resolving is left alone |
| World1DataValley.BossVolley | src/scenes/World1_DataValley.js:502-533 | the attack timer fires nothing without a live boss, 5 projectiles in phase 1 and 8 otherwise |
| World1DataValley.DamageBossAsWritten | src/scenes/World1_DataValley.js:567-581 | as written, every hit lowers hit points, the first drop to 100 or below enters phase 2, and every hit leaving 0 or below runs the defeat |
| World1DataValley.DamageBoss | src/scenes/World1_DataValley.js:567-602 | corrected: a defeated boss ignores further hits; any other hit is as written |
| World1DataValley.DamageBossBy | src/scenes/World1_DataValley.js:567-602 | as written every hit counts; corrected a defeated boss ignores the hit, and any other hit is as written |
| World1DataValley.DoubleDefeatAsWritten | src/scenes/World1_DataValley.js:567-602 | a boss at 10 hit points hit twice for 25 is defeated twice as written and once with the correction |
| World1DataValley.DefeatedOnce | src/scenes/World1_DataValley.js:567-602 | with the correction, over any run of hits the defeat runs once if the boss ends defeated from undefeated, and never otherwise |
| World1DataValley.DefeatRewards | src/scenes/World1_DataValley.js:599-601 | a defeat pays 20 points, 200 budget and the budget synthesizer, and touches nothing else |
| World1DataValley.DoubleRewardsAsWritten | src/scenes/World1_DataValley.js:599-601 | from 50 points and no budget, a double defeat pays 40 points and 400 budget instead of 20 and 200 |
| World1DataValley.HitBoss | src/scenes/World1_DataValley.js:513-516 | a projectile deals its damage, or 10 when that is 0, under the reading's damage rule; phase 2 and the defeat are reported, and the rewards are paid and one exit tween started (src/scenes/World1_DataValley.js:583-601) only when the defeat runs |
| World1DataValley.Step | src/scenes/World1_DataValley.js:286-614 | the death report comes only when the death tween ends on a dead player, with the figures of that moment; the scene changes only when the completion timer fires after an exit tween ended, to world 2; only a temple entry changes the temples, only a puzzle timer or a boss hit changes the boss; a pending completion stays pending; a projectile past its lifetime changes nothing |
| World1DataValley.RespawnStillLeaves | src/scenes/World1_DataValley.js:583-614 | as written, after a respawn over the defeated boss, the first boss's exit tween still ends and its completion timer saves and starts world 2 with the figures of that moment |
| World1DataValley.SaveProgress | src/scenes/World1_DataValley.js:616-625 | the save resumes in world 2 with the current score, budget and weapons, and has no genre |
| World1DataValley.StepKeepsInv | src/scenes/World1_DataValley.js:286-614 | under either reading every event keeps the scene invariant: five temples whose puzzle has left its closed state exactly when the temple was entered, and a boss only once all are completed, with hit points at most 200, phase 2 from 100 down, defeated exactly at 0 or below |
| World1DataValley.BossNeedsAllTemples | src/scenes/World1_DataValley.js:431-437 | under either reading a boss is present only once every temple has been entered |
| World1DataValley.Run | src/scenes/World1_DataValley.js:286-614 | under either reading, any run of timed events keeps the scene invariant |
| World1DataValley.StepSignals | src/scenes/World1_DataValley.js:431-602 | corrected: one event reports a boss spawn exactly when a boss appears, and a defeat exactly when the boss becomes defeated; a present boss stays, and a defeated one is untouched |
| World1DataValley.BossOnceInAnyRun | src/scenes/World1_DataValley.js:431-602 | corrected: over any run the boss spawns at most once and its defeat, with its rewards, happens at most once |
| World1DataValley.LateHitAsWritten | src/scenes/World1_DataValley.js:567-602 | as written, a hit on a boss already defeated pays 20 points and 200 budget again and reports the defeat again; corrected, it changes nothing |
| World1DataValley.RespawnStepAsWritten | src/scenes/World1_DataValley.js:417-437 | as written, a puzzle resolved after the boss's defeat spawns a fresh boss and reports it; corrected, the defeated boss stays and nothing is reported |
| World1DataValley.DeathWaitsForTween | src/entities/Player.js:384-397 | a killing blow from the boss reports nothing; when the death tween ends, the game-over screen gets the figures of that moment and world 1 (src/scenes/World1_DataValley.js:348-355), whose retry key starts this scene (src/scenes/GameOverScene.js:74); without a death there is no report |
| World1DataValley.VolleySize | src/scenes/World1_DataValley.js:519-533 | a live boss at or below 100 hit points fires 8 projectiles, and a phase-1 boss is above 100 and fires 5 |
| World2ScoringMaze.Init | src/scenes/World2_ScoringMaze.js:13-16 | the carried score defaults to 50 and the budget to 0 when missing or zero |
| World2ScoringMaze.Create | src/scenes/World2_ScoringMaze.js:18-40 | the scene rebuilds fresh ledgers from the carried figures, unlocks the synthesizer, has no coin group or crystals, and starts with three closed doors and no genre |
| World2ScoringMaze.CarryOver | src/scenes/World2_ScoringMaze.js:13-29 | a carried score of 1 to 100 arrives unchanged, a missing or zero one as 50, others clamped; the budget arrives exactly; the registry holds guitar and synthesizer |
| World2ScoringMaze.FromWorldOne | src/scenes/World1_DataValley.js:604-614 | world 2 starts from world 1's figures, except that a score of 0 restarts at 50, and satisfies its invariant |
| World2ScoringMaze.TouchDoor | src/scenes/World2_ScoringMaze.js:185-192 | a standing door opens exactly when the score reaches its requirement; otherwise a message names the requirement |
| World2ScoringMaze.DoorsMatchBands | src/scenes/World2_ScoringMaze.js:103-108 | the doors at 40, 70 and 85 open exactly from the High, Low and Very Low competition bands |
| World2ScoringMaze.ChooseGenre | src/scenes/World2_ScoringMaze.js:194-224 | a portal sets the genre, with its bonus, only while no genre was chosen, and starts the boss timer |
| World2ScoringMaze.SpawnBoss | src/scenes/World2_ScoringMaze.js:226-265 | the boss has 300 hit points; below 40 points it is big, fast and red, below 70 medium and yellow, otherwise small, slow and green |
| World2ScoringMaze.SpawnBossMonotone | src/scenes/World2_ScoringMaze.js:229-244 | a better score never meets a bigger or faster boss |
| World2ScoringMaze.SpawnBossMatchesBands | src/scenes/World2_ScoringMaze.js:229-244 | the boss is red exactly in the Very High band and green exactly from the Low band up |
| World2ScoringMaze.HitBossAsWritten | src/scenes/World2_ScoringMaze.js:285-292 | as written, every hit lowers hit points by the damage (10 when 0), and every hit leaving 0 or below runs the defeat |
| World2ScoringMaze.DoubleDefeatAsWritten | src/scenes/World2_ScoringMaze.js:285-316 | as written, two late hits defeat the boss twice and, from a fresh world, pay up to 100 points and 1000 budget |
| World2ScoringMaze.HitBoss | src/scenes/World2_ScoringMaze.js:285-316 | corrected: a defeated boss ignores further hits; any other hit is as written |
| World2ScoringMaze.Step | src/scenes/World2_ScoringMaze.js:178-330 | the scene changes only when the completion timer fires, to world 3; only a door changes the doors, only a portal the genre choice, only the spawn timer or a boss hit the boss; a projectile past its lifetime changes nothing |
| World2ScoringMaze.HitBossBy | src/scenes/World2_ScoringMaze.js:285-316 | as written every hit counts; corrected a defeated boss ignores the hit, and any other hit is as written |
| World2ScoringMaze.DefeatRewards | src/scenes/World2_ScoringMaze.js:313-315 | a defeat pays 25 points, 500 budget and the drums, and touches nothing else |
| World2ScoringMaze.SaveProgress | src/scenes/World2_ScoringMaze.js:330-340 | the save resumes in world 3 with the current score, budget, weapons and genre |
| World2ScoringMaze.StepKeepsInv | src/scenes/World2_ScoringMaze.js:178-328 | under either reading every event keeps the invariant: the boss timer and the boss only after the genre choice and never both, and the boss defeated exactly at 0 hit points or below |
| World2ScoringMaze.StepSignals | src/scenes/World2_ScoringMaze.js:194-316 | corrected: one event reports a genre choice, a boss spawn or a defeat exactly when that change happens |
| World2ScoringMaze.StepGenreCount | src/scenes/World2_ScoringMaze.js:194-224 | under either reading, one event reports a genre choice exactly when it makes the first choice |
| World2ScoringMaze.StepSpawnCount | src/scenes/World2_ScoringMaze.js:219-226 | under either reading, one event reports a boss spawn exactly when the boss appears |
| World2ScoringMaze.StepDefeatCount | src/scenes/World2_ScoringMaze.js:285-316 | corrected: one event reports a defeat exactly when the boss becomes defeated |
| World2ScoringMaze.StepPersists | src/scenes/World2_ScoringMaze.js:185-316 | under either reading a chosen genre stays unchanged, a present boss stays and an opened door stays open; corrected, a defeated boss is also untouched |
| World2ScoringMaze.Run | src/scenes/World2_ScoringMaze.js:178-328 | under either reading, any run of timed events keeps the scene invariant |
| World2ScoringMaze.OnceInAnyRun | src/scenes/World2_ScoringMaze.js:194-316 | corrected: over any run the genre is chosen at most once and never replaced, the boss spawns at most once, its defeat and rewards happen at most once, and opened doors stay open |
| World2ScoringMaze.LateHitAsWritten | src/scenes/World2_ScoringMaze.js:285-316 | as written, a hit on a boss already defeated pays 25 points and 500 budget again and reports the defeat again; corrected, it changes nothing |
| MenuScene.MenuUp | src/scenes/MenuScene.js:158-161 | up moves the cursor one entry higher, from the top to the bottom, and it stays on an entry |
| MenuScene.MenuDown | src/scenes/MenuScene.js:163-166 | down moves the cursor one entry lower, from the bottom to the top, and it stays on an entry |
| MenuScene.UpDownInverse | src/scenes/MenuScene.js:158-166 | up undoes down and down undoes up |
| MenuScene.SelectMenuItem | src/scenes/MenuScene.js:182-195 | each entry does its own thing: the form, loading, or the options or credits message |
| MenuScene.MenuFrame | src/scenes/MenuScene.js:155-171 | a frame applies up, then down, then selects the resulting entry, and the cursor stays in range |
| MenuScene.NewForm | src/scenes/MenuScene.js:202-210 | the form opens empty on the first field with genre "pop", satisfying the form invariant |
| MenuScene.SetFieldText | src/scenes/MenuScene.js:494-506 | editing one field changes that field's text only |
| MenuScene.HandleFormKey | src/scenes/MenuScene.js:455-513 | Tab cycles five fields; Enter starts exactly when the form is complete; arrows on the genre field cycle seven genres; Backspace drops the last character; a one-character key is appended below 30 characters |
| MenuScene.HandleKeyKeepsInvariant | src/scenes/MenuScene.js:455-513 | every key keeps the field and genre cursors in range, the genre named by its cursor, and every text at most 30 characters |
| MenuScene.SetFieldKeepsInvariant | src/scenes/MenuScene.js:504-511 | writing a text of at most 30 characters into a field keeps the form invariant |
| MenuScene.TypeKeys | src/scenes/MenuScene.js:455-513 | after any sequence of keys no field exceeds 30 characters |
| MenuScene.CanStartGame | src/scenes/MenuScene.js:536-544 | the form may start exactly when the name and first name have at least 2 characters and the email at least 5, one of them an `@` |
| MenuScene.AtSignOccurs | src/scenes/MenuScene.js:539 | `includes('@')` holds exactly when some character of the email is `@` |
| MenuScene.StartGameWithData | src/scenes/MenuScene.js:602-605 | the start stores the artist name as name, space, first name, the email and genre as typed, and world 1 |
| MenuScene.StartedNameShown | src/scenes/MenuScene.js:602-605 | the stored artist name is never empty, so the victory screen (src/scenes/VictoryScene.js:11-12) shows it rather than its fallback "INDIE_ARTIST", and a startable form's email likewise; without a space in the name, name and first name sit on either side of the first space |
| MenuScene.BackspaceOnEmpty | src/scenes/MenuScene.js:498-503 | Backspace on an empty field leaves the form as it was |
| MenuScene.RightTimesIndex | src/scenes/MenuScene.js:481-488 | n right presses move the genre cursor n places modulo seven |
| MenuScene.GenreCycle | src/scenes/MenuScene.js:473-488 | any positive multiple of seven right presses returns to the same genre |
| MenuScene.LoadGame | src/scenes/MenuScene.js:634-647 | without a save a message says so; with one the saved world's key is started, world 1 when the number is missing or 0 |
| MenuScene.LoadGameStartsRegisteredWorld | src/scenes/MenuScene.js:642 | a save whose world is missing, 0 or 1 to 5 starts a registered scene |
| Progress.WorldName | src/scenes/MenuScene.js:649-658 | worlds 1 to 5 have their names, and any other number falls back to "DataValley"; the game-over screen's copy (src/scenes/GameOverScene.js:109-118) is the same table |
| Progress.SceneKeysOfWorlds | src/config/gameConfig.js:30-34 | the keys built for worlds 1 to 5 are the five registered world scenes |
| Progress.SceneKeyRegistered | src/config/gameConfig.js:27-37 | a world number's key names a registered scene exactly when the number is 1 to 5 |
| Progress.FallbackKeyIsWorldOne | src/config/gameConfig.js:27-37 | a key ending in the fallback name is registered only with the digit 1 |
| Hud.HealthColor | src/ui/HUD.js:108-118 | for a positive maximum the bar is green above 60%, yellow above 30% and red otherwise, written as 10·cur > 6·max and 10·cur > 3·max |
| Hud.HealthColorAgrees | src/ui/HUD.js:110-118 | the division-free colour equals the colour picked through the real quotient, for any non-zero maximum |
| Hud.HealthColorMonotone | src/ui/HUD.js:116-118 | losing hit points never makes the bar greener |
| Hud.HealthColorScenario | src/ui/HUD.js:116-118 | 100/100 is green, 31/100 yellow, 30/100 and 0/100 red |
| Hud.HpLabelInjective | src/ui/HUD.js:123 | the health label names both numbers: equal labels mean equal hit points and maxima |
| Hud.LabelsInjective | src/ui/HUD.js:126-139 | the score and budget labels name their number |
| Hud.GetCompetitionLevel | src/ui/HUD.js:162-168 | the HUD's upper-case label and colour are those of the score's band |
| Hud.ColorToHex | src/ui/HUD.js:170-172 | the colour text is "#" followed by at least six characters, all hex digits for a non-negative colour |
| Hud.ColorToHexRoundTrip | src/ui/HUD.js:170-172 | a 24-bit colour renders as "#" and exactly six hex digits, which read back as the colour |
| GameOver.Init | src/scenes/GameOverScene.js:6-10 | missing or zero figures show as 0 and 0, and a missing or zero world as 1 |
| GameOver.GetCompetitionLevel | src/scenes/GameOverScene.js:101-107 | the screen's label is that of the score's band |
| GameOver.RetryRestartsWorld | src/scenes/GameOverScene.js:74 | retry starts a registered scene exactly when the world is missing, 0 or 1 to 5; without a world it restarts world 1 |
| GameOver.RetryScene | src/scenes/GameOverScene.js:74 | the retry key is a registered scene exactly when the world is 1 to 5, and world 1 retries "World1_DataValley" |
| Victory.Init | src/scenes/VictoryScene.js:8-13 | missing or zero figures show as 0, and the artist and email fall back to "INDIE_ARTIST" and "artist@music.com" |
| Victory.ScoreLineMarksPerfect | src/scenes/VictoryScene.js:43 | the score line ends with "(PERFECT!)" exactly when the score is 100 |
| Victory.ScoreLine | src/scenes/VictoryScene.js:43 | the line starts "Final Score: ", ends with "(PERFECT!)" at 100 and otherwise with "/100 " |
| Victory.GetCompetitionLevel | src/scenes/VictoryScene.js:194-200 | the screen's label is that of the score's band |
| Victory.ReleaseQuality | src/scenes/VictoryScene.js:202-209 | the grade's rank is the number of cut-offs 50, 60, 70, 80 and 90 the score reaches |
| Victory.ReleaseQualityMonotone | src/scenes/VictoryScene.js:202-209 | a higher score never earns a worse grade |
| Victory.PerfectScreen | src/scenes/VictoryScene.js:114-116 | a perfect score is a Masterpiece with Very Low competition |

## Left out

- Rendering, tweens, particles, camera, text layout and the HUD bar's width are not modelled. They carry no rule.
- Physics, collision detection and world bounds are not modelled. A collision is an event given to the rules, so "when" two bodies touch is outside the model.
- Trigonometry and floating point are left out: chase and random-walk velocities, projectile and boss-projectile angles, world 2's boss steering, and the 0.707 diagonal normaliser. `HandleMovement` reports the direction of travel only.
- Positions are integers. The enemy's `distance < 40` is compared on squared distances, which is exact.
- The engine's random numbers are left out: spawn positions, the random-walk angle, and the tint flicker in `updateInvulnerability`. The drop pick is a caller-supplied index.
- The webhook `fetch` in `startGameWithData`, `localStorage` and the engine registry are I/O. Only the save record and transfer values are modelled.
- The per-world enemy configuration tables (`createEnemies`) are inputs to `Create`, not modelled data.
- BootScene, main, debug-main, vite configuration and the asset loading have no rules to state. The scene list of `src/config/gameConfig.js` is used only as the set of registered keys.
- Worlds 3 to 5 are not modelled. They repeat world 2's carry-over pattern.
- `calculateStreams` on the victory screen uses `Math.pow` and `log10` and is not modelled.
- Messages shown by `showMessage` are modelled only where a rule chooses them: door messages, menu messages, and "No saved game found!". Intro and completion banners are not modelled. So is world 1's completion text naming the guitar rather than the synthesizer it unlocks.
- The `scoreChanged`, `budgetChanged`, `playerHealthChanged` and `weaponSwitched` notifications are the returned values. The emitter is not modelled.
- In-flight projectiles are not tracked as a set. Each projectile hit is an event that carries the projectile, and the hit counts only while `now < expiresAt`. A hit does not consume the projectile: `projectile.destroy()` is not modelled, so the caller must not report the same projectile twice.
- Weapon keys are the five configured weapons (`Constants.WeaponKey`), not arbitrary strings. The source's `unlockWeapon` and `setWeapon` accept any string, and a key missing from `WEAPONS` would fail only later, in `canFire`. Every call in the scenes passes a configured key.
- WeaponSystem.SwitchWeapon: requires a non-empty unlocked list. The source list starts with one weapon and only grows, and on an empty list the source would select `undefined`.
- Level.Step: requires a non-empty registry, for the same reason.
- World1DataValley.StepKeepsInv: assumes projectile damage is non-negative. This holds for every weapon in the table and keeps boss hit points at or below the maximum.
- World2ScoringMaze.StepKeepsInv: has the same assumption on projectile damage.
- World2ScoringMaze.Step treats the completion timer as existing once the boss is defeated. In the source, the end of the exit tween starts it. World 2 has no respawn, so the two readings agree.
- World1DataValley.Step: the end of the exit tween is an event, allowed once per tween that a defeat started, and it sets the pending completion. Its 1000 ms duration and the 3000 ms completion delay are not checked. The tween's `this.boss.destroy()` is not modelled: after an as-written respawn the boss record is the fresh boss, which can still be hit until the scene changes.
- Level.Fit: turns the engine's pick into an index of the drop list by remainder. The pick's uniform distribution is not modelled.
- EnemyEntity.DropLoot: requires the pick to index the list when the list is non-empty, which the engine's pick guarantees.
- Pause (ESC) and the options and credits screens are not modelled.
- Level.Valid: does not promise that the speed is the base speed halved once per running slow. As written that is false after overlapping slows. `Level.SlowTracked` states it, and it is proved for the corrected reading only.
- World1DataValley.Step: the end of the death tween is an event, allowed once the player is dead. Its 1000 ms delay after the killing blow is not checked.
- MenuScene.HandleFormKey: text lengths count characters. The source's `length` counts UTF-16 code units, so a character outside the Basic Multilingual Plane counts twice there, both in the 30-character limit and in the minimum lengths of `validateForm`.
- Strings.IntToString: figures are unbounded integers. The source's numbers are doubles. They are exact only up to 2^53, and from 10^21 on they render in exponent form, such as "1e+21". Budgets that large are not modelled.

## Findings

| source | as written | input that shows it | evidently intended | confidence | as-written member | corrected member |
|---|---|---|---|---|---|---|
| src/entities/Enemy.js:152-159 | each slow saves the speed it found and its timer restores that saved speed | two slows 1 s apart on a player at 150, then both timers fire: the speed ends at 75 for good | the slow is temporary: once every slow has worn off the player moves at the original speed; latent, since no configured enemy has this special (src/scenes/World1_DataValley.js:165, 179; src/scenes/World2_ScoringMaze.js:77, 87) | not executed | Level.SlowOverlapInScene | Level.SlowsAlwaysWearOff |
| src/scenes/World1_DataValley.js:567-602 | `damageBoss` runs `defeatBoss` on every hit that leaves hp at or below 0, including hits during the 1 s exit tween | a boss at 10 hp hit twice for 25: rewards paid twice (+40 points, +400 budget) | the boss is defeated, and rewarded, once | not executed | World1DataValley.LateHitAsWritten | World1DataValley.BossOnceInAnyRun |
| src/scenes/World1_DataValley.js:431-437 | temples are completed on entry, so every later puzzle resolution with all five entered spawns a boss | enter all five temples, solve four puzzles, defeat the boss, then solve the fifth puzzle: a fresh boss appears | the boss appears once, when the temples are done | not executed | World1DataValley.RespawnStepAsWritten | World1DataValley.BossOnceInAnyRun |
| src/scenes/World2_ScoringMaze.js:285-316 | the projectile overlap runs `defeatBoss` on every hit that leaves hp at or below 0, including hits during the exit tween | a boss at 10 hp hit twice for 25: rewards paid twice (+50 points, +1000 budget) | the boss is defeated, and rewarded, once | not executed | World2ScoringMaze.LateHitAsWritten | World2ScoringMaze.OnceInAnyRun |

=== FILE: bands.dfy ===
/** The score bands the game labels in four places (the score ledger, the
    HUD, the game-over screen and the victory screen). The band is defined
    once here, as the number of cut-offs a score reaches; each screen's own
    copy of the cut-off chain is proved to agree with it. */
module Bands {

  /** Competition level, best (lowest competition) first. */
  datatype Competition = VeryLow | Low | Moderate | High | VeryHigh

  /** The scores at which the competition level improves by one band. */
  const CompetitionCutoffs: seq<int> := [40, 55, 70, 85]

  /** How many of `cutoffs` a score has reached. */
  function Reached(cutoffs: seq<int>, score: int): (n: nat)
    ensures n <= |cutoffs|
  {
    if |cutoffs| == 0 then 0
    else (if cutoffs[0] <= score then 1 else 0) + Reached(cutoffs[1..], score)
  }

  /** A higher score never reaches fewer cut-offs. */
  lemma {:induction false} ReachedMonotone(cutoffs: seq<int>, s1: int, s2: int)
    requires s1 <= s2
    ensures Reached(cutoffs, s1) <= Reached(cutoffs, s2)
    decreases |cutoffs|
  {
    if |cutoffs| > 0 {
      ReachedMonotone(cutoffs[1..], s1, s2);
    }
  }

  /** Unfolds `Reached` over a literal list of four cut-offs. */
  lemma ReachedFour(a: int, b: int, c: int, d: int, score: int)
    ensures Reached([a, b, c, d], score) ==
      (if a <= score then 1 else 0) + (if b <= score then 1 else 0)
      + (if c <= score then 1 else 0) + (if d <= score then 1 else 0)
  {
    assert [d][1..] == [];
    assert Reached([d], score) == (if d <= score then 1 else 0);
    assert [c, d][1..] == [d];
    assert Reached([c, d], score) == (if c <= score then 1 else 0) + Reached([d], score);
    assert [b, c, d][1..] == [c, d];
    assert Reached([b, c, d], score) == (if b <= score then 1 else 0) + Reached([c, d], score);
    assert [a, b, c, d][1..] == [b, c, d];
  }

  /** The band's rank: the number of cut-offs a score in it has reached. */
  function Rank(c: Competition): nat
  {
    match c
    case VeryHigh => 0
    case High => 1
    case Moderate => 2
    case Low => 3
    case VeryLow => 4
  }

  /** The competition band of a score: `>= 85` very low, `>= 70` low,
      `>= 55` moderate, `>= 40` high, otherwise very high. Total, and its
      rank is the number of cut-offs the score has reached. */
  function CompetitionOf(score: int): (c: Competition)
    ensures Rank(c) == Reached(CompetitionCutoffs, score)
  {
    ReachedFour(40, 55, 70, 85, score);
    if score >= 85 then VeryLow
    else if score >= 70 then Low
    else if score >= 55 then Moderate
    else if score >= 40 then High
    else VeryHigh
  }

  /** A higher score never yields a worse competition band. */
  lemma CompetitionMonotone(s1: int, s2: int)
    requires s1 <= s2
    ensures Rank(CompetitionOf(s1)) <= Rank(CompetitionOf(s2))
  {
    ReachedMonotone(CompetitionCutoffs, s1, s2);
  }

  /** The label as the score ledger, the game-over and the victory screens write it. */
  function Label(c: Competition): string
  {
    match c
    case VeryLow => "Very Low"
    case Low => "Low"
    case Moderate => "Moderate"
    case High => "High"
    case VeryHigh => "Very High"
  }

  /** The label as the HUD writes it. */
  function UpperLabel(c: Competition): string
  {
    match c
    case VeryLow => "VERY LOW"
    case Low => "LOW"
    case Moderate => "MODERATE"
    case High => "HIGH"
    case VeryHigh => "VERY HIGH"
  }

  /** The colour the score ledger and the HUD attach to a band. */
  function Color(c: Competition): int
  {
    match c
    case VeryLow => 0x00FF00
    case Low => 0x90EE90
    case Moderate => 0xFFFF00
    case High => 0xFFA500
    case VeryHigh => 0xFF0000
  }

  /** `{ level, color }` as returned by the ledger's and the HUD's `getCompetitionLevel`. */
  datatype CompetitionInfo = CompetitionInfo(level: string, color: int)
}

=== FILE: budget_system.dfy ===
/** The budget ledger (`src/systems/BudgetSystem.js`): an unclamped budget
    and a stored tier that `updateTier` recomputes by scanning the tier
    table after every mutation. Spending more than the budget fails
    silently. The `budgetChanged` notification is the returned ledger. */
module BudgetSystem {

  import opened Common
  import opened Constants

  datatype BudgetLedger = BudgetLedger(budget: int, tier: Tier)

  /** The budget is non-negative and the stored tier is the one its range gives. */
  predicate Consistent(l: BudgetLedger)
  {
    l.budget >= 0 && l.tier == TierFor(l.budget)
  }

  /** A fresh ledger: budget 0 in tier 1. */
  function New(): (l: BudgetLedger)
    ensures l.budget == 0 && l.tier == Tier1
    ensures Consistent(l)
  {
    BudgetLedger(0, Tier1)
  }

  /** The `for ... of Object.entries(BUDGET_TIERS)` loop with `break`: the
      tier of the first row whose range holds `budget`, if any. */
  function ScanTiers(rows: seq<TierRow>, budget: int): (r: Option<Tier>)
    ensures r.None? <==> forall i :: 0 <= i < |rows| ==> !InRow(rows[i], budget)
    ensures r.Some? ==> exists i :: 0 <= i < |rows| && InRow(rows[i], budget) && rows[i].tier == r.value
                                && (forall j :: 0 <= j < i ==> !InRow(rows[j], budget))
  {
    if |rows| == 0 then None
    else if InRow(rows[0], budget) then Some(rows[0].tier)
    else
      var rest := ScanTiers(rows[1..], budget);
      if rest.Some? then
        var i :| 0 <= i < |rows[1..]| && InRow(rows[1..][i], budget) && rows[1..][i].tier == rest.value
                 && (forall j :: 0 <= j < i ==> !InRow(rows[1..][j], budget));
        assert InRow(rows[i + 1], budget) && rows[i + 1].tier == rest.value;
        assert forall j :: 0 <= j < i + 1 ==> !InRow(rows[j], budget) by {
          forall j | 0 <= j < i + 1
            ensures !InRow(rows[j], budget)
          {
            if j > 0 {
              assert rows[j] == rows[1..][j - 1];
            }
          }
        }
        rest
      else
        assert forall i :: 0 <= i < |rows| ==> !InRow(rows[i], budget) by {
          forall i | 0 <= i < |rows|
            ensures !InRow(rows[i], budget)
          {
            if i > 0 {
              assert rows[i] == rows[1..][i - 1];
            }
          }
        }
        rest
  }

  /** `updateTier()`: a non-negative budget gets the tier its range gives;
      a negative budget matches no row and the previous tier stays. */
  function UpdateTier(l: BudgetLedger): (r: BudgetLedger)
    ensures r.budget == l.budget
    ensures l.budget >= 0 ==> r.tier == TierFor(l.budget) && Consistent(r)
    ensures l.budget < 0 ==> r.tier == l.tier
  {
    TiersPartition(l.budget);
    assert l.budget >= 0 ==> InRow(RowOf(TierFor(l.budget)), l.budget);
    match ScanTiers(BudgetTiers, l.budget)
    case Some(t) => l.(tier := t)
    case None => l
  }

  /** `addBudget(amount)`: add exactly `amount` and recompute the tier. */
  function AddBudget(l: BudgetLedger, amount: int): (r: BudgetLedger)
    ensures r.budget == l.budget + amount
    ensures r.budget >= 0 ==> Consistent(r)
    ensures r.budget < 0 ==> r.tier == l.tier
  {
    UpdateTier(l.(budget := l.budget + amount))
  }

  /** `canAfford(amount)`. */
  function CanAfford(l: BudgetLedger, amount: int): (b: bool)
    ensures b <==> l.budget - amount >= 0
    ensures Consistent(l) && amount <= 0 ==> b
  {
    l.budget >= amount
  }

  /** The ledger after a spend attempt and whether it succeeded. */
  datatype SpendResult = SpendResult(ledger: BudgetLedger, ok: bool)

  /** `spendBudget(amount)`: succeeds exactly when the ledger can afford
      it, and then takes exactly `amount`; otherwise changes nothing. */
  function SpendBudget(l: BudgetLedger, amount: int): (r: SpendResult)
    ensures r.ok <==> CanAfford(l, amount)
    ensures r.ok ==> r.ledger.budget == l.budget - amount && Consistent(r.ledger)
    ensures !r.ok ==> r.ledger == l
  {
    if l.budget >= amount then SpendResult(UpdateTier(l.(budget := l.budget - amount)), true)
    else SpendResult(l, false)
  }

  /** `COIN_VALUES[type] || 0`. */
  function CoinValue(coinType: string): (v: int)
    ensures coinType !in Keys(CoinValues) ==> v == 0
    ensures coinType in Keys(CoinValues) ==> v >= 50
    ensures coinType == "bronze" ==> v == 50
    ensures coinType == "silver" ==> v == 200
    ensures coinType == "gold" ==> v == 500
    ensures coinType == "platinum" ==> v == 1000
  {
    CoinValuesIncrease();
    match Lookup(CoinValues, coinType)
    case Some(v) => v
    case None => 0
  }

  /** `collectCoin(type)`: add the coin's value; an unknown coin adds nothing. */
  function CollectCoin(l: BudgetLedger, coinType: string): (r: BudgetLedger)
    ensures r.budget == l.budget + CoinValue(coinType)
    ensures r.budget >= l.budget
    ensures Consistent(l) ==> Consistent(r)
    ensures coinType !in Keys(CoinValues) && Consistent(l) ==> r == l
  {
    AddBudget(l, CoinValue(coinType))
  }

  /** `hasPerк(perk)` (the source spells it with a Cyrillic letter): the
      perk is listed for the stored tier. */
  function HasPerk(l: BudgetLedger, perk: string): (b: bool)
    ensures b <==> exists i :: 0 <= i < |BudgetTiers| && BudgetTiers[i].tier == l.tier && perk in BudgetTiers[i].perks
  {
    perk in RowOf(l.tier).perks
  }

  /** For a consistent ledger the perks are those of the range the budget lies in. */
  lemma HasPerkByRange(l: BudgetLedger, perk: string)
    requires Consistent(l)
    ensures HasPerk(l, perk) <==>
      exists i :: 0 <= i < |BudgetTiers| && InRow(BudgetTiers[i], l.budget) && perk in BudgetTiers[i].perks
    ensures l.budget < 200 ==> !HasPerk(l, perk)
    ensures l.budget >= 1500 ==> HasPerk(l, "all_weapons")
  {
    TiersPartition(l.budget);
    if HasPerk(l, perk) {
      var i := match l.tier case Tier1 => 0 case Tier2 => 1 case Tier3 => 2 case Tier4 => 3;
      assert BudgetTiers[i] == RowOf(l.tier);
    }
  }

  /** `reset()`. */
  function Reset(l: BudgetLedger): (r: BudgetLedger)
    ensures r.budget == 0 && r.tier == Tier1 && Consistent(r)
  {
    New()
  }

  /** The saved form `{ budget, tier }`; fields of a stored record may be missing. */
  datatype BudgetData = BudgetData(budget: Option<int>, tier: Option<Tier>)

  function Serialize(l: BudgetLedger): (d: BudgetData)
    ensures d.budget == Some(l.budget) && d.tier == Some(l.tier)
  {
    BudgetData(Some(l.budget), Some(l.tier))
  }

  /** `deserialize(data)`: `budget || 0` and `tier || 'tier1'`; the stored
      tier is taken as it is, without recomputing it from the budget. */
  function Deserialize(d: BudgetData): (l: BudgetLedger)
    ensures d.budget.Some? ==> l.budget == d.budget.value
    ensures d.budget.None? ==> l.budget == 0
    ensures d.tier.Some? ==> l.tier == d.tier.value
    ensures d.tier.None? ==> l.tier == Tier1
  {
    BudgetLedger(OrNumber(d.budget, 0), if d.tier.Some? then d.tier.value else Tier1)
  }

  /** Saving and restoring gives back exactly the ledger. */
  lemma SerializeRoundTrip(l: BudgetLedger)
    ensures Deserialize(Serialize(l)) == l
  {
  }

  /** A restored record whose tier disagrees with its budget stays inconsistent. */
  lemma DeserializeTrustsTier()
    ensures !Consistent(Deserialize(BudgetData(Some(600), Some(Tier1))))
  {
  }

  /** From an empty ledger, a gold coin gives 500 in tier 3. */
  lemma GoldCoinScenario()
    ensures CollectCoin(New(), "gold") == BudgetLedger(500, Tier3)
  {
  }
}

=== FILE: common.dfy ===
/** Shared vocabulary of the model: optional values, the integer clamps the
    game applies to its counters, and the JavaScript `value || fallback`
    idiom the source uses whenever it reads a number or a string that may be
    missing or falsy. */
module Common {

  /** Which way the player faces; the player fires along it (angle 0 or pi). */
  datatype Facing = FacingLeft | FacingRight

  /** A value that may be absent (`undefined` / `null` in the source). */
  datatype Option<+T> = None | Some(value: T)

  /** Which reading of a scene's handlers a step follows: the code as it is
      written, or with the corrections listed under the findings. */
  datatype Handlers = AsWritten | Corrected

  function Min(a: int, b: int): (r: int)
    ensures r <= a && r <= b
    ensures r == a || r == b
  {
    if a <= b then a else b
  }

  function Max(a: int, b: int): (r: int)
    ensures r >= a && r >= b
    ensures r == a || r == b
  {
    if a >= b then a else b
  }

  /** `Math.max(lo, Math.min(hi, x))`: the value of `[lo, hi]` nearest to `x`. */
  function Clamp(x: int, lo: int, hi: int): (r: int)
    requires lo <= hi
    ensures lo <= r <= hi
    ensures lo <= x <= hi ==> r == x
    ensures x < lo ==> r == lo
    ensures x > hi ==> r == hi
  {
    Max(lo, Min(hi, x))
  }

  /** `n || fallback` for a number read from a record: a missing field and
      the number 0 are both falsy and yield the fallback. */
  function OrNumber(n: Option<int>, fallback: int): (r: int)
    ensures n.Some? && n.value != 0 ==> r == n.value
    ensures n.None? || n.value == 0 ==> r == fallback
  {
    if n.Some? && n.value != 0 then n.value else fallback
  }

  /** `s || fallback` for a string: a missing field and the empty string are falsy. */
  function OrString(s: Option<string>, fallback: string): (r: string)
    ensures s.Some? && s.value != "" ==> r == s.value
    ensures s.None? || s.value == "" ==> r == fallback
  {
    if s.Some? && s.value != "" then s.value else fallback
  }

  /** `s || null` for a string: the empty string collapses to absent. */
  function OrNull(s: Option<string>): (r: Option<string>)
    ensures r.Some? ==> r == s && s.value != ""
    ensures s.Some? && s.value != "" ==> r == s
  {
    if s.Some? && s.value != "" then s else None
  }

  /** The keys of an association list, in order. */
  function Keys<V>(table: seq<(string, V)>): (ks: seq<string>)
    ensures |ks| == |table|
    ensures forall i :: 0 <= i < |table| ==> ks[i] == table[i].0
  {
    if |table| == 0 then [] else [table[0].0] + Keys(table[1..])
  }

  /** `table[key]` for an object literal written as an association list:
      the value of the first entry with that key, absent when there is none. */
  function Lookup<V(==)>(table: seq<(string, V)>, key: string): (r: Option<V>)
    ensures r.None? <==> key !in Keys(table)
    ensures r.Some? ==> exists i :: 0 <= i < |table| && table[i] == (key, r.value)
  {
    if |table| == 0 then None
    else if table[0].0 == key then Some(table[0].1)
    else
      var rest := Lookup(table[1..], key);
      assert Keys(table) == [table[0].0] + Keys(table[1..]);
      if rest.Some? then
        var i :| 0 <= i < |table[1..]| && table[1..][i] == (key, rest.value);
        assert table[i + 1] == (key, rest.value);
        rest
      else rest
  }

  /** How many times `x` occurs in `s`. */
  function Count<T(==)>(s: seq<T>, x: T): nat
  {
    if |s| == 0 then 0 else (if s[0] == x then 1 else 0) + Count(s[1..], x)
  }

  /** Counting over a concatenation adds the counts of the parts. */
  lemma {:induction false} CountAppend<T>(a: seq<T>, b: seq<T>, x: T)
    ensures Count(a + b, x) == Count(a, x) + Count(b, x)
  {
    if |a| > 0 {
      assert (a + b)[0] == a[0];
      assert (a + b)[1..] == a[1..] + b;
      CountAppend(a[1..], b, x);
    } else {
      assert a + b == b;
    }
  }

  /** An element that does not occur is counted zero times. */
  lemma {:induction false} CountAbsent<T>(s: seq<T>, x: T)
    requires x !in s
    ensures Count(s, x) == 0
  {
    if |s| > 0 {
      assert s[0] != x;
      assert forall j :: 0 <= j < |s[1..]| ==> s[1..][j] == s[j + 1];
      CountAbsent(s[1..], x);
    }
  }
}

=== FILE: constants.dfy ===
/** The game's constant tables (`src/config/constants.js`): player
    configuration, score modifiers and genre bonuses, budget tiers with their
    perks, coin values, weapon statistics, and the key set of the genre
    stereotypes. Facts about the tables are proved once here. */
module Constants {

  import opened Common

  // ---- PLAYER_CONFIG ----

  const PlayerMaxHp: int := 100
  /** Movement speed in pixels per second; a `real` because the slow special multiplies it by 0.5. */
  const PlayerSpeed: real := 150.0
  const PlayerAttackCooldown: int := 300
  const InvulnerabilityTime: int := 1000

  // ---- SCORE_MODIFIERS ----

  const CollectDataCrystalDelta: int := 5
  const DefeatCompetitorDelta: int := 10
  const CollectBudgetCoinDelta: int := 2
  const CompleteQuestDelta: int := 15
  const LoseToBossDelta: int := -15
  const WrongFridayChoiceDelta: int := -20

  /** `SCORE_MODIFIERS.genreBonus`, in declaration order. */
  const GenreBonusTable: seq<(string, int)> :=
    [("synthwave", 14), ("pop", 15), ("rap", 13), ("electro", 12),
     ("rock", 10), ("jazz", 8), ("metal", 11)]

  /** The keys of `GENRE_STEREOTYPES`, in declaration order (the skins the player can wear). */
  const GenreStereotypeKeys: seq<string> :=
    ["pop", "rock", "rap", "electro", "jazz", "metal", "synthwave"]

  /** The two genre tables name exactly the same seven genres, and every
      genre bonus lies between 8 and 15. */
  lemma GenreTablesAgree()
    ensures |GenreBonusTable| == 7 && |GenreStereotypeKeys| == 7
    ensures (set g | g in Keys(GenreBonusTable)) == (set g | g in GenreStereotypeKeys)
    ensures forall i :: 0 <= i < |GenreBonusTable| ==> 8 <= GenreBonusTable[i].1 <= 15
  {
    assert Keys(GenreBonusTable) == ["synthwave", "pop", "rap", "electro", "rock", "jazz", "metal"];
  }

  // ---- BUDGET_TIERS ----

  datatype Tier = Tier1 | Tier2 | Tier3 | Tier4

  /** One row of `BUDGET_TIERS`; `max == None` stands for `Infinity`. */
  datatype TierRow = TierRow(tier: Tier, min: int, max: Option<int>, perks: seq<string>)

  /** `BUDGET_TIERS` in declaration order, which is the order `updateTier` scans. */
  const BudgetTiers: seq<TierRow> := [
    TierRow(Tier1, 0, Some(199), []),
    TierRow(Tier2, 200, Some(499), ["health_potions"]),
    TierRow(Tier3, 500, Some(1499), ["power_ups", "checkpoints"]),
    TierRow(Tier4, 1500, None, ["auto_save", "easy_mode", "all_weapons"])
  ]

  /** The key under which a tier is stored (`'tier1'` ... `'tier4'`). */
  function TierName(t: Tier): string
  {
    match t
    case Tier1 => "tier1"
    case Tier2 => "tier2"
    case Tier3 => "tier3"
    case Tier4 => "tier4"
  }

  /** `BUDGET_TIERS[name]`: the row stored under a tier's key. */
  function RowOf(t: Tier): (row: TierRow)
    ensures row in BudgetTiers && row.tier == t
  {
    match t
    case Tier1 => BudgetTiers[0]
    case Tier2 => BudgetTiers[1]
    case Tier3 => BudgetTiers[2]
    case Tier4 => BudgetTiers[3]
  }

  /** `budget >= min && budget <= max` for one row. */
  predicate InRow(row: TierRow, budget: int)
  {
    row.min <= budget && (row.max.None? || budget <= row.max.value)
  }

  /** The tier a non-negative budget belongs to, written as closed ranges
      rather than as a table scan. */
  function TierFor(budget: nat): Tier
  {
    if budget <= 199 then Tier1
    else if budget <= 499 then Tier2
    else if budget <= 1499 then Tier3
    else Tier4
  }

  /** The tier ranges start at 0, follow each other without gap or overlap,
      and the last one is unbounded. */
  lemma TiersContiguous()
    ensures BudgetTiers[0].min == 0
    ensures forall i :: 0 <= i < |BudgetTiers| - 1 ==>
      BudgetTiers[i].max.Some? && BudgetTiers[i + 1].min == BudgetTiers[i].max.value + 1
    ensures BudgetTiers[|BudgetTiers| - 1].max.None?
  {
  }

  /** The tier ranges partition the non-negative integers: a non-negative
      budget lies in exactly the row of `TierFor`, and a negative one in none. */
  lemma TiersPartition(budget: int)
    ensures budget >= 0 ==> forall i :: 0 <= i < |BudgetTiers| ==>
      (InRow(BudgetTiers[i], budget) <==> BudgetTiers[i].tier == TierFor(budget))
    ensures budget < 0 ==> forall i :: 0 <= i < |BudgetTiers| ==> !InRow(BudgetTiers[i], budget)
  {
  }

  // ---- COIN_VALUES ----

  const CoinValues: seq<(string, int)> :=
    [("bronze", 50), ("silver", 200), ("gold", 500), ("platinum", 1000)]

  /** Coin values strictly increase from bronze to platinum. */
  lemma CoinValuesIncrease()
    ensures Lookup(CoinValues, "bronze") == Some(50)
    ensures Lookup(CoinValues, "silver") == Some(200)
    ensures Lookup(CoinValues, "gold") == Some(500)
    ensures Lookup(CoinValues, "platinum") == Some(1000)
    ensures forall i, j :: 0 <= i < j < |CoinValues| ==> CoinValues[i].1 < CoinValues[j].1
  {
  }

  // ---- WEAPONS ----

  datatype WeaponKey = GuitarApi | SynthBudget | DrumsTempo | ViolinViral | MicGolden

  datatype WeaponStats = WeaponStats(
    name: string,
    damage: int,
    speedClass: string,
    cooldown: int,
    special: string,
    unlockWorld: int,
    projectileSpeed: int,
    projectileColor: int)

  /** The key a weapon is stored under (`'guitar_api'` ...). */
  function WeaponKeyName(k: WeaponKey): string
  {
    match k
    case GuitarApi => "guitar_api"
    case SynthBudget => "synth_budget"
    case DrumsTempo => "drums_tempo"
    case ViolinViral => "violin_viral"
    case MicGolden => "mic_golden"
  }

  /** `WEAPONS[key]`. */
  function Weapon(k: WeaponKey): WeaponStats
  {
    match k
    case GuitarApi => WeaponStats("API Guitar", 15, "medium", 400, "scan_enemy_stats", 1, 300, 0xFFFF00)
    case SynthBudget => WeaponStats("Budget Synthesizer", 10, "fast", 250, "double_coin_collection", 2, 400, 0x00FFFF)
    case DrumsTempo => WeaponStats("Tempo Drums", 20, "slow", 600, "slow_time_5s", 3, 200, 0xFF00FF)
    case ViolinViral => WeaponStats("Viral Violin", 12, "medium", 350, "summon_fan_allies", 4, 350, 0xFF00FF)
    case MicGolden => WeaponStats("Golden Microphone", 50, "very_slow", 1000, "screen_clear_ultimate", 5, 500, 0xFFD700)
  }

  /** Every weapon has positive damage, cooldown and projectile speed; one
      weapon unlocks per world; cooldowns order synth < violin < guitar < drums < mic. */
  lemma WeaponsWellFormed()
    ensures forall k: WeaponKey :: Weapon(k).damage > 0 && Weapon(k).cooldown > 0 && Weapon(k).projectileSpeed > 0
    ensures forall k: WeaponKey :: 1 <= Weapon(k).unlockWorld <= 5
    ensures forall k1: WeaponKey, k2: WeaponKey :: k1 != k2 ==> Weapon(k1).unlockWorld != Weapon(k2).unlockWorld
    ensures Weapon(SynthBudget).cooldown < Weapon(ViolinViral).cooldown < Weapon(GuitarApi).cooldown
      < Weapon(DrumsTempo).cooldown < Weapon(MicGolden).cooldown
  {
  }
}

=== FILE: enemy.dfy ===
/** An enemy (`src/entities/Enemy.js`): configuration defaults, a per-frame
    behaviour, a proximity attack gated by a one-second cooldown, special
    abilities aimed at the score and budget ledgers and at the player's
    speed, hit points clamped at zero, a one-way death that credits the
    defeat once, and the coin it drops.

    The enemy does not reach into the scene: what it would do there is
    returned as a list of `Effect`s that the level applies. Velocities that
    need trigonometry (chasing, random walk) are reported by kind only, and
    the random drop is a caller-supplied index. */
module EnemyEntity {

  import opened Common
  import opened Strings
  import opened Constants
  import BudgetSystem

  /** The movement rules the `update` switch knows about. */
  datatype Behavior = PatrolHorizontal | PatrolVertical | ChasePlayer | RandomWalk | Static

  /** The `switch (this.behavior)` dispatch: an unknown tag takes the default
      branch, which patrols horizontally. */
  function BehaviorOf(tag: string): (b: Behavior)
    ensures b == PatrolVertical <==> tag == "patrol_vertical"
    ensures b == ChasePlayer <==> tag == "chase_player"
    ensures b == RandomWalk <==> tag == "random_walk"
    ensures b == Static <==> tag == "static"
    ensures b == PatrolHorizontal <==>
              tag !in {"patrol_vertical", "chase_player", "random_walk", "static"}
  {
    if tag == "patrol_vertical" then PatrolVertical
    else if tag == "chase_player" then ChasePlayer
    else if tag == "random_walk" then RandomWalk
    else if tag == "static" then Static
    else PatrolHorizontal
  }

  /** The configuration object; a missing key is `None`. */
  datatype Config = Config(
    hp: Option<int>, damage: Option<int>, speed: Option<int>, behavior: Option<string>,
    drops: Option<seq<string>>, special: Option<string>, patrolDistance: Option<int>)

  datatype Enemy = Enemy(
    hp: int, maxHp: int, damage: int, speed: int, behavior: string,
    drops: seq<string>, special: Option<string>, dead: bool,
    lastAttackTime: int, attackCooldown: int,
    patrolDirection: int, patrolDistance: int,
    x: int, y: int, startX: int, startY: int,
    lastDirectionChange: Option<int>)

  /** The constructor at position (`x`, `y`): every numeric setting falls back
      through `||`, so a zero counts as missing; an array, even empty, is
      kept. */
  function Create(c: Config, x: int, y: int): (e: Enemy)
    ensures e.hp == e.maxHp == OrNumber(c.hp, 20)
    ensures e.damage == OrNumber(c.damage, 5) && e.speed == OrNumber(c.speed, 50)
    ensures e.behavior == OrString(c.behavior, "patrol_horizontal")
    ensures c.drops.None? ==> e.drops == ["bronze_coin"]
    ensures c.drops.Some? ==> e.drops == c.drops.value
    ensures e.special == OrNull(c.special)
    ensures e.patrolDistance == OrNumber(c.patrolDistance, 100)
    ensures !e.dead && e.lastAttackTime == 0 && e.attackCooldown == 1000 && e.patrolDirection == 1
    ensures e.x == e.startX == x && e.y == e.startY == y
    ensures e.hp != 0 && e.damage != 0 && e.speed != 0 && e.patrolDistance != 0
  {
    var hp := OrNumber(c.hp, 20);
    Enemy(hp, hp, OrNumber(c.damage, 5), OrNumber(c.speed, 50),
          OrString(c.behavior, "patrol_horizontal"),
          match c.drops case None => ["bronze_coin"] case Some(d) => d,
          OrNull(c.special), false, 0, 1000, 1, OrNumber(c.patrolDistance, 100),
          x, y, x, y, None)
  }

  /** What an `update` does to the enemy's body: set a velocity, steer toward
      the player along the angle between them, pick a fresh random heading,
      or leave the velocity as it was. */
  datatype Motion = Velocity(vx: int, vy: int) | Steer | Reaim | Keep

  function Abs(n: int): nat
  {
    if n < 0 then -n else n
  }

  /** `patrolHorizontal()` (`vertical` false) and `patrolVertical()`: reverse
      once the enemy is at least the patrol distance from its start, then
      move at `speed` along the axis and not at all across it. */
  function Patrol(e: Enemy, vertical: bool): (r: (Enemy, Motion))
    ensures var offset := if vertical then e.y - e.startY else e.x - e.startX;
            r.0 == e.(patrolDirection := if Abs(offset) >= e.patrolDistance
                                         then -e.patrolDirection else e.patrolDirection)
    ensures r.1.Velocity?
    ensures vertical ==> r.1.vx == 0 && r.1.vy == e.speed * r.0.patrolDirection
    ensures !vertical ==> r.1.vy == 0 && r.1.vx == e.speed * r.0.patrolDirection
  {
    var offset := if vertical then e.y - e.startY else e.x - e.startX;
    var dir := if Abs(offset) >= e.patrolDistance then e.patrolDirection * -1 else e.patrolDirection;
    var v := e.speed * dir;
    (e.(patrolDirection := dir), if vertical then Velocity(0, v) else Velocity(v, 0))
  }

  /** The parts of the player an enemy looks at. */
  datatype Target = Target(x: int, y: int, dead: bool)

  /** What happens outside the enemy: the level applies these in order. */
  datatype Effect =
    | DamagePlayer(amount: int)
    | StealScore(points: int)
    | StealBudget(amount: int)
    | SlowPlayer
    | CreditDefeat
    | DropCoin(coinType: string, value: int)

  /** `performSpecialAbility()`: one effect for each known special, nothing
      for a missing or unknown one. */
  function SpecialEffects(special: Option<string>): (fx: seq<Effect>)
    ensures |fx| <= 1
    ensures special == Some("steal_score_points") <==> fx == [StealScore(10)]
    ensures special == Some("steal_budget_coins") <==> fx == [StealBudget(50)]
    ensures special == Some("slow_player_movement") <==> fx == [SlowPlayer]
  {
    match special
    case None => []
    case Some(s) =>
      if s == "steal_score_points" then [StealScore(10)]
      else if s == "steal_budget_coins" then [StealBudget(50)]
      else if s == "slow_player_movement" then [SlowPlayer]
      else []
  }

  /** The player is within 40 pixels: the Euclidean distance compared without
      the square root. */
  predicate InReach(e: Enemy, t: Target)
  {
    (e.x - t.x) * (e.x - t.x) + (e.y - t.y) * (e.y - t.y) < 40 * 40
  }

  /** `checkAttackPlayer()`: a live player in reach, and strictly more than
      the cooldown since the last attack, takes the enemy's damage followed
      by its special. */
  function CheckAttack(e: Enemy, player: Option<Target>, now: int): (r: (Enemy, seq<Effect>))
    ensures var strikes := player.Some? && !player.value.dead && InReach(e, player.value)
                           && now - e.lastAttackTime > e.attackCooldown;
            (strikes ==> r == (e.(lastAttackTime := now), [DamagePlayer(e.damage)] + SpecialEffects(e.special)))
            && (!strikes ==> r == (e, []))
  {
    match player
    case None => (e, [])
    case Some(t) =>
      if t.dead then (e, [])
      else if InReach(e, t) && now - e.lastAttackTime > e.attackCooldown then
        (e.(lastAttackTime := now), [DamagePlayer(e.damage)] + SpecialEffects(e.special))
      else (e, [])
  }

  /** JavaScript truthiness of `lastDirectionChange`: unset or zero is falsy. */
  predicate Truthy(t: Option<int>)
  {
    t.Some? && t.value != 0
  }

  /** `update()` at time `now` with the scene's player, if any. */
  function Update(e: Enemy, player: Option<Target>, now: int): (r: (Enemy, Motion, seq<Effect>))
    ensures e.dead ==> r == (e, Keep, [])
    ensures !e.dead && BehaviorOf(e.behavior) == Static ==> r.1 == Velocity(0, 0)
    ensures !e.dead && BehaviorOf(e.behavior) == ChasePlayer ==>
              (r.1 == Steer <==> player.Some? && !player.value.dead)
    ensures !e.dead && BehaviorOf(e.behavior) == ChasePlayer && !r.1.Steer? ==> r.1 == Velocity(0, 0)
    ensures !e.dead && BehaviorOf(e.behavior) == RandomWalk ==>
              (r.1 == Reaim <==> !Truthy(e.lastDirectionChange) || now - e.lastDirectionChange.value > 2000)
    ensures !e.dead && BehaviorOf(e.behavior) == RandomWalk && r.1 == Reaim ==>
              r.0.lastDirectionChange == Some(now)
    ensures !e.dead && BehaviorOf(e.behavior) == PatrolHorizontal ==> r.1 == Patrol(e, false).1
    ensures !e.dead && BehaviorOf(e.behavior) == PatrolVertical ==> r.1 == Patrol(e, true).1
    ensures r.0.hp == e.hp && r.0.dead == e.dead
    ensures r.0.damage == e.damage && r.0.drops == e.drops
    ensures !e.dead ==> r.2 == CheckAttack(e, player, now).1
    ensures !e.dead ==> r.0.lastAttackTime == CheckAttack(e, player, now).0.lastAttackTime
  {
    if e.dead then (e, Keep, [])
    else
      var moved: (Enemy, Motion) :=
        match BehaviorOf(e.behavior)
        case PatrolHorizontal => Patrol(e, false)
        case PatrolVertical => Patrol(e, true)
        case ChasePlayer =>
          if player.None? || player.value.dead then (e, Velocity(0, 0)) else (e, Steer)
        case RandomWalk =>
          if !Truthy(e.lastDirectionChange) || now - e.lastDirectionChange.value > 2000
          then (e.(lastDirectionChange := Some(now)), Reaim)
          else (e, Keep)
        case Static => (e, Velocity(0, 0));
      var attacked := CheckAttack(moved.0, player, now);
      (attacked.0, moved.1, attacked.1)
  }

  /** The value `dropLoot` puts on a coin of the given type: the table value,
      or 50 for a type the table does not know. */
  function DropValue(coinType: string): (v: int)
    ensures Lookup(CoinValues, coinType).Some? ==> v == Lookup(CoinValues, coinType).value
    ensures Lookup(CoinValues, coinType).None? ==> v == 50
  {
    CoinValueTableNonZero(coinType);
    OrNumber(Lookup(CoinValues, coinType), 50)
  }

  /** No coin in the table is worth zero, so `|| 50` only replaces a missing entry. */
  lemma CoinValueTableNonZero(coinType: string)
    ensures Lookup(CoinValues, coinType).Some? ==> Lookup(CoinValues, coinType).value > 0
  {
  }

  /** `dropLoot()`: nothing for an empty list; otherwise the entry at `pick`
      (the engine's random pick), which yields a coin only when its tag
      contains "coin", typed by the tag with its first "_coin" removed. */
  function DropLoot(drops: seq<string>, pick: nat): (fx: seq<Effect>)
    requires |drops| > 0 ==> pick < |drops|
    ensures |drops| == 0 ==> fx == []
    ensures |drops| > 0 && !Includes(drops[pick], "coin") ==> fx == []
    ensures |drops| > 0 && Includes(drops[pick], "coin") ==>
              fx == [DropCoin(ReplaceFirst(drops[pick], "_coin", ""), DropValue(ReplaceFirst(drops[pick], "_coin", "")))]
    ensures |fx| <= 1
  {
    if |drops| == 0 then []
    else
      var drop := drops[pick];
      if Includes(drop, "coin") then
        var coinType := ReplaceFirst(drop, "_coin", "");
        [DropCoin(coinType, DropValue(coinType))]
      else []
  }

  /** `die()`: on a live enemy, mark it dead, credit the defeat to the score
      ledger, then drop loot; on a dead one, nothing. */
  function Die(e: Enemy, pick: nat): (r: (Enemy, seq<Effect>))
    requires |e.drops| > 0 ==> pick < |e.drops|
    ensures e.dead ==> r == (e, [])
    ensures !e.dead ==> r.0 == e.(dead := true)
    ensures !e.dead ==> r.1 == [CreditDefeat] + DropLoot(e.drops, pick)
    ensures r.0.dead
  {
    if e.dead then (e, []) else (e.(dead := true), [CreditDefeat] + DropLoot(e.drops, pick))
  }

  /** `takeDamage(amount)`: ignored once dead; otherwise hit points drop,
      clamped at zero, and reaching zero runs `die`. */
  function TakeDamage(e: Enemy, amount: int, pick: nat): (r: (Enemy, seq<Effect>))
    requires |e.drops| > 0 ==> pick < |e.drops|
    ensures e.dead ==> r == (e, [])
    ensures !e.dead ==> r.0.hp == Max(0, e.hp - amount)
    ensures !e.dead ==> (r.0.dead <==> e.hp - amount <= 0)
    ensures !e.dead && e.hp - amount <= 0 ==> r.1 == [CreditDefeat] + DropLoot(e.drops, pick)
    ensures !e.dead && e.hp - amount > 0 ==> r == (e.(hp := e.hp - amount), [])
  {
    if e.dead then (e, [])
    else
      var hit := e.(hp := Max(0, e.hp - amount));
      if hit.hp <= 0 then Die(hit, pick) else (hit, [])
  }

  /** `die` twice is `die` once. */
  lemma DieIdempotent(e: Enemy, p1: nat, p2: nat)
    requires |e.drops| > 0 ==> p1 < |e.drops| && p2 < |e.drops|
    ensures Die(Die(e, p1).0, p2) == (Die(e, p1).0, [])
  {
  }

  /** Number of `CreditDefeat` effects in a list. */
  function Credits(fx: seq<Effect>): nat
  {
    if |fx| == 0 then 0 else (if fx[0] == CreditDefeat then 1 else 0) + Credits(fx[1..])
  }

  lemma {:induction false} CreditsAppend(a: seq<Effect>, b: seq<Effect>)
    ensures Credits(a + b) == Credits(a) + Credits(b)
  {
    if |a| > 0 {
      assert (a + b)[0] == a[0];
      assert (a + b)[1..] == a[1..] + b;
      CreditsAppend(a[1..], b);
    } else {
      assert a + b == b;
    }
  }

  /** A hit: its damage and the drop index the engine would pick. */
  datatype Hit = Hit(amount: int, pick: nat)

  predicate PicksFit(e: Enemy, hits: seq<Hit>)
  {
    forall i :: 0 <= i < |hits| ==> (|e.drops| > 0 ==> hits[i].pick < |e.drops|)
  }

  /** Taking a run of hits. The defeat is credited at most once over the
      whole run, exactly when the enemy dies in it. */
  function TakeHits(e: Enemy, hits: seq<Hit>): (r: (Enemy, seq<Effect>))
    requires PicksFit(e, hits)
    ensures r.0.drops == e.drops
    ensures e.dead ==> r == (e, [])
    ensures Credits(r.1) == (if r.0.dead && !e.dead then 1 else 0)
    ensures e.dead ==> r.0.dead
    decreases |hits|
  {
    if |hits| == 0 then (e, [])
    else
      var first := TakeDamage(e, hits[0].amount, hits[0].pick);
      assert first.1 == [] || first.1 == [CreditDefeat] + DropLoot(e.drops, hits[0].pick);
      assert Credits(DropLoot(e.drops, hits[0].pick)) == 0;
      CreditsAppend([CreditDefeat], DropLoot(e.drops, hits[0].pick));
      var rest := TakeHits(first.0, hits[1..]);
      CreditsAppend(first.1, rest.1);
      (rest.0, first.1 + rest.1)
  }

  /** A dropped coin and a collected coin can be valued differently: for a
      type outside the table the drop is worth 50, while the budget ledger's
      `collectCoin` credits 0. */
  lemma DropAndCollectDisagree(coinType: string)
    requires Lookup(CoinValues, coinType).None?
    ensures DropValue(coinType) == 50
    ensures BudgetSystem.CoinValue(coinType) == 0
  {
  }

  /** The slow special's two moments: the hit that halves the player's speed,
      and its 3000 ms timer firing. All timers have the same delay, so they
      fire in the order the slows happened. */
  datatype SlowEvent = Slowed | SlowExpired

  /** The slow special as the source writes it: each slow remembers the speed
      it found and its timer puts that speed back. `pending` lists the
      remembered speeds of the timers still running, oldest first. */
  datatype SlowAsWritten = SlowAsWritten(speed: real, pending: seq<real>)

  function SlowStepAsWritten(s: SlowAsWritten, ev: SlowEvent): (t: SlowAsWritten)
    ensures ev == Slowed ==> t.speed * 2.0 == s.speed && t.pending == s.pending + [s.speed]
    ensures ev == SlowExpired && |s.pending| > 0 ==> t.speed == s.pending[0] && t.pending == s.pending[1..]
    ensures ev == SlowExpired && |s.pending| == 0 ==> t == s
  {
    match ev
    case Slowed => SlowAsWritten(s.speed * 0.5, s.pending + [s.speed])
    case SlowExpired => if |s.pending| == 0 then s else SlowAsWritten(s.pending[0], s.pending[1..])
  }

  function RunSlowAsWritten(s: SlowAsWritten, es: seq<SlowEvent>): SlowAsWritten
    decreases |es|
  {
    if |es| == 0 then s else RunSlowAsWritten(SlowStepAsWritten(s, es[0]), es[1..])
  }

  /** A second slow that lands while the first is running remembers the
      already halved speed; once both timers have fired the player is left
      at half speed for good. */
  lemma SlowOverlapLosesSpeed()
    ensures RunSlowAsWritten(SlowAsWritten(150.0, []), [Slowed, Slowed, SlowExpired, SlowExpired])
            == SlowAsWritten(75.0, [])
    ensures RunSlow(SlowState(150.0, 0), [Slowed, Slowed, SlowExpired, SlowExpired]) == SlowState(150.0, 0)
  {
    var es := [Slowed, Slowed, SlowExpired, SlowExpired];
    assert es[1..] == [Slowed, SlowExpired, SlowExpired];
    assert es[1..][1..] == [SlowExpired, SlowExpired];
    assert es[1..][1..][1..] == [SlowExpired];
    assert RunSlowAsWritten(SlowAsWritten(150.0, []), es) == SlowAsWritten(75.0, []);
    assert RunSlow(SlowState(150.0, 0), es) == SlowState(150.0, 0);
  }

  /** Halving the speed. */
  function SlowSpeed(speed: real): (r: real)
    ensures r * 2.0 == speed
  {
    speed * 0.5
  }

  /** Undoing one halving: the timer doubles the current speed instead of
      restoring a remembered one. */
  function RestoreSpeed(speed: real): (r: real)
    ensures SlowSpeed(r) == speed
  {
    speed * 2.0
  }

  /** The corrected slow special: the speed and the number of slow timers
      still running. */
  datatype SlowState = SlowState(speed: real, active: nat)

  function SlowStep(s: SlowState, ev: SlowEvent): (t: SlowState)
    ensures ev == Slowed ==> t == SlowState(SlowSpeed(s.speed), s.active + 1)
    ensures ev == SlowExpired && s.active > 0 ==> t == SlowState(RestoreSpeed(s.speed), s.active - 1)
    ensures ev == SlowExpired && s.active == 0 ==> t == s
  {
    match ev
    case Slowed => SlowState(SlowSpeed(s.speed), s.active + 1)
    case SlowExpired => if s.active == 0 then s else SlowState(RestoreSpeed(s.speed), s.active - 1)
  }

  function RunSlow(s: SlowState, es: seq<SlowEvent>): SlowState
    decreases |es|
  {
    if |es| == 0 then s else RunSlow(SlowStep(s, es[0]), es[1..])
  }

  /** One half per running slow. */
  function Halves(n: nat): (h: real)
    ensures h > 0.0
  {
    if n == 0 then 1.0 else 0.5 * Halves(n - 1)
  }

  /** With the correction, the speed is always the base speed halved once per
      running slow, whatever the order of slows and expiries. */
  lemma {:induction false} SlowTracksActive(base: real, s: SlowState, es: seq<SlowEvent>)
    requires s.speed == base * Halves(s.active)
    ensures RunSlow(s, es).speed == base * Halves(RunSlow(s, es).active)
    decreases |es|
  {
    if |es| > 0 {
      var t := SlowStep(s, es[0]);
      if es[0] == Slowed {
        assert Halves(s.active + 1) == 0.5 * Halves(s.active);
        assert t.speed == base * Halves(t.active);
      } else if s.active > 0 {
        assert Halves(s.active) == 0.5 * Halves(s.active - 1);
        assert t.speed == base * Halves(t.active);
      }
      SlowTracksActive(base, t, es[1..]);
    }
  }

  /** With the correction, once every slow timer has fired the player moves
      at the speed it had before the first slow. */
  lemma SlowsWearOff(base: real, es: seq<SlowEvent>)
    ensures RunSlow(SlowState(base, 0), es).active == 0 ==> RunSlow(SlowState(base, 0), es).speed == base
  {
    SlowTracksActive(base, SlowState(base, 0), es);
  }
}

=== FILE: game_over.dfy ===
/** The game-over screen (`src/scenes/GameOverScene.js`): the figures it
    shows, its own copy of the competition labels, and the retry button,
    which restarts the world the player died in. */
module GameOver {

  import opened Common
  import opened Bands
  import opened Progress

  /** What the screen keeps from the data it was started with. */
  datatype Screen = Screen(finalScore: int, finalBudget: int, world: int)

  /** `init(data)`: missing or zero figures fall back to 0, 0 and world 1. */
  function Init(t: Transfer): (s: Screen)
    ensures s.finalScore == OrNumber(t.score, 0) && s.finalBudget == OrNumber(t.budget, 0)
    ensures t.world.Some? && t.world.value != 0 ==> s.world == t.world.value
    ensures t.world.None? || t.world.value == 0 ==> s.world == 1
  {
    Screen(OrNumber(t.score, 0), OrNumber(t.budget, 0), OrNumber(t.world, 1))
  }

  /** The game-over screen's `getCompetitionLevel(score)`, in agreement with
      the one band function. */
  function GetCompetitionLevel(score: int): (level: string)
    ensures level == Label(CompetitionOf(score))
  {
    if score >= 85 then "Very Low"
    else if score >= 70 then "Low"
    else if score >= 55 then "Moderate"
    else if score >= 40 then "High"
    else "Very High"
  }

  /** The scene the retry button starts. */
  function RetryScene(s: Screen): (k: string)
    ensures k in RegisteredScenes <==> 1 <= s.world <= 5
    ensures s.world == 1 ==> k == "World1_DataValley"
  {
    SceneKeyRegistered(s.world);
    SceneKeysOfWorlds();
    SceneKey(s.world)
  }

  /** The retry button restarts a registered world exactly when the screen's
      world number is 1 to 5; with no world in the data it restarts world 1. */
  lemma RetryRestartsWorld(t: Transfer)
    ensures RetryScene(Init(t)) in RegisteredScenes <==>
              t.world.None? || t.world.value == 0 || 1 <= t.world.value <= 5
    ensures t.world.None? ==> RetryScene(Init(t)) == "World1_DataValley"
  {
    SceneKeyRegistered(Init(t).world);
    SceneKeysOfWorlds();
  }
}

=== FILE: hud.dfy ===
/** The heads-up display (`src/ui/HUD.js`): the health-bar colour, the
    texts of the health, budget, score and competition labels, the HUD's
    own copy of the competition bands, and the CSS colour string built from
    a colour number. Drawing, tweens and layout are not modelled. */
module Hud {

  import opened Common
  import opened Strings
  import opened Bands

  /** The health-bar colours. */
  const Green: int := 0x00FF00
  const Yellow: int := 0xFFFF00
  const Red: int := 0xFF0000

  /** `updateHealth` picks the bar colour from `current / max`: above 0.6
      green, above 0.3 yellow, red otherwise. The division is JavaScript's,
      so a zero maximum gives Infinity (green) for positive hit points and
      NaN or -Infinity (red) otherwise, and a negative maximum flips the
      comparisons. Written here without division. */
  function HealthColor(current: int, max: int): (color: int)
    ensures color == Green || color == Yellow || color == Red
    ensures max > 0 ==> (color == Green <==> 10 * current > 6 * max)
    ensures max > 0 ==> (color == Yellow <==> 6 * max >= 10 * current > 3 * max)
    ensures max > 0 ==> (color == Red <==> 10 * current <= 3 * max)
  {
    if max > 0 then
      if 10 * current > 6 * max then Green
      else if 10 * current > 3 * max then Yellow
      else Red
    else if max < 0 then
      if 10 * current < 6 * max then Green
      else if 10 * current < 3 * max then Yellow
      else Red
    else if current > 0 then Green
    else Red
  }

  /** The colour `updateHealth` picks, compared through a real-valued fraction:
      it agrees with the division-free `HealthColor` whenever the maximum is
      non-zero. */
  function HealthColorByFraction(current: int, max: int): int
    requires max != 0
  {
    var percentage := current as real / max as real;
    if percentage > 0.6 then Green else if percentage > 0.3 then Yellow else Red
  }

  lemma HealthColorAgrees(current: int, max: int)
    requires max != 0
    ensures HealthColor(current, max) == HealthColorByFraction(current, max)
  {
    DivCompare(current as real, max as real, 0.6);
    DivCompare(current as real, max as real, 0.3);
  }

  /** Comparing a quotient with a threshold is comparing the dividend with
      the threshold times the divisor, the other way round for a negative divisor. */
  lemma DivCompare(c: real, m: real, t: real)
    requires m != 0.0
    ensures m > 0.0 ==> (c / m > t <==> c > t * m)
    ensures m < 0.0 ==> (c / m > t <==> c < t * m)
  {
    var q := c / m;
    assert q * m == c;
    assert (q - t) * m == c - t * m;
    if m > 0.0 {
      if q > t { assert (q - t) * m > 0.0; }
      if c > t * m { assert (q - t) * m > 0.0; assert q - t > 0.0; }
    } else {
      if q > t { assert (q - t) * m < 0.0; }
      if c < t * m { assert (q - t) * m < 0.0; assert q - t > 0.0; }
    }
  }

  /** Losing hit points never turns the bar from red or yellow back to a
      greener colour. */
  lemma HealthColorMonotone(c1: int, c2: int, max: int)
    requires max > 0 && c1 <= c2
    ensures HealthColor(c1, max) == Green ==> HealthColor(c2, max) == Green
    ensures HealthColor(c2, max) == Red ==> HealthColor(c1, max) == Red
  {
  }

  /** The player's bar at full health is green, at 30 of 100 it is red. */
  lemma HealthColorScenario()
    ensures HealthColor(100, 100) == Green
    ensures HealthColor(31, 100) == Yellow
    ensures HealthColor(30, 100) == Red
    ensures HealthColor(0, 100) == Red
  {
  }

  /** `HP: ${current}/${max}`. */
  function HpLabel(current: int, max: int): string
  {
    "HP: " + IntToString(current) + "/" + IntToString(max)
  }

  /** `BUDGET: €${budget}`. */
  function BudgetLabel(budget: int): string
  {
    "BUDGET: €" + IntToString(budget)
  }

  /** `SCORE: ${score}`. */
  function ScoreLabel(score: int): string
  {
    "SCORE: " + IntToString(score)
  }

  /** The rendering of an integer never holds a slash. */
  lemma NoSlash(i: int)
    ensures '/' !in IntToString(i)
  {
  }

  /** Two texts joined by a separator that neither left part holds split back uniquely. */
  lemma SplitAtSeparator(a: string, b: string, c: string, d: string, sep: char)
    requires sep !in a && sep !in c
    requires a + [sep] + b == c + [sep] + d
    ensures a == c && b == d
  {
    var x := a + [sep] + b;
    assert forall j :: 0 <= j < |a| ==> x[j] == a[j];
    assert forall j :: 0 <= j < |c| ==> x[j] == c[j];
    assert x[|a|] == sep && x[|c|] == sep;
    assert a == x[..|a|] == c;
    assert b == x[|a| + 1..] == d;
  }

  /** The health label names its two numbers: equal labels mean equal hit
      points and equal maxima. */
  lemma HpLabelInjective(c1: int, m1: int, c2: int, m2: int)
    requires HpLabel(c1, m1) == HpLabel(c2, m2)
    ensures c1 == c2 && m1 == m2
  {
    NoSlash(c1);
    NoSlash(c2);
    SplitHpText(IntToString(c1), IntToString(m1), IntToString(c2), IntToString(m2));
    IntToStringInjective(c1, c2);
    IntToStringInjective(m1, m2);
  }

  /** The health label's text splits back into its two parts. */
  lemma SplitHpText(a: string, b: string, c: string, d: string)
    requires '/' !in a && '/' !in c
    requires "HP: " + a + "/" + b == "HP: " + c + "/" + d
    ensures a == c && b == d
  {
    var x := "HP: " + a + "/" + b;
    var y := "HP: " + c + "/" + d;
    assert x[4..] == a + ['/'] + b;
    assert y[4..] == c + ['/'] + d;
    SplitAtSeparator(a, b, c, d, '/');
  }

  /** The score and budget labels name their number. */
  lemma LabelsInjective(x: int, y: int)
    ensures ScoreLabel(x) == ScoreLabel(y) ==> x == y
    ensures BudgetLabel(x) == BudgetLabel(y) ==> x == y
  {
    if ScoreLabel(x) == ScoreLabel(y) {
      assert IntToString(x) == ScoreLabel(x)[7..] == ScoreLabel(y)[7..] == IntToString(y);
      IntToStringInjective(x, y);
    }
    if BudgetLabel(x) == BudgetLabel(y) {
      assert IntToString(x) == BudgetLabel(x)[9..] == BudgetLabel(y)[9..] == IntToString(y);
      IntToStringInjective(x, y);
    }
  }

  /** The HUD's `getCompetitionLevel(score)`: upper-case labels and the ledger's
      colours, in agreement with the one band function. */
  function GetCompetitionLevel(score: int): (r: CompetitionInfo)
    ensures r.level == UpperLabel(CompetitionOf(score))
    ensures r.color == Color(CompetitionOf(score))
  {
    if score >= 85 then CompetitionInfo("VERY LOW", 0x00FF00)
    else if score >= 70 then CompetitionInfo("LOW", 0x90EE90)
    else if score >= 55 then CompetitionInfo("MODERATE", 0xFFFF00)
    else if score >= 40 then CompetitionInfo("HIGH", 0xFFA500)
    else CompetitionInfo("VERY HIGH", 0xFF0000)
  }

  /** `COMPETITION: ${level}`. */
  function CompetitionLabel(score: int): string
  {
    "COMPETITION: " + GetCompetitionLevel(score).level
  }

  /** `'#' + color.toString(16).padStart(6, '0')`; a negative number renders
      with its minus sign before the digits. */
  function ColorToHex(color: int): (s: string)
    ensures |s| >= 7 && s[0] == '#'
    ensures color >= 0 ==> AllDigits(s[1..], 16)
  {
    var digits := if color < 0 then "-" + ToHex(-color) else ToHex(color);
    "#" + PadStart(digits, 6, '0')
  }

  function Pow(b: nat, k: nat): nat
  {
    if k == 0 then 1 else b * Pow(b, k - 1)
  }

  /** A number below `16^k` needs at most `k` hex digits. */
  lemma {:induction false} HexLength(n: nat, k: nat)
    requires k >= 1 && n < Pow(16, k)
    ensures |ToHex(n)| <= k
    decreases n
  {
    DivModBase(n, 16);
    if n >= 16 {
      var q := n / 16;
      assert NatToDigits(n, 16) == NatToDigits(q, 16) + [DigitChar(n % 16)];
      assert Pow(16, 1) == 16;
      assert k >= 2;
      var p := Pow(16, k - 1);
      assert Pow(16, k) == 16 * p;
      assert n >= 16 * q;
      assert q < p;
      HexLength(q, k - 1);
    }
  }

  /** Leading zeros do not change the number a digit string denotes. */
  lemma {:induction false} LeadingZeros(k: nat, s: string)
    requires AllDigits(s, 16)
    ensures AllDigits(Repeat('0', k) + s, 16)
    ensures DigitsToNat(Repeat('0', k) + s, 16) == DigitsToNat(s, 16)
    decreases |s|
  {
    var z := Repeat('0', k);
    assert AllDigits(z + s, 16) by {
      forall i | 0 <= i < |z + s|
        ensures IsDigit((z + s)[i], 16)
      {
        if i < k { assert (z + s)[i] == '0'; } else { assert (z + s)[i] == s[i - k]; }
      }
    }
    if |s| == 0 {
      assert z + s == z;
      AllZeros(k);
    } else {
      var s' := s[..|s| - 1];
      assert (z + s)[..|z + s| - 1] == z + s';
      assert (z + s)[|z + s| - 1] == s[|s| - 1];
      LeadingZeros(k, s');
    }
  }

  lemma {:induction false} AllZeros(k: nat)
    ensures AllDigits(Repeat('0', k), 16)
    ensures DigitsToNat(Repeat('0', k), 16) == 0
    decreases k
  {
    if k > 0 {
      var z := Repeat('0', k);
      assert z[..k - 1] == Repeat('0', k - 1);
      AllZeros(k - 1);
    }
  }

  /** A 24-bit colour renders as exactly seven characters, "#" and six hex
      digits, which read back as the colour. */
  lemma ColorToHexRoundTrip(color: int)
    requires 0 <= color < 0x1000000
    ensures |ColorToHex(color)| == 7
    ensures DigitsToNat(ColorToHex(color)[1..], 16) == color
  {
    var h := ToHex(color);
    PowSix();
    HexLength(color, 6);
    var padded := PadStart(h, 6, '0');
    assert ColorToHex(color) == "#" + padded;
    assert ColorToHex(color)[1..] == padded;
    DigitsRoundTrip(color, 16);
    if |h| < 6 {
      assert padded == Repeat('0', 6 - |h|) + h;
      LeadingZeros(6 - |h|, h);
    }
  }

  lemma PowSix()
    ensures Pow(16, 6) == 0x1000000
  {
    assert Pow(16, 2) == 256;
    assert Pow(16, 4) == 65536;
  }
}

=== FILE: level.dfy ===
/** The play rules the two modelled worlds share
    (`src/scenes/World1_DataValley.js` and `src/scenes/World2_ScoringMaze.js`):
    the ledgers, the player, the weapon registry, the enemies and the coins
    on the ground, and what each collision, frame and timer does to them.
    Both scenes wire their collision callbacks the same way; where they
    differ (world 2 has no coin group and no data crystals) the state says
    so. The engine's physics decides when a collision happens; here each
    collision is an event carrying the objects involved. An event that
    names an object the scene does not have does nothing. */
module Level {

  import opened Common
  import opened Constants
  import ScoreSystem
  import BudgetSystem
  import WeaponSystem
  import PlayerEntity
  import EnemyEntity

  /** A coin on the ground: the `type` and `value` an enemy's drop gave it. */
  datatype Coin = Coin(coinType: string, value: int)

  datatype World = World(
    score: ScoreSystem.ScoreLedger,
    budget: BudgetSystem.BudgetLedger,
    player: PlayerEntity.Player,
    slowPending: seq<real>,
    weapons: WeaponSystem.Registry,
    enemies: seq<EnemyEntity.Enemy>,
    coins: Option<seq<Coin>>,
    crystals: nat)

  /** Every enemy's contact damage is non-negative. */
  predicate EnemiesWellFormed(es: seq<EnemyEntity.Enemy>)
  {
    forall i :: 0 <= i < |es| ==> es[i].damage >= 0
  }

  /** Every coin on the ground is worth something. */
  predicate CoinsPositive(coins: Option<seq<Coin>>)
  {
    coins.Some? ==> forall i :: 0 <= i < |coins.value| ==> coins.value[i].value > 0
  }

  /** The player moves, and every speed a running slow remembered is a
      speed it can move at. */
  predicate SpeedsPositive(w: World)
  {
    w.player.speed > 0.0 && forall i :: 0 <= i < |w.slowPending| ==> w.slowPending[i] > 0.0
  }

  /** What holds between any two events, under either reading of the
      handlers: both ledgers in range, the player's hit points in range, its
      speeds positive, the registry valid, and the scene's enemies and coins
      well-formed. */
  predicate Valid(w: World)
  {
    ScoreSystem.Valid(w.score) && BudgetSystem.Consistent(w.budget)
    && PlayerEntity.HpInRange(w.player) && SpeedsPositive(w)
    && WeaponSystem.Valid(w.weapons)
    && EnemiesWellFormed(w.enemies) && CoinsPositive(w.coins)
  }

  /** The corrected slow's invariant: the player's speed is its base speed
      halved once per running slow timer. */
  predicate SlowTracked(w: World)
  {
    w.player.speed == PlayerSpeed * EnemyEntity.Halves(|w.slowPending|)
  }

  /** A scene's state after `create()`: a new player, no slow running, no coin
      on the ground, and the coin group only if the scene makes one. */
  function Enter(score: ScoreSystem.ScoreLedger, budget: BudgetSystem.BudgetLedger,
                 weapons: WeaponSystem.Registry, enemies: seq<EnemyEntity.Enemy>,
                 hasCoinGroup: bool, crystals: nat): (w: World)
    ensures w.player == PlayerEntity.New() && w.slowPending == [] && SlowTracked(w)
    ensures w.coins == (if hasCoinGroup then Some([]) else None)
    ensures (ScoreSystem.Valid(score) && BudgetSystem.Consistent(budget) && WeaponSystem.Valid(weapons)
             && EnemiesWellFormed(enemies)) ==> Valid(w)
  {
    World(score, budget, PlayerEntity.New(), [], weapons, enemies,
          if hasCoinGroup then Some([]) else None, crystals)
  }

  /** One effect an enemy hands to the scene, applied at time `now`; the
      flag says whether the player's `die` started. The slow special halves
      the speed and remembers the speed it found, under either reading; the
      readings differ only in what its timer puts back. A dropped coin
      lands in the scene's coin group, or nowhere when there is none. */
  function ApplyEffect(w: World, fx: EnemyEntity.Effect, now: int): (r: (World, bool))
    ensures r.1 ==> fx.DamagePlayer? && !w.player.dead && r.0.player.dead
    ensures r.0.score.genre == w.score.genre
    ensures w.player.dead ==> r.0.player.dead && !r.1
    ensures fx.DamagePlayer? ==>
              r.0 == w.(player := PlayerEntity.TakeDamage(w.player, fx.amount, now).player)
              && (r.1 <==> PlayerEntity.TakeDamage(w.player, fx.amount, now).outcome.Killed?)
    ensures fx.StealScore? ==> r == (w.(score := ScoreSystem.SubtractScore(w.score, fx.points)), false)
    ensures fx.StealBudget? ==> r == (w.(budget := BudgetSystem.SpendBudget(w.budget, fx.amount).ledger), false)
    ensures fx.SlowPlayer? ==>
              !r.1 && r.0 == w.(player := w.player.(speed := EnemyEntity.SlowSpeed(w.player.speed)),
                                slowPending := w.slowPending + [w.player.speed])
    ensures fx.CreditDefeat? ==> r == (w.(score := ScoreSystem.DefeatCompetitor(w.score)), false)
    ensures fx.DropCoin? ==>
              !r.1 && r.0 == (if w.coins.Some? then w.(coins := Some(w.coins.value + [Coin(fx.coinType, fx.value)])) else w)
  {
    match fx
    case DamagePlayer(amount) =>
      var d := PlayerEntity.TakeDamage(w.player, amount, now);
      (w.(player := d.player), d.outcome.Killed?)
    case StealScore(points) => (w.(score := ScoreSystem.SubtractScore(w.score, points)), false)
    case StealBudget(amount) => (w.(budget := BudgetSystem.SpendBudget(w.budget, amount).ledger), false)
    case SlowPlayer =>
      var t := EnemyEntity.SlowStepAsWritten(EnemyEntity.SlowAsWritten(w.player.speed, w.slowPending), EnemyEntity.Slowed);
      (w.(player := w.player.(speed := t.speed), slowPending := t.pending), false)
    case CreditDefeat => (w.(score := ScoreSystem.DefeatCompetitor(w.score)), false)
    case DropCoin(coinType, value) =>
      (if w.coins.Some? then w.(coins := Some(w.coins.value + [Coin(coinType, value)])) else w, false)
  }

  /** Applying effects in order; the flag says whether the player died on the way. */
  function ApplyEffects(w: World, fxs: seq<EnemyEntity.Effect>, now: int): (r: (World, bool))
    ensures r.1 ==> !w.player.dead && r.0.player.dead
    ensures w.player.dead ==> r.0.player.dead && !r.1
    decreases |fxs|
  {
    if |fxs| == 0 then (w, false)
    else
      var first := ApplyEffect(w, fxs[0], now);
      var rest := ApplyEffects(first.0, fxs[1..], now);
      (rest.0, first.1 || rest.1)
  }

  /** Effects that keep the invariant: no negative damage, no worthless coin. */
  predicate EffectsSane(fxs: seq<EnemyEntity.Effect>)
  {
    forall i :: 0 <= i < |fxs| ==>
      (fxs[i].DamagePlayer? ==> fxs[i].amount >= 0) && (fxs[i].DropCoin? ==> fxs[i].value > 0)
  }

  lemma ApplyEffectKeepsValid(w: World, fx: EnemyEntity.Effect, now: int)
    requires Valid(w)
    requires fx.DamagePlayer? ==> fx.amount >= 0
    requires fx.DropCoin? ==> fx.value > 0
    ensures Valid(ApplyEffect(w, fx, now).0)
    ensures ApplyEffect(w, fx, now).0.enemies == w.enemies
    ensures ApplyEffect(w, fx, now).0.weapons == w.weapons
  {
    match fx
    case DamagePlayer(amount) => PlayerEntity.HpStaysInRange(w.player, amount, now);
    case SlowPlayer =>
      var v := ApplyEffect(w, fx, now).0;
      assert v.slowPending == w.slowPending + [w.player.speed];
      assert forall i :: 0 <= i < |v.slowPending| ==> v.slowPending[i] > 0.0 by {
        forall i | 0 <= i < |v.slowPending|
          ensures v.slowPending[i] > 0.0
        {
          if i < |w.slowPending| {
            assert v.slowPending[i] == w.slowPending[i];
          }
        }
      }
    case DropCoin(_, _) =>
    case _ =>
  }

  /** The effects of any run keep the invariant and touch neither the enemies
      nor the registry. */
  lemma {:induction false} ApplyEffectsKeepsValid(w: World, fxs: seq<EnemyEntity.Effect>, now: int)
    requires Valid(w) && EffectsSane(fxs)
    ensures Valid(ApplyEffects(w, fxs, now).0)
    ensures ApplyEffects(w, fxs, now).0.enemies == w.enemies
    ensures ApplyEffects(w, fxs, now).0.weapons == w.weapons
    decreases |fxs|
  {
    if |fxs| > 0 {
      ApplyEffectKeepsValid(w, fxs[0], now);
      var first := ApplyEffect(w, fxs[0], now);
      assert EffectsSane(fxs[1..]) by {
        forall i | 0 <= i < |fxs[1..]|
          ensures (fxs[1..][i].DamagePlayer? ==> fxs[1..][i].amount >= 0)
                  && (fxs[1..][i].DropCoin? ==> fxs[1..][i].value > 0)
        {
          assert fxs[1..][i] == fxs[i + 1];
        }
      }
      ApplyEffectsKeepsValid(first.0, fxs[1..], now);
    }
  }

  /** What reaches the scene: a player frame, an enemy frame (with the
      player's position), a collision, or a timer firing. */
  datatype Event =
    | PlayerFrame(keys: PlayerEntity.Keys)
    | EnemyFrame(enemy: nat, px: int, py: int)
    | EnemyTouch(enemy: nat)
    | ProjectileHitsEnemy(enemy: nat, projectile: WeaponSystem.Projectile, pick: nat)
    | CoinPickup(coin: nat)
    | CrystalPickup
    | SlowTimerFired
    | InvulnerabilityTimerFired

  /** The engine's random drop pick, as an index into a non-empty drop list. */
  function Fit(pick: nat, drops: seq<string>): (i: nat)
    ensures |drops| > 0 ==> i < |drops|
  {
    if |drops| == 0 then 0 else pick % |drops|
  }

  /** The list without its entry at `i`. */
  function RemoveAt<T>(s: seq<T>, i: nat): (r: seq<T>)
    requires i < |s|
    ensures |r| == |s| - 1
    ensures forall j :: 0 <= j < i ==> r[j] == s[j]
    ensures forall j :: i <= j < |r| ==> r[j] == s[j + 1]
  {
    s[..i] + s[i + 1..]
  }

  /** One event at time `now`; the flag says whether the player's `die` started.
      - a player frame runs `Player.update` against the registry;
      - an enemy frame runs `Enemy.update` and applies its effects;
      - touching a live enemy costs `enemy.damage || 5`, a dead one nothing;
      - a projectile still in flight hitting a live enemy deals
        `projectile.damage || 10` and applies the defeat credit and the drop
        (after its 3000 ms lifetime the projectile is destroyed and hits
        nothing);
      - picking up a coin adds its value when the value is truthy;
      - picking up a data crystal is `collectDataCrystal`;
      - the slow timer ends the oldest running slow (all last 3000 ms, so
        they end in the order they began): as written it puts back the
        speed that slow remembered, corrected it undoes one halving;
      - the invulnerability timer ends the invulnerability.
      The registry is never empty: it starts with one weapon and only grows. */
  function Step(w: World, ev: Event, now: int, h: Handlers): (r: (World, bool))
    requires |w.weapons.unlocked| > 0
    ensures r.1 ==> !w.player.dead && r.0.player.dead
    ensures w.player.dead ==> r.0.player.dead && !r.1
    ensures r.1 ==> ev.EnemyFrame? || ev.EnemyTouch? || ev.ProjectileHitsEnemy?
    ensures ev.CoinPickup? || ev.CrystalPickup? ==> r.0.player == w.player && r.0.enemies == w.enemies
    ensures ev.ProjectileHitsEnemy? && !WeaponSystem.InFlight(ev.projectile, now) ==> r == (w, false)
  {
    match ev
    case PlayerFrame(keys) =>
      var f := PlayerEntity.Update(w.player, w.weapons, keys, now);
      (w.(player := f.player, weapons := f.registry), false)
    case EnemyFrame(i, px, py) =>
      if i < |w.enemies| then
        var u := EnemyEntity.Update(w.enemies[i], Some(EnemyEntity.Target(px, py, w.player.dead)), now);
        ApplyEffects(w.(enemies := w.enemies[i := u.0]), u.2, now)
      else (w, false)
    case EnemyTouch(i) =>
      if i < |w.enemies| && !w.enemies[i].dead then
        ApplyEffect(w, EnemyEntity.DamagePlayer(OrNumber(Some(w.enemies[i].damage), 5)), now)
      else (w, false)
    case ProjectileHitsEnemy(i, p, pick) =>
      if i < |w.enemies| && !w.enemies[i].dead && WeaponSystem.InFlight(p, now) then
        var e := w.enemies[i];
        var hit := EnemyEntity.TakeDamage(e, OrNumber(Some(p.damage), 10), Fit(pick, e.drops));
        ApplyEffects(w.(enemies := w.enemies[i := hit.0]), hit.1, now)
      else (w, false)
    case CoinPickup(i) =>
      if w.coins.Some? && i < |w.coins.value| && w.coins.value[i].value != 0 then
        (w.(budget := BudgetSystem.AddBudget(w.budget, w.coins.value[i].value),
            coins := Some(RemoveAt(w.coins.value, i))), false)
      else (w, false)
    case CrystalPickup =>
      if w.crystals > 0 then
        (w.(score := ScoreSystem.CollectDataCrystal(w.score), crystals := w.crystals - 1), false)
      else (w, false)
    case SlowTimerFired =>
      if |w.slowPending| == 0 then (w, false)
      else
        var speed :=
          if h.AsWritten? then
            EnemyEntity.SlowStepAsWritten(EnemyEntity.SlowAsWritten(w.player.speed, w.slowPending), EnemyEntity.SlowExpired).speed
          else
            EnemyEntity.SlowStep(EnemyEntity.SlowState(w.player.speed, |w.slowPending|), EnemyEntity.SlowExpired).speed;
        (w.(player := w.player.(speed := speed), slowPending := w.slowPending[1..]), false)
    case InvulnerabilityTimerFired =>
      (w.(player := PlayerEntity.ExpireInvulnerability(w.player)), false)
  }

  /** The effects an enemy's frame produces keep the invariant. */
  lemma UpdateEffectsSane(e: EnemyEntity.Enemy, t: Option<EnemyEntity.Target>, now: int)
    requires e.damage >= 0
    ensures EffectsSane(EnemyEntity.Update(e, t, now).2)
  {
    var fx := EnemyEntity.SpecialEffects(e.special);
    assert EffectsSane(fx);
  }

  /** The effects of a hit on an enemy keep the invariant: the only coin it
      can drop is worth the table value or 50. */
  lemma HitEffectsSane(e: EnemyEntity.Enemy, amount: int, pick: nat)
    requires |e.drops| > 0 ==> pick < |e.drops|
    ensures EffectsSane(EnemyEntity.TakeDamage(e, amount, pick).1)
  {
    var loot := EnemyEntity.DropLoot(e.drops, pick);
    if |loot| > 0 {
      var t := loot[0].coinType;
      EnemyEntity.CoinValueTableNonZero(t);
      assert loot[0].value == EnemyEntity.DropValue(t) > 0;
    }
    assert EffectsSane([EnemyEntity.CreditDefeat] + loot);
  }

  /** Every event keeps the invariant, under either reading. */
  lemma StepKeepsValid(w: World, ev: Event, now: int, h: Handlers)
    requires Valid(w)
    ensures Valid(Step(w, ev, now, h).0)
  {
    match ev
    case PlayerFrame(keys) =>
    case EnemyFrame(i, px, py) =>
      if i < |w.enemies| {
        var t := Some(EnemyEntity.Target(px, py, w.player.dead));
        var u := EnemyEntity.Update(w.enemies[i], t, now);
        UpdateEffectsSane(w.enemies[i], t, now);
        var w' := w.(enemies := w.enemies[i := u.0]);
        assert Valid(w');
        ApplyEffectsKeepsValid(w', u.2, now);
      }
    case EnemyTouch(i) =>
      if i < |w.enemies| && !w.enemies[i].dead {
        ApplyEffectKeepsValid(w, EnemyEntity.DamagePlayer(OrNumber(Some(w.enemies[i].damage), 5)), now);
      }
    case ProjectileHitsEnemy(i, p, pick) =>
      if i < |w.enemies| && !w.enemies[i].dead && WeaponSystem.InFlight(p, now) {
        var e := w.enemies[i];
        var hit := EnemyEntity.TakeDamage(e, OrNumber(Some(p.damage), 10), Fit(pick, e.drops));
        HitEffectsSane(e, OrNumber(Some(p.damage), 10), Fit(pick, e.drops));
        var w' := w.(enemies := w.enemies[i := hit.0]);
        assert Valid(w');
        ApplyEffectsKeepsValid(w', hit.1, now);
      }
    case CoinPickup(i) =>
    case CrystalPickup =>
    case SlowTimerFired =>
      if |w.slowPending| > 0 {
        var v := Step(w, ev, now, h).0;
        assert v.slowPending == w.slowPending[1..];
        assert forall i :: 0 <= i < |v.slowPending| ==> v.slowPending[i] > 0.0 by {
          forall i | 0 <= i < |v.slowPending|
            ensures v.slowPending[i] > 0.0
          {
            assert v.slowPending[i] == w.slowPending[i + 1];
          }
        }
      }
    case InvulnerabilityTimerFired =>
  }

  /** No effect touches the chosen genre. */
  lemma {:induction false} ApplyEffectsKeepGenre(w: World, fxs: seq<EnemyEntity.Effect>, now: int)
    ensures ApplyEffects(w, fxs, now).0.score.genre == w.score.genre
    decreases |fxs|
  {
    if |fxs| > 0 {
      ApplyEffectsKeepGenre(ApplyEffect(w, fxs[0], now).0, fxs[1..], now);
    }
  }

  /** No event of play touches the chosen genre. */
  lemma StepKeepsGenre(w: World, ev: Event, now: int, h: Handlers)
    requires |w.weapons.unlocked| > 0
    ensures Step(w, ev, now, h).0.score.genre == w.score.genre
  {
    match ev
    case EnemyFrame(i, px, py) =>
      if i < |w.enemies| {
        var u := EnemyEntity.Update(w.enemies[i], Some(EnemyEntity.Target(px, py, w.player.dead)), now);
        ApplyEffectsKeepGenre(w.(enemies := w.enemies[i := u.0]), u.2, now);
      }
    case ProjectileHitsEnemy(i, p, pick) =>
      if i < |w.enemies| && !w.enemies[i].dead && WeaponSystem.InFlight(p, now) {
        var e := w.enemies[i];
        var hit := EnemyEntity.TakeDamage(e, OrNumber(Some(p.damage), 10), Fit(pick, e.drops));
        ApplyEffectsKeepGenre(w.(enemies := w.enemies[i := hit.0]), hit.1, now);
      }
    case _ =>
  }

  /** Touching a dead enemy, or shooting one, changes nothing. */
  lemma DeadEnemyIsInert(w: World, i: nat, p: WeaponSystem.Projectile, pick: nat, now: int, h: Handlers)
    requires |w.weapons.unlocked| > 0 && i < |w.enemies| && w.enemies[i].dead
    ensures Step(w, EnemyTouch(i), now, h) == (w, false)
    ensures Step(w, ProjectileHitsEnemy(i, p, pick), now, h) == (w, false)
  {
  }

  /** Touching a live enemy hits a vulnerable player for the enemy's damage,
      or for 5 when that damage is zero. */
  lemma TouchCost(w: World, i: nat, now: int, h: Handlers)
    requires |w.weapons.unlocked| > 0 && i < |w.enemies| && !w.enemies[i].dead
    requires !w.player.invulnerable && !w.player.dead
    ensures var cost := if w.enemies[i].damage == 0 then 5 else w.enemies[i].damage;
            Step(w, EnemyTouch(i), now, h).0.player.hp == Max(0, w.player.hp - cost)
  {
  }

  /** A coin pickup adds exactly the coin's value to the budget and removes the
      coin; a crystal pickup adds 5 points, saturating at 100. */
  lemma PickupRewards(w: World, i: nat, now: int, h: Handlers)
    requires Valid(w) && w.coins.Some? && i < |w.coins.value|
    ensures Step(w, CoinPickup(i), now, h).0.budget.budget == w.budget.budget + w.coins.value[i].value
    ensures |Step(w, CoinPickup(i), now, h).0.coins.value| == |w.coins.value| - 1
    ensures w.crystals > 0 ==>
              Step(w, CrystalPickup, now, h).0.score.score == Min(100, w.score.score + 5)
  {
  }

  /** An enemy's defeat, however many hits it takes, is credited once: the
      score goes up by 10 (saturating) exactly when a live enemy is shot dead
      by a projectile still in flight. */
  lemma KillCreditsOnce(w: World, i: nat, p: WeaponSystem.Projectile, pick: nat, now: int, h: Handlers)
    requires Valid(w) && i < |w.enemies| && !w.enemies[i].dead
    requires w.enemies[i].hp <= OrNumber(Some(p.damage), 10)
    ensures WeaponSystem.InFlight(p, now) ==>
              i < |Step(w, ProjectileHitsEnemy(i, p, pick), now, h).0.enemies|
              && Step(w, ProjectileHitsEnemy(i, p, pick), now, h).0.enemies[i].dead
              && Step(w, ProjectileHitsEnemy(i, p, pick), now, h).0.score
                 == ScoreSystem.DefeatCompetitor(w.score)
  {
    if !WeaponSystem.InFlight(p, now) {
      return;
    }
    var e := w.enemies[i];
    var k := Fit(pick, e.drops);
    var hit := EnemyEntity.TakeDamage(e, OrNumber(Some(p.damage), 10), k);
    var loot := EnemyEntity.DropLoot(e.drops, k);
    assert hit.1 == [EnemyEntity.CreditDefeat] + loot;
    var w' := w.(enemies := w.enemies[i := hit.0]);
    HitEffectsSane(e, OrNumber(Some(p.damage), 10), k);
    ApplyEffectsKeepsValid(w', hit.1, now);
    var first := ApplyEffect(w', EnemyEntity.CreditDefeat, now);
    assert hit.1[1..] == loot;
    assert ApplyEffects(w', hit.1, now).0 == ApplyEffects(first.0, loot, now).0;
    if |loot| > 0 {
      assert loot[1..] == [];
      assert ApplyEffects(first.0, loot, now).0 == ApplyEffect(first.0, loot[0], now).0;
    }
  }

  /** An event and the engine time at which it happens. */
  datatype Timed = At(ev: Event, now: int)

  /** A run of events, each at its own time, under one reading of the handlers. */
  function Run(w: World, evs: seq<Timed>, h: Handlers): (r: World)
    requires Valid(w)
    ensures Valid(r)
    decreases |evs|
  {
    if |evs| == 0 then w
    else
      StepKeepsValid(w, evs[0].ev, evs[0].now, h);
      Run(Step(w, evs[0].ev, evs[0].now, h).0, evs[1..], h)
  }

  /** Only the slow special and its timer touch the player's speed or the
      remembered speeds. */
  lemma ApplyEffectSlowOnly(w: World, fx: EnemyEntity.Effect, now: int)
    requires !fx.SlowPlayer?
    ensures ApplyEffect(w, fx, now).0.player.speed == w.player.speed
    ensures ApplyEffect(w, fx, now).0.slowPending == w.slowPending
  {
  }

  lemma ApplyEffectKeepsSlowTracked(w: World, fx: EnemyEntity.Effect, now: int)
    requires SlowTracked(w)
    ensures SlowTracked(ApplyEffect(w, fx, now).0)
  {
  }

  lemma {:induction false} ApplyEffectsKeepSlowTracked(w: World, fxs: seq<EnemyEntity.Effect>, now: int)
    requires SlowTracked(w)
    ensures SlowTracked(ApplyEffects(w, fxs, now).0)
    decreases |fxs|
  {
    if |fxs| > 0 {
      ApplyEffectKeepsSlowTracked(w, fxs[0], now);
      ApplyEffectsKeepSlowTracked(ApplyEffect(w, fxs[0], now).0, fxs[1..], now);
    }
  }

  /** With the corrected restore every event keeps the speed at the base
      speed halved once per running slow. */
  lemma StepKeepsSlowTracked(w: World, ev: Event, now: int)
    requires |w.weapons.unlocked| > 0 && SlowTracked(w)
    ensures SlowTracked(Step(w, ev, now, Corrected).0)
  {
    match ev
    case EnemyFrame(i, px, py) =>
      if i < |w.enemies| {
        var u := EnemyEntity.Update(w.enemies[i], Some(EnemyEntity.Target(px, py, w.player.dead)), now);
        ApplyEffectsKeepSlowTracked(w.(enemies := w.enemies[i := u.0]), u.2, now);
      }
    case EnemyTouch(i) =>
      if i < |w.enemies| && !w.enemies[i].dead {
        ApplyEffectSlowOnly(w, EnemyEntity.DamagePlayer(OrNumber(Some(w.enemies[i].damage), 5)), now);
      }
    case ProjectileHitsEnemy(i, p, pick) =>
      if i < |w.enemies| && !w.enemies[i].dead && WeaponSystem.InFlight(p, now) {
        var e := w.enemies[i];
        var hit := EnemyEntity.TakeDamage(e, OrNumber(Some(p.damage), 10), Fit(pick, e.drops));
        ApplyEffectsKeepSlowTracked(w.(enemies := w.enemies[i := hit.0]), hit.1, now);
      }
    case SlowTimerFired =>
      if |w.slowPending| > 0 {
        assert EnemyEntity.Halves(|w.slowPending|) == 0.5 * EnemyEntity.Halves(|w.slowPending| - 1);
      }
    case _ =>
  }

  lemma {:induction false} RunKeepsSlowTracked(w: World, evs: seq<Timed>)
    requires Valid(w) && SlowTracked(w)
    ensures SlowTracked(Run(w, evs, Corrected))
    decreases |evs|
  {
    if |evs| > 0 {
      StepKeepsValid(w, evs[0].ev, evs[0].now, Corrected);
      StepKeepsSlowTracked(w, evs[0].ev, evs[0].now);
      RunKeepsSlowTracked(Step(w, evs[0].ev, evs[0].now, Corrected).0, evs[1..]);
    }
  }

  /** With the corrected restore, once every slow timer has fired the player
      is back at full speed, whatever happened in between. */
  lemma SlowsAlwaysWearOff(w: World, evs: seq<Timed>)
    requires Valid(w) && SlowTracked(w)
    ensures |Run(w, evs, Corrected).slowPending| == 0 ==> Run(w, evs, Corrected).player.speed == PlayerSpeed
  {
    RunKeepsSlowTracked(w, evs);
  }

  /** The slow timer's two readings: as written it puts back the speed the
      oldest running slow remembered, corrected it doubles the current speed;
      both end that slow. */
  lemma SlowTimerReadings(w: World, now: int)
    requires |w.weapons.unlocked| > 0 && |w.slowPending| > 0
    ensures Step(w, SlowTimerFired, now, AsWritten).0.player.speed == w.slowPending[0]
    ensures EnemyEntity.SlowSpeed(Step(w, SlowTimerFired, now, Corrected).0.player.speed) == w.player.speed
    ensures Step(w, SlowTimerFired, now, AsWritten).0.slowPending == w.slowPending[1..]
    ensures Step(w, SlowTimerFired, now, Corrected).0.slowPending == w.slowPending[1..]
  {
  }

  /** In a scene, two overlapping slows on a player at full speed: once both
      timers have fired, the player is left at half speed as written and back
      at full speed with the correction. */
  lemma SlowOverlapInScene(w: World, now: int)
    requires |w.weapons.unlocked| > 0 && w.player.speed == PlayerSpeed && w.slowPending == []
    ensures var twice := ApplyEffect(ApplyEffect(w, EnemyEntity.SlowPlayer, now).0, EnemyEntity.SlowPlayer, now).0;
            var a := Step(Step(twice, SlowTimerFired, now, AsWritten).0, SlowTimerFired, now, AsWritten).0;
            var c := Step(Step(twice, SlowTimerFired, now, Corrected).0, SlowTimerFired, now, Corrected).0;
            a.slowPending == [] && a.player.speed == PlayerSpeed / 2.0
            && c.slowPending == [] && c.player.speed == PlayerSpeed
  {
  }
}

=== FILE: menu.dfy ===
/** The title menu and the new-game form (`src/scenes/MenuScene.js`): a
    four-item menu whose cursor wraps around, a five-field form edited from
    the keyboard, the rule that decides whether the form can start a game,
    and resuming a saved game by building a world's scene key. The webhook
    call, the engine registry and the storage read are not modelled; the
    stored save arrives as an optional record. */
module MenuScene {

  import opened Common
  import opened Strings
  import opened Progress

  /** The menu entries, top to bottom. */
  const MenuItems: seq<string> := ["NEW GAME", "CONTINUE", "OPTIONS", "CREDITS"]

  /** The cursor after the up key: one entry higher, from the top to the bottom. */
  function MenuUp(i: nat): (j: nat)
    requires i < |MenuItems|
    ensures j < |MenuItems|
    ensures i > 0 ==> j == i - 1
    ensures i == 0 ==> j == |MenuItems| - 1
  {
    (i - 1 + |MenuItems|) % |MenuItems|
  }

  /** The cursor after the down key: one entry lower, from the bottom to the top. */
  function MenuDown(i: nat): (j: nat)
    requires i < |MenuItems|
    ensures j < |MenuItems|
    ensures i + 1 < |MenuItems| ==> j == i + 1
    ensures i + 1 == |MenuItems| ==> j == 0
  {
    (i + 1) % |MenuItems|
  }

  /** Up undoes down and down undoes up. */
  lemma UpDownInverse(i: nat)
    requires i < |MenuItems|
    ensures MenuUp(MenuDown(i)) == i
    ensures MenuDown(MenuUp(i)) == i
  {
  }

  /** What choosing an entry does. */
  datatype MenuAction = ShowForm | LoadSavedGame | ShowMessage(text: string)

  /** `selectMenuItem(index)`. */
  function SelectMenuItem(i: nat): (a: MenuAction)
    requires i < |MenuItems|
    ensures MenuItems[i] == "NEW GAME" <==> a == ShowForm
    ensures MenuItems[i] == "CONTINUE" <==> a == LoadSavedGame
    ensures MenuItems[i] == "OPTIONS" <==> a == ShowMessage("Options coming soon!")
    ensures MenuItems[i] == "CREDITS" <==> a == ShowMessage("Credits coming soon!")
  {
    if i == 0 then ShowForm
    else if i == 1 then LoadSavedGame
    else if i == 2 then ShowMessage("Options coming soon!")
    else ShowMessage("Credits coming soon!")
  }

  /** One menu frame: up, then down, then selection (space or enter). */
  function MenuFrame(i: nat, up: bool, down: bool, select: bool): (r: (nat, Option<MenuAction>))
    requires i < |MenuItems|
    ensures r.0 < |MenuItems|
    ensures var afterUp := if up then MenuUp(i) else i;
            r.0 == if down then MenuDown(afterUp) else afterUp
    ensures select <==> r.1.Some?
    ensures select ==> r.1.value == SelectMenuItem(r.0)
  {
    var afterUp := if up then MenuUp(i) else i;
    var afterDown := if down then MenuDown(afterUp) else afterUp;
    (afterDown, if select then Some(SelectMenuItem(afterDown)) else None)
  }

  /** The genres offered by the form, in the order the arrows walk through them. */
  const Genres: seq<string> := ["pop", "rock", "rap", "electro", "jazz", "metal", "synthwave"]

  /** Longest text a field accepts. */
  const MaxFieldLength: nat := 30

  /** The four text fields and the genre. */
  datatype FormData = FormData(name: string, firstName: string, email: string, company: string, genre: string)

  /** The form: its data, the focused field (0-3 text, 4 genre) and the genre cursor. */
  datatype Form = Form(data: FormData, field: nat, genreIndex: nat)

  /** `showGameStartForm()`: empty fields, the first one focused, genre "pop". */
  function NewForm(): (f: Form)
    ensures f.data == FormData("", "", "", "", "pop") && f.field == 0 && f.genreIndex == 0
    ensures FormInvariant(f)
  {
    Form(FormData("", "", "", "", "pop"), 0, 0)
  }

  /** The text of field `i` (0 name, 1 first name, 2 email, 3 company). */
  function FieldText(d: FormData, i: nat): string
    requires i < 4
  {
    if i == 0 then d.name else if i == 1 then d.firstName else if i == 2 then d.email else d.company
  }

  function SetFieldText(d: FormData, i: nat, text: string): (e: FormData)
    requires i < 4
    ensures FieldText(e, i) == text
    ensures forall j :: 0 <= j < 4 && j != i ==> FieldText(e, j) == FieldText(d, j)
    ensures e.genre == d.genre
  {
    if i == 0 then d.(name := text)
    else if i == 1 then d.(firstName := text)
    else if i == 2 then d.(email := text)
    else d.(company := text)
  }

  /** What the form holds at every step: a field in range, a genre cursor in
      range that names the chosen genre, and no text longer than 30. */
  predicate FormInvariant(f: Form)
  {
    f.field < 5 && f.genreIndex < |Genres| && f.data.genre == Genres[f.genreIndex]
    && forall i :: 0 <= i < 4 ==> |FieldText(f.data, i)| <= MaxFieldLength
  }

  /** `canStartGame()`: a name and a first name of at least two characters
      and an email of at least five characters containing "@". The company
      is not looked at. */
  function CanStartGame(d: FormData): (b: bool)
    ensures b <==> |d.name| >= 2 && |d.firstName| >= 2 && |d.email| >= 5
                   && exists i :: 0 <= i < |d.email| && d.email[i] == '@'
  {
    IncludesMeansOccurs(d.email, "@");
    AtSignOccurs(d.email);
    |d.name| >= 2 && |d.firstName| >= 2 && |d.email| >= 5 && Includes(d.email, "@")
  }

  /** "@" occurs as a pattern exactly where the character '@' stands. */
  lemma AtSignOccurs(s: string)
    ensures (exists i: nat :: OccursAt(s, "@", i)) <==> exists i :: 0 <= i < |s| && s[i] == '@'
  {
    if exists i :: 0 <= i < |s| && s[i] == '@' {
      var i :| 0 <= i < |s| && s[i] == '@';
      assert OccursAt(s, "@", i);
    }
    if exists i: nat :: OccursAt(s, "@", i) {
      var i: nat :| OccursAt(s, "@", i);
      assert s[i..i + 1][0] == s[i];
    }
  }

  /** The keys the form reacts to; `Typed` carries the browser's `event.key`,
      which names the character for printable keys and is longer otherwise. */
  datatype FormKey = Tab | Enter | Left | Right | Backspace | Typed(key: string)

  /** `handleFormKeydown(event)`: the form afterwards and whether the game starts. */
  function HandleFormKey(f: Form, k: FormKey): (r: (Form, bool))
    requires f.field < 5 && f.genreIndex < |Genres|
    ensures r.1 <==> k == Enter && CanStartGame(f.data)
    ensures k == Tab ==> r.0 == f.(field := (f.field + 1) % 5)
    ensures k == Enter ==> r.0 == f
    ensures k != Tab && k != Enter && f.field == 4 && k == Left ==>
              r.0 == f.(genreIndex := (f.genreIndex + |Genres| - 1) % |Genres|,
                        data := f.data.(genre := Genres[(f.genreIndex + |Genres| - 1) % |Genres|]))
    ensures k != Tab && k != Enter && f.field == 4 && k == Right ==>
              r.0 == f.(genreIndex := (f.genreIndex + 1) % |Genres|,
                        data := f.data.(genre := Genres[(f.genreIndex + 1) % |Genres|]))
    ensures f.field == 4 && !(k in {Tab, Enter, Left, Right}) ==> r.0 == f
    ensures f.field < 4 && k == Backspace ==>
              var t := FieldText(f.data, f.field);
              r.0 == f.(data := SetFieldText(f.data, f.field, if |t| == 0 then t else t[..|t| - 1]))
    ensures f.field < 4 && k.Typed? && |k.key| == 1 && |FieldText(f.data, f.field)| < MaxFieldLength ==>
              r.0 == f.(data := SetFieldText(f.data, f.field, FieldText(f.data, f.field) + k.key))
    ensures f.field < 4 && k.Typed? && (|k.key| != 1 || |FieldText(f.data, f.field)| >= MaxFieldLength) ==>
              r.0 == f
    ensures f.field < 4 && (k == Left || k == Right) ==> r.0 == f
  {
    if k == Tab then (f.(field := (f.field + 1) % 5), false)
    else if k == Enter then (f, CanStartGame(f.data))
    else if f.field == 4 then
      if k == Left then
        var g := (f.genreIndex - 1 + |Genres|) % |Genres|;
        (f.(genreIndex := g, data := f.data.(genre := Genres[g])), false)
      else if k == Right then
        var g := (f.genreIndex + 1) % |Genres|;
        (f.(genreIndex := g, data := f.data.(genre := Genres[g])), false)
      else (f, false)
    else
      var t := FieldText(f.data, f.field);
      if k == Backspace then
        (f.(data := SetFieldText(f.data, f.field, if |t| == 0 then t else t[..|t| - 1])), false)
      else if k.Typed? && |k.key| == 1 && |t| < MaxFieldLength then
        (f.(data := SetFieldText(f.data, f.field, t + k.key)), false)
      else (f, false)
  }

  /** Every key keeps the form invariant. */
  lemma HandleKeyKeepsInvariant(f: Form, k: FormKey)
    requires FormInvariant(f)
    ensures FormInvariant(HandleFormKey(f, k).0)
  {
    if f.field < 4 && k != Tab && k != Enter {
      var t := FieldText(f.data, f.field);
      if k == Backspace {
        SetFieldKeepsInvariant(f, f.field, if |t| == 0 then t else t[..|t| - 1]);
        assert HandleFormKey(f, k).0 == f.(data := SetFieldText(f.data, f.field, if |t| == 0 then t else t[..|t| - 1]));
      } else if k.Typed? && |k.key| == 1 && |t| < MaxFieldLength {
        SetFieldKeepsInvariant(f, f.field, t + k.key);
        assert HandleFormKey(f, k).0 == f.(data := SetFieldText(f.data, f.field, t + k.key));
      } else {
        assert HandleFormKey(f, k).0 == f;
      }
    } else {
      var g := HandleFormKey(f, k).0;
      assert g.field < 5 && g.genreIndex < |Genres| && g.data.genre == Genres[g.genreIndex];
      forall i | 0 <= i < 4
        ensures |FieldText(g.data, i)| <= MaxFieldLength
      {
        assert FieldText(g.data, i) == FieldText(f.data, i);
      }
    }
  }

  /** Replacing one field's text by one of at most 30 characters keeps the invariant. */
  lemma SetFieldKeepsInvariant(f: Form, i: nat, text: string)
    requires FormInvariant(f) && i < 4 && |text| <= MaxFieldLength
    ensures FormInvariant(f.(data := SetFieldText(f.data, i, text)))
  {
    var e := SetFieldText(f.data, i, text);
    forall j | 0 <= j < 4
      ensures |FieldText(e, j)| <= MaxFieldLength
    {
      if j != i {
        assert FieldText(e, j) == FieldText(f.data, j);
      }
    }
  }

  /** Typing a run of keys from the empty form: the invariant holds at the
      end, so no text field ever exceeds 30 characters, and the game starts
      only on an Enter pressed while the form is complete. */
  function TypeKeys(f: Form, ks: seq<FormKey>): (r: (Form, bool))
    requires FormInvariant(f)
    ensures FormInvariant(r.0)
    ensures forall i :: 0 <= i < 4 ==> |FieldText(r.0.data, i)| <= MaxFieldLength
    decreases |ks|
  {
    if |ks| == 0 then (f, false)
    else
      HandleKeyKeepsInvariant(f, ks[0]);
      var step := HandleFormKey(f, ks[0]);
      if step.1 then (step.0, true) else TypeKeys(step.0, ks[1..])
  }

  /** Backspace on an empty field leaves it empty. */
  lemma BackspaceOnEmpty(f: Form)
    requires f.field < 4 && f.genreIndex < |Genres| && FieldText(f.data, f.field) == ""
    ensures HandleFormKey(f, Backspace).0 == f
  {
    assert SetFieldText(f.data, f.field, "") == f.data;
  }

  /** Any positive multiple of seven presses of the right arrow on the genre
      field comes back to the same genre. */
  lemma GenreCycle(f: Form, n: nat)
    requires f.field == 4 && f.genreIndex < |Genres| && f.data.genre == Genres[f.genreIndex]
    requires n > 0 && n % |Genres| == 0
    ensures RightTimes(f, n).genreIndex == f.genreIndex
    ensures RightTimes(f, n).data.genre == f.data.genre
  {
    RightTimesIndex(f, n);
  }

  /** The right arrow pressed `n` times on the genre field. */
  function RightTimes(f: Form, n: nat): (g: Form)
    requires f.field == 4 && f.genreIndex < |Genres|
    ensures g.field == 4 && g.genreIndex < |Genres|
    ensures n > 0 ==> g.data.genre == Genres[g.genreIndex]
    ensures n == 0 ==> g == f
    decreases n
  {
    if n == 0 then f else RightTimes(HandleFormKey(f, Right).0, n - 1)
  }

  /** `n` presses move the genre cursor `n` places, modulo the number of genres. */
  lemma {:induction false} RightTimesIndex(f: Form, n: nat)
    requires f.field == 4 && f.genreIndex < |Genres|
    ensures RightTimes(f, n).genreIndex == (f.genreIndex + n) % |Genres|
    decreases n
  {
    if n > 0 {
      var g := HandleFormKey(f, Right).0;
      RightTimesIndex(g, n - 1);
      assert g.genreIndex == (f.genreIndex + 1) % 7;
      assert ((f.genreIndex + 1) % 7 + (n - 1)) % 7 == (f.genreIndex + n) % 7;
    }
  }

  /** What `loadGame()` does with the stored save, if there is one. */
  datatype LoadResult = StartScene(key: string) | NoSave(message: string)

  /** `loadGame()`: resume at the saved world, defaulting to world 1, or say
      there is nothing to load. */
  function LoadGame(save: Option<SaveData>): (r: LoadResult)
    ensures save.None? <==> r == NoSave("No saved game found!")
    ensures save.Some? ==> r == StartScene(SceneKey(OrNumber(save.value.currentWorld, 1)))
  {
    match save
    case None => NoSave("No saved game found!")
    case Some(d) => StartScene(SceneKey(OrNumber(d.currentWorld, 1)))
  }

  /** A save whose world is missing, zero or 1 to 5 resumes a registered world. */
  lemma LoadGameStartsRegisteredWorld(d: SaveData)
    requires d.currentWorld.None? || d.currentWorld.value == 0 || 1 <= d.currentWorld.value <= 5
    ensures LoadGame(Some(d)).StartScene?
    ensures LoadGame(Some(d)).key in RegisteredScenes
  {
    SceneKeyRegistered(OrNumber(d.currentWorld, 1));
  }

  /** The registry values `startGameWithData` writes before starting world 1. */
  datatype StartData = StartData(artistName: string, email: string, genre: string, currentWorld: int)

  function StartGameWithData(d: FormData): (s: StartData)
    ensures s.artistName == d.name + " " + d.firstName
    ensures s.email == d.email && s.genre == d.genre && s.currentWorld == 1
  {
    StartData(d.name + " " + d.firstName, d.email, d.genre, 1)
  }

  /** The artist name written at the start is never empty, so the victory
      screen, which reads it back with `|| 'INDIE_ARTIST'`, shows it; a form
      that could start also has an email the screen shows. The name and the
      first name can be read back from either side of the first space when
      the name has none. */
  lemma StartedNameShown(d: FormData)
    ensures OrString(Some(StartGameWithData(d).artistName), "INDIE_ARTIST") == d.name + " " + d.firstName
    ensures CanStartGame(d) ==> OrString(Some(StartGameWithData(d).email), "artist@music.com") == d.email
    ensures ' ' !in d.name ==>
              StartGameWithData(d).artistName[..|d.name|] == d.name
              && StartGameWithData(d).artistName[|d.name|] == ' '
              && StartGameWithData(d).artistName[|d.name| + 1..] == d.firstName
  {
  }
}

=== FILE: player.dfy ===
/** The player (`src/entities/Player.js`): hit points clamped at zero, a
    one-second invulnerability window after every non-fatal hit, a terminal
    dead state, a heal capped at the maximum, and the keyboard rules of a
    frame: left beats right, up beats down, and an attack at most every
    300 ms. The engine's timer that ends invulnerability is the explicit
    `ExpireInvulnerability` event, and the sprite, tweens and camera are
    not modelled. */
module PlayerEntity {

  import opened Common
  import opened Constants
  import WeaponSystem

  datatype Player = Player(
    hp: int,
    maxHp: int,
    speed: real,
    invulnerable: bool,
    dead: bool,
    facing: Facing,
    lastAttackTime: int,
    attackCooldown: int)

  /** Hit points lie between zero and the maximum. */
  predicate HpInRange(p: Player)
  {
    0 <= p.hp <= p.maxHp
  }

  /** A new player: full health, alive, vulnerable, facing right, never attacked. */
  function New(): (p: Player)
    ensures p.hp == p.maxHp == 100
    ensures !p.dead && !p.invulnerable
    ensures p.facing == FacingRight && p.lastAttackTime == 0 && p.attackCooldown == 300
    ensures p.speed == 150.0
  {
    Player(PlayerMaxHp, PlayerMaxHp, PlayerSpeed, false, false, FacingRight, 0, PlayerAttackCooldown)
  }

  /** What a call to `takeDamage` did. `Hurt` carries the time at which the
      invulnerability timer fires; `Killed` means `die` ran. Every outcome
      but `Ignored` emits `playerHealthChanged`. */
  datatype DamageOutcome = Ignored | Hurt(invulnerableUntil: int) | Killed

  datatype Damaged = Damaged(player: Player, outcome: DamageOutcome)

  /** What a call to `die` did: `started` is false when the player was
      already dead; otherwise the death animation starts and `playerDied`
      follows it. */
  datatype DieResult = DieResult(player: Player, started: bool)

  /** `die()`: a no-op on a dead player, otherwise the one-way switch to dead. */
  function Die(p: Player): (d: DieResult)
    ensures d.player.dead
    ensures d.started <==> !p.dead
    ensures d.player == p.(dead := true)
  {
    if p.dead then DieResult(p, false) else DieResult(p.(dead := true), true)
  }

  /** `takeDamage(amount)` at time `now`. */
  function TakeDamage(p: Player, amount: int, now: int): (d: Damaged)
    ensures d.outcome.Ignored? <==> p.invulnerable || p.dead
    ensures d.outcome.Ignored? ==> d.player == p
    ensures !d.outcome.Ignored? ==> d.player.hp == Max(0, p.hp - amount)
    ensures !d.outcome.Ignored? ==> (d.outcome.Killed? <==> p.hp - amount <= 0)
    ensures d.outcome.Killed? ==> d.player == p.(hp := 0, dead := true)
    ensures d.outcome.Hurt? ==> d.player == p.(hp := p.hp - amount, invulnerable := true)
    ensures d.outcome.Hurt? ==> d.outcome.invulnerableUntil == now + InvulnerabilityTime
    ensures d.player.hp >= 0 || d.outcome.Ignored?
  {
    if p.invulnerable || p.dead then Damaged(p, Ignored)
    else
      var hit := p.(hp := Max(0, p.hp - amount));
      if hit.hp <= 0 then Damaged(Die(hit).player, Killed)
      else Damaged(hit.(invulnerable := true), Hurt(now + InvulnerabilityTime))
  }

  /** The `delayedCall` set by `makeInvulnerable` firing. */
  function ExpireInvulnerability(p: Player): (q: Player)
    ensures !q.invulnerable
    ensures q.(invulnerable := p.invulnerable) == p
  {
    p.(invulnerable := false)
  }

  /** `heal(amount)`: add hit points up to the maximum. Like the source it does
      not look at the dead flag. */
  function Heal(p: Player, amount: int): (q: Player)
    ensures q.hp <= p.maxHp
    ensures q.hp == p.hp + amount || q.hp == p.maxHp
    ensures p.hp + amount <= p.maxHp ==> q.hp == p.hp + amount
    ensures q == p.(hp := q.hp)
  {
    p.(hp := Min(p.maxHp, p.hp + amount))
  }

  /** `reset()`: full health, alive and vulnerable; speed, facing and the
      attack clock are kept. */
  function Reset(p: Player): (q: Player)
    ensures q.hp == q.maxHp == p.maxHp
    ensures !q.dead && !q.invulnerable
    ensures q.speed == p.speed && q.facing == p.facing && q.lastAttackTime == p.lastAttackTime
  {
    p.(hp := p.maxHp, dead := false, invulnerable := false)
  }

  /** The keys held in a frame; `switchJustDown` is `JustDown(Q)`. */
  datatype Keys = Keys(
    left: bool, altLeft: bool, right: bool, altRight: bool,
    up: bool, altUp: bool, down: bool, altDown: bool,
    space: bool, switchJustDown: bool)

  /** The direction of travel chosen by `handleMovement`: each component is
      -1, 0 or 1 and the velocity is `speed` times it, before the diagonal
      normaliser. */
  datatype Move = Move(player: Player, dx: int, dy: int)

  /** `handleMovement()`: left wins over right and up wins over down; facing
      follows horizontal input only. */
  function HandleMovement(p: Player, k: Keys): (m: Move)
    ensures m.dx == -1 <==> k.left || k.altLeft
    ensures m.dx == 1 <==> !(k.left || k.altLeft) && (k.right || k.altRight)
    ensures m.dx == 0 <==> !(k.left || k.altLeft || k.right || k.altRight)
    ensures m.dy == -1 <==> k.up || k.altUp
    ensures m.dy == 1 <==> !(k.up || k.altUp) && (k.down || k.altDown)
    ensures m.dy == 0 <==> !(k.up || k.altUp || k.down || k.altDown)
    ensures m.dx == 0 ==> m.player == p
    ensures m.dx != 0 ==> m.player == p.(facing := if m.dx < 0 then FacingLeft else FacingRight)
  {
    var dx := if k.left || k.altLeft then -1 else if k.right || k.altRight then 1 else 0;
    var dy := if k.up || k.altUp then -1 else if k.down || k.altDown then 1 else 0;
    var q := if dx < 0 then p.(facing := FacingLeft) else if dx > 0 then p.(facing := FacingRight) else p;
    Move(q, dx, dy)
  }

  /** The player and registry after `handleAttack`, and the projectile fired. */
  datatype Attack = Attack(player: Player, registry: WeaponSystem.Registry,
                           attacked: bool, projectile: Option<WeaponSystem.Projectile>)

  /** `handleAttack()`: with space held and more than the attack cooldown since
      the last attack, stamp the attack and ask the weapon to fire in the
      facing direction. The weapon has its own cooldown and may decline; the
      stamp stays either way. */
  function HandleAttack(p: Player, r: WeaponSystem.Registry, space: bool, now: int): (a: Attack)
    ensures a.attacked <==> space && now - p.lastAttackTime > p.attackCooldown
    ensures !a.attacked ==> a.player == p && a.registry == r && a.projectile.None?
    ensures a.attacked ==> a.player == p.(lastAttackTime := now)
    ensures a.attacked ==> a.projectile.Some? == WeaponSystem.CanFire(r, now)
    ensures a.projectile.Some? ==> a.projectile.value.heading == p.facing
    ensures a.registry.unlocked == r.unlocked && a.registry.current == r.current
    ensures a.attacked && WeaponSystem.CanFire(r, now) ==> a.registry.lastFired == now
    ensures !(a.attacked && WeaponSystem.CanFire(r, now)) ==> a.registry == r
  {
    if space && now - p.lastAttackTime > p.attackCooldown then
      var f := WeaponSystem.Fire(r, now, p.facing);
      Attack(p.(lastAttackTime := now), f.registry, true, f.projectile)
    else Attack(p, r, false, None)
  }

  /** Everything one call of `update()` produces. `switched` is the
      `weaponSwitched` event. */
  datatype Frame = Frame(
    player: Player, registry: WeaponSystem.Registry, dx: int, dy: int,
    projectile: Option<WeaponSystem.Projectile>, switched: Option<WeaponKey>)

  /** `update()`: nothing at all once dead; otherwise movement, attack and
      weapon switch, in that order. The unlocked list is never empty (it
      starts with the guitar and only grows). */
  function Update(p: Player, r: WeaponSystem.Registry, k: Keys, now: int): (f: Frame)
    requires |r.unlocked| > 0
    ensures p.dead ==> f == Frame(p, r, 0, 0, None, None)
    ensures !p.dead ==> f.player.hp == p.hp && !f.player.dead && f.player.invulnerable == p.invulnerable
    ensures !p.dead ==> f.dx == HandleMovement(p, k).dx && f.dy == HandleMovement(p, k).dy
    ensures f.switched.Some? <==> !p.dead && k.switchJustDown
    ensures f.switched.Some? ==> f.switched.value == f.registry.current
    ensures f.projectile.Some? ==> !p.dead && k.space
    ensures f.registry.unlocked == r.unlocked
    ensures f.player.speed == p.speed && f.player.maxHp == p.maxHp
  {
    if p.dead then Frame(p, r, 0, 0, None, None)
    else
      var m := HandleMovement(p, k);
      var a := HandleAttack(m.player, r, k.space, now);
      if k.switchJustDown then
        var s := WeaponSystem.SwitchWeapon(a.registry);
        Frame(a.player, s, m.dx, m.dy, a.projectile, Some(s.current))
      else Frame(a.player, a.registry, m.dx, m.dy, a.projectile, None)
  }

  /** Non-negative damage and non-negative heals keep hit points within
      [0, maxHp]. */
  lemma HpStaysInRange(p: Player, amount: int, now: int)
    requires HpInRange(p) && amount >= 0
    ensures HpInRange(TakeDamage(p, amount, now).player)
    ensures HpInRange(Heal(p, amount))
  {
  }

  /** A heal of any amount, negative included, stays at or below the maximum;
      it keeps hit points in range exactly when it does not take them below 0,
      which a negative amount larger than the hit points does. */
  lemma HealInRange(p: Player, amount: int)
    requires HpInRange(p)
    ensures HpInRange(Heal(p, amount)) <==> p.hp + amount >= 0
    ensures p.hp + amount < 0 ==> Heal(p, amount).hp == p.hp + amount
  {
  }

  /** A full-health player hit for 30 drops to 70 and becomes invulnerable; an
      immediate second hit changes nothing. */
  lemma SecondHitIgnoredScenario()
    ensures TakeDamage(New(), 30, 0).player.hp == 70
    ensures TakeDamage(New(), 30, 0).player.invulnerable
    ensures TakeDamage(TakeDamage(New(), 30, 0).player, 30, 10).player.hp == 70
    ensures TakeDamage(TakeDamage(New(), 30, 0).player, 30, 10).outcome.Ignored?
  {
  }

  /** Once dead, only `reset` brings the player back: damage is ignored,
      `die` does nothing, frames do nothing and heals leave the flag set. */
  lemma DeathIsTerminal(p: Player, r: WeaponSystem.Registry, k: Keys, amount: int, now: int)
    requires p.dead && |r.unlocked| > 0
    ensures TakeDamage(p, amount, now).player == p
    ensures !Die(p).started
    ensures Update(p, r, k, now).player == p
    ensures Heal(p, amount).dead
    ensures ExpireInvulnerability(p).dead
  {
  }

  /** The events that reach a player from outside a frame. */
  datatype PlayerEvent = Hit(amount: int, at: int) | InvulnerabilityExpired | HealBy(amount: int)

  /** The player after a run of events, and how many times `die` started. */
  datatype Run = Run(player: Player, deaths: nat)

  function Step(p: Player, e: PlayerEvent): (d: Damaged)
  {
    match e
    case Hit(amount, at) => TakeDamage(p, amount, at)
    case InvulnerabilityExpired => Damaged(ExpireInvulnerability(p), Ignored)
    case HealBy(amount) => Damaged(Heal(p, amount), Ignored)
  }

  /** Applying events in order. Without `reset` the player dies at most once,
      and is dead at the end exactly when it was dead at the start or died
      on the way: `playerDied` is emitted at most once per life. */
  function RunEvents(p: Player, es: seq<PlayerEvent>): (r: Run)
    ensures r.deaths <= 1
    ensures p.dead ==> r.deaths == 0
    ensures r.player.dead <==> p.dead || r.deaths == 1
    ensures r.player.maxHp == p.maxHp
    decreases |es|
  {
    if |es| == 0 then Run(p, 0)
    else
      var d := Step(p, es[0]);
      var rest := RunEvents(d.player, es[1..]);
      Run(rest.player, (if d.outcome.Killed? then 1 else 0) + rest.deaths)
  }
}

=== FILE: progress.dfy ===
/** What passes between scenes: the save record written at the end of a
    world, the data object handed to `scene.start`, and the scene key a
    world number names (`World{n}_{name}`). The world-name table is written
    out identically in `src/scenes/MenuScene.js` and
    `src/scenes/GameOverScene.js`; the registered scene list is the one in
    `src/config/gameConfig.js`. */
module Progress {

  import opened Common
  import opened Strings
  import opened Constants

  /** The names of worlds 1 to 5, in order. */
  const WorldNames: seq<string> :=
    ["DataValley", "ScoringMaze", "FridayForest", "BudgetMountain", "ReleaseCastle"]

  /** `getWorldName(n)`: the table entry for 1..5 and "DataValley" for any other number. */
  function WorldName(w: int): (name: string)
    ensures 1 <= w <= 5 ==> name == WorldNames[w - 1]
    ensures !(1 <= w <= 5) ==> name == "DataValley"
  {
    if 1 <= w <= 5 then WorldNames[w - 1] else "DataValley"
  }

  /** The scene key `World${n}_${getWorldName(n)}`. */
  function SceneKey(w: int): string
  {
    "World" + IntToString(w) + "_" + WorldName(w)
  }

  /** The scene keys the game registers, in order. */
  const RegisteredScenes: seq<string> := [
    "BootScene", "MenuScene",
    "World1_DataValley", "World2_ScoringMaze", "World3_FridayForest",
    "World4_BudgetMountain", "World5_ReleaseCastle",
    "GameOverScene", "VictoryScene"]

  lemma SmallNumbers()
    ensures IntToString(1) == "1" && IntToString(2) == "2" && IntToString(3) == "3"
    ensures IntToString(4) == "4" && IntToString(5) == "5"
  {
    DigitCharValue(1);
    DigitCharValue(2);
    DigitCharValue(3);
    DigitCharValue(4);
    DigitCharValue(5);
  }

  /** The key for a world number names a registered scene exactly when the
      number is 1 to 5: any other number falls back to "DataValley" but keeps
      its own digits, giving a key that starts no scene. */
  lemma SceneKeyRegistered(w: int)
    ensures SceneKey(w) in RegisteredScenes <==> 1 <= w <= 5
  {
    if 1 <= w <= 5 {
      SceneKeysOfWorlds();
      assert w == 1 || w == 2 || w == 3 || w == 4 || w == 5;
    } else {
      SceneKeyOutsideWorlds(w);
    }
  }

  lemma SceneKeysOfWorlds()
    ensures SceneKey(1) == "World1_DataValley"
    ensures SceneKey(2) == "World2_ScoringMaze"
    ensures SceneKey(3) == "World3_FridayForest"
    ensures SceneKey(4) == "World4_BudgetMountain"
    ensures SceneKey(5) == "World5_ReleaseCastle"
  {
    SmallNumbers();
    assert SceneKey(1) == "World" + "1" + "_" + "DataValley";
    assert SceneKey(2) == "World" + "2" + "_" + "ScoringMaze";
    assert SceneKey(3) == "World" + "3" + "_" + "FridayForest";
    assert SceneKey(4) == "World" + "4" + "_" + "BudgetMountain";
    assert SceneKey(5) == "World" + "5" + "_" + "ReleaseCastle";
  }

  lemma SceneKeyOutsideWorlds(w: int)
    requires !(1 <= w <= 5)
    ensures SceneKey(w) !in RegisteredScenes
  {
    var d := IntToString(w);
    assert SceneKey(w) == "World" + d + "_DataValley";
    if "World" + d + "_DataValley" in RegisteredScenes {
      FallbackKeyIsWorldOne(d);
      SmallNumbers();
      IntToStringInjective(w, 1);
    }
  }

  /** A key with the fallback name is registered only with the digit 1. */
  lemma FallbackKeyIsWorldOne(d: string)
    requires "World" + d + "_DataValley" in RegisteredScenes
    ensures d == "1"
  {
    var key := "World" + d + "_DataValley";
    var pre := "World" + d;
    assert key == pre + "_DataValley";
    assert key[|pre|..] == "_DataValley";
    var k :| 0 <= k < |RegisteredScenes| && RegisteredScenes[k] == key;
    EndsWithDataValley(k);
    assert key[..|pre|] == pre && pre[5..] == d;
  }

  /** Among the registered keys only world 1's ends in "_DataValley". */
  lemma EndsWithDataValley(k: nat)
    requires k < |RegisteredScenes|
    ensures var r := RegisteredScenes[k];
            |r| >= 11 && r[|r| - 11..] == "_DataValley" <==> k == 2
  {
  }

  /** The record `saveProgress` writes: the world to resume, the ledgers and
      the weapons; the genre is only written from world 2 on. */
  datatype SaveData = SaveData(
    currentWorld: Option<int>, score: Option<int>, budget: Option<int>,
    unlockedWeapons: seq<WeaponKey>, genre: Option<string>)

  /** The data object passed to the next scene. */
  datatype Transfer = Transfer(score: Option<int>, budget: Option<int>, world: Option<int>)
}

=== FILE: score_system.dfy ===
/** The score ledger (`src/systems/ScoreSystem.js`): a score kept in
    [0, 100], starting at 50, moved by fixed named modifiers and a one-off
    genre bonus, with an optional chosen genre. The `scoreChanged`
    notification is the returned ledger itself: the new score is `r.score`. */
module ScoreSystem {

  import opened Common
  import opened Constants
  import opened Bands

  const BaseScore: int := 50
  const MinScore: int := 0
  const MaxScore: int := 100

  datatype ScoreLedger = ScoreLedger(score: int, genre: Option<string>)

  /** The invariant every mutation re-establishes. */
  predicate Valid(l: ScoreLedger)
  {
    MinScore <= l.score <= MaxScore
  }

  /** A fresh ledger. */
  function New(): (l: ScoreLedger)
    ensures Valid(l)
    ensures l.score == 50 && l.genre == None
  {
    ScoreLedger(BaseScore, None)
  }

  /** `addScore(amount)`: move the score by `amount`, saturating at 0 and 100. */
  function AddScore(l: ScoreLedger, amount: int): (r: ScoreLedger)
    ensures Valid(r)
    ensures r.genre == l.genre
    ensures 0 <= l.score + amount <= 100 ==> r.score == l.score + amount
    ensures l.score + amount < 0 ==> r.score == 0
    ensures l.score + amount > 100 ==> r.score == 100
  {
    l.(score := Max(MinScore, Min(MaxScore, l.score + amount)))
  }

  /** `subtractScore(amount)` is `addScore(-amount)`. */
  function SubtractScore(l: ScoreLedger, amount: int): (r: ScoreLedger)
    ensures r == AddScore(l, -amount)
    ensures Valid(l) && amount >= 0 ==> r.score <= l.score
  {
    AddScore(l, -amount)
  }

  /** `collectDataCrystal()`: +5, saturating at 100. */
  function CollectDataCrystal(l: ScoreLedger): (r: ScoreLedger)
    ensures Valid(r) && r.genre == l.genre
    ensures 0 <= l.score <= 95 ==> r.score == l.score + 5
    ensures l.score > 95 ==> r.score == 100
  {
    AddScore(l, CollectDataCrystalDelta)
  }

  /** `defeatCompetitor()`: +10, saturating at 100. */
  function DefeatCompetitor(l: ScoreLedger): (r: ScoreLedger)
    ensures Valid(r) && r.genre == l.genre
    ensures 0 <= l.score <= 90 ==> r.score == l.score + 10
    ensures l.score > 90 ==> r.score == 100
  {
    AddScore(l, DefeatCompetitorDelta)
  }

  /** `collectBudgetCoin()`: +2, saturating at 100. */
  function CollectBudgetCoin(l: ScoreLedger): (r: ScoreLedger)
    ensures Valid(r) && r.genre == l.genre
    ensures 0 <= l.score <= 98 ==> r.score == l.score + 2
    ensures l.score > 98 ==> r.score == 100
  {
    AddScore(l, CollectBudgetCoinDelta)
  }

  /** `completeQuest()`: +15, saturating at 100. */
  function CompleteQuest(l: ScoreLedger): (r: ScoreLedger)
    ensures Valid(r) && r.genre == l.genre
    ensures 0 <= l.score <= 85 ==> r.score == l.score + 15
    ensures l.score > 85 ==> r.score == 100
  {
    AddScore(l, CompleteQuestDelta)
  }

  /** `loseToBoss()`: -15, saturating at 0. */
  function LoseToBoss(l: ScoreLedger): (r: ScoreLedger)
    ensures Valid(r) && r.genre == l.genre
    ensures 15 <= l.score <= 100 ==> r.score == l.score - 15
    ensures l.score < 15 ==> r.score == 0
  {
    AddScore(l, LoseToBossDelta)
  }

  /** `wrongFridayChoice()`: -20, saturating at 0. */
  function WrongFridayChoice(l: ScoreLedger): (r: ScoreLedger)
    ensures Valid(r) && r.genre == l.genre
    ensures 20 <= l.score <= 100 ==> r.score == l.score - 20
    ensures l.score < 20 ==> r.score == 0
  {
    AddScore(l, WrongFridayChoiceDelta)
  }

  /** `SCORE_MODIFIERS.genreBonus[genre] || 0`. */
  function GenreBonus(genre: string): (b: int)
    ensures genre !in Keys(GenreBonusTable) ==> b == 0
    ensures genre in Keys(GenreBonusTable) ==> 8 <= b <= 15
    ensures genre in Keys(GenreBonusTable) ==>
      exists i :: 0 <= i < |GenreBonusTable| && GenreBonusTable[i] == (genre, b)
  {
    GenreTablesAgree();
    match Lookup(GenreBonusTable, genre)
    case Some(v) => v
    case None => 0
  }

  /** `setGenre(genre)`: record the genre and add its bonus. The ledger
      itself accepts any number of calls; the once-only rule is the
      caller's (World 2's `genreChosen` gate). */
  function SetGenre(l: ScoreLedger, genre: string): (r: ScoreLedger)
    ensures r.genre == Some(genre)
    ensures Valid(r)
    ensures Valid(l) && genre !in Keys(GenreBonusTable) ==> r.score == l.score
    ensures genre in Keys(GenreBonusTable) && 0 <= l.score <= 85 ==> l.score + 8 <= r.score <= l.score + 15
    ensures r.score == Clamp(l.score + GenreBonus(genre), MinScore, MaxScore)
  {
    AddScore(l.(genre := Some(genre)), GenreBonus(genre))
  }

  /** The ledger does not guard against a second `setGenre`: the later genre
      replaces the earlier one and both bonuses are added. */
  lemma SetGenreRepeats(l: ScoreLedger, first: string, second: string)
    requires Valid(l) && l.score <= 70
    requires first in Keys(GenreBonusTable) && second in Keys(GenreBonusTable)
    ensures SetGenre(SetGenre(l, first), second).genre == Some(second)
    ensures SetGenre(SetGenre(l, first), second).score == l.score + GenreBonus(first) + GenreBonus(second)
  {
  }

  /** `getCompetitionLevel()`: the ledger's copy of the band cut-offs, which
      agrees with the one band function. */
  function GetCompetitionLevel(l: ScoreLedger): (r: CompetitionInfo)
    ensures r.level == Label(CompetitionOf(l.score))
    ensures r.color == Color(CompetitionOf(l.score))
  {
    if l.score >= 85 then CompetitionInfo("Very Low", 0x00FF00)
    else if l.score >= 70 then CompetitionInfo("Low", 0x90EE90)
    else if l.score >= 55 then CompetitionInfo("Moderate", 0xFFFF00)
    else if l.score >= 40 then CompetitionInfo("High", 0xFFA500)
    else CompetitionInfo("Very High", 0xFF0000)
  }

  /** `reset()`: back to a fresh ledger. */
  function Reset(l: ScoreLedger): (r: ScoreLedger)
    ensures Valid(r) && r.score == BaseScore && r.genre.None?
  {
    New()
  }

  /** The saved form `{ score, genre }`; fields of a stored record may be missing. */
  datatype ScoreData = ScoreData(score: Option<int>, genre: Option<string>)

  function Serialize(l: ScoreLedger): (d: ScoreData)
    ensures d.score == Some(l.score) && d.genre == l.genre
  {
    ScoreData(Some(l.score), l.genre)
  }

  /** `deserialize(data)`: `score || 50` and `genre || null`, so a stored
      score of 0 reads back as 50 and an empty genre as none. */
  function Deserialize(d: ScoreData): (l: ScoreLedger)
    ensures d.score.Some? && d.score.value != 0 ==> l.score == d.score.value
    ensures d.score.None? || d.score == Some(0) ==> l.score == BaseScore
    ensures l.genre.Some? ==> l.genre == d.genre && d.genre.value != ""
    ensures d.genre.Some? && d.genre.value != "" ==> l.genre == d.genre
  {
    ScoreLedger(OrNumber(d.score, BaseScore), OrNull(d.genre))
  }

  /** Saving and restoring gives the ledger back, except that a score of 0
      comes back as 50 (and an empty genre as none). */
  lemma SerializeRoundTrip(l: ScoreLedger)
    ensures l.score != 0 && l.genre != Some("") ==> Deserialize(Serialize(l)) == l
    ensures l.score == 0 ==> Deserialize(Serialize(l)).score == 50
  {
  }

  /** Applies `addScore` for each amount in turn. */
  function AddScoreAll(l: ScoreLedger, amounts: seq<int>): (r: ScoreLedger)
    ensures Valid(l) || |amounts| > 0 ==> Valid(r)
    ensures r.genre == l.genre
    decreases |amounts|
  {
    if |amounts| == 0 then l else AddScoreAll(AddScore(l, amounts[0]), amounts[1..])
  }

  /** Every sequence of `addScore` calls on a fresh ledger keeps the score in [0, 100]. */
  lemma AnyAddScoresStayInRange(amounts: seq<int>)
    ensures 0 <= AddScoreAll(New(), amounts).score <= 100
  {
  }

  /** Three data crystals and one lost boss fight from a fresh ledger end at 50. */
  lemma CrystalsThenBossScenario()
    ensures LoseToBoss(CollectDataCrystal(CollectDataCrystal(CollectDataCrystal(New())))).score == 50
  {
  }
}

=== FILE: strings.dfy ===
/** The string operations the game's text relies on: rendering an integer
    the way a JavaScript template literal does (`${n}`), `Number#toString(16)`,
    `String#padStart`, `String#includes` and the first-occurrence
    `String#replace`. Each rendering comes with its parser, and the
    round-trip lemmas make the renderings injective. */
module Strings {

  import opened Common

  const Alphabet: string := "0123456789abcdef"

  /** The lower-case digit for `d` (JavaScript renders hex digits in lower case). */
  function DigitChar(d: nat): char
    requires d < 16
  {
    Alphabet[d]
  }

  /** The value of a digit character, or -1 for anything else. */
  function DigitValue(c: char): int
  {
    if '0' <= c <= '9' then c as int - '0' as int
    else if 'a' <= c <= 'f' then c as int - 'a' as int + 10
    else -1
  }

  predicate IsDigit(c: char, base: nat)
  {
    0 <= DigitValue(c) < base
  }

  predicate AllDigits(s: string, base: nat)
  {
    forall i :: 0 <= i < |s| ==> IsDigit(s[i], base)
  }

  lemma DigitCharValue(d: nat)
    requires d < 16
    ensures DigitValue(DigitChar(d)) == d
  {
  }

  /** Euclidean division by a base peels off the last digit and shrinks the number. */
  lemma DivModBase(n: nat, base: nat)
    requires 2 <= base
    ensures n == (n / base) * base + n % base
    ensures 0 <= n % base < base
    ensures n >= base ==> 1 <= n / base < n
  {
    var q := n / base;
    if n >= base {
      assert q * base <= n;
      assert q >= 1;
      assert q * base >= q * 2;
    }
  }

  /** Positional notation of `n` in `base`, most significant digit first,
      without leading zeros. */
  function NatToDigits(n: nat, base: nat): (s: string)
    requires 2 <= base <= 16
    ensures |s| >= 1
    ensures AllDigits(s, base)
    decreases n
  {
    DivModBase(n, base);
    if n < base then [DigitChar(n)]
    else NatToDigits(n / base, base) + [DigitChar(n % base)]
  }

  /** The inverse reading: the number a string of digits denotes. */
  function DigitsToNat(s: string, base: nat): nat
    requires 2 <= base <= 16
    requires AllDigits(s, base)
  {
    if |s| == 0 then 0
    else DigitsToNat(s[..|s| - 1], base) * base + DigitValue(s[|s| - 1])
  }

  lemma {:induction false} DigitsRoundTrip(n: nat, base: nat)
    requires 2 <= base <= 16
    ensures DigitsToNat(NatToDigits(n, base), base) == n
    decreases n
  {
    var s := NatToDigits(n, base);
    DivModBase(n, base);
    DigitCharValue(n % base);
    if n < base {
      assert s == [DigitChar(n)];
      assert s[..0] == [];
    } else {
      var hi := NatToDigits(n / base, base);
      assert s == hi + [DigitChar(n % base)];
      assert s[..|s| - 1] == hi;
      DigitsRoundTrip(n / base, base);
    }
  }

  /** `${i}` for an integer: an optional minus sign, then the decimal digits. */
  function IntToString(i: int): (s: string)
    ensures |s| >= 1
    ensures i >= 0 ==> AllDigits(s, 10)
    ensures i < 0 ==> s[0] == '-' && AllDigits(s[1..], 10)
  {
    if i < 0 then "-" + NatToDigits(-i, 10) else NatToDigits(i, 10)
  }

  /** Reads back what `IntToString` writes. */
  function ParseInt(s: string): int
  {
    if |s| > 0 && s[0] == '-' && AllDigits(s[1..], 10) then -(DigitsToNat(s[1..], 10) as int)
    else if AllDigits(s, 10) then DigitsToNat(s, 10)
    else 0
  }

  lemma IntToStringRoundTrip(i: int)
    ensures ParseInt(IntToString(i)) == i
  {
    var s := IntToString(i);
    if i < 0 {
      var d := NatToDigits(-i, 10);
      assert s == "-" + d;
      assert s[1..] == d;
      DigitsRoundTrip(-i, 10);
      assert ParseInt(s) == -(DigitsToNat(d, 10) as int);
    } else {
      var d := NatToDigits(i, 10);
      assert s == d;
      assert IsDigit(d[0], 10);
      assert d[0] != '-';
      DigitsRoundTrip(i, 10);
      assert ParseInt(s) == DigitsToNat(d, 10);
    }
  }

  /** Distinct integers are rendered as distinct strings. */
  lemma IntToStringInjective(a: int, b: int)
    requires IntToString(a) == IntToString(b)
    ensures a == b
  {
    IntToStringRoundTrip(a);
    IntToStringRoundTrip(b);
  }

  /** `n.toString(16)` for a non-negative integer. */
  function ToHex(n: nat): (s: string)
    ensures |s| >= 1 && AllDigits(s, 16)
  {
    NatToDigits(n, 16)
  }

  /** `Repeat(c, k)` is `k` copies of `c`. */
  function Repeat(c: char, k: nat): (s: string)
    ensures |s| == k
    ensures forall i :: 0 <= i < k ==> s[i] == c
  {
    if k == 0 then [] else [c] + Repeat(c, k - 1)
  }

  /** `s.padStart(width, c)`: left-fill with `c` up to `width` characters. */
  function PadStart(s: string, width: nat, c: char): (r: string)
    ensures |r| == if |s| >= width then |s| else width
    ensures r[|r| - |s|..] == s
    ensures forall i :: 0 <= i < |r| - |s| ==> r[i] == c
  {
    if |s| >= width then s else Repeat(c, width - |s|) + s
  }

  /** `pat` occurs in `s` at position `i`. */
  predicate OccursAt(s: string, pat: string, i: nat)
  {
    i + |pat| <= |s| && s[i..i + |pat|] == pat
  }

  /** The first position at or after `from` where `pat` occurs. */
  function IndexFrom(s: string, pat: string, from: nat): (r: Option<nat>)
    ensures r.Some? ==> from <= r.value && OccursAt(s, pat, r.value)
    ensures r.Some? ==> forall j :: from <= j < r.value ==> !OccursAt(s, pat, j)
    ensures r.None? ==> forall j :: from <= j ==> !OccursAt(s, pat, j)
    decreases |s| - from
  {
    if from + |pat| > |s| then None
    else if s[from..from + |pat|] == pat then Some(from)
    else IndexFrom(s, pat, from + 1)
  }

  /** `s.includes(pat)`. */
  predicate Includes(s: string, pat: string)
  {
    IndexFrom(s, pat, 0).Some?
  }

  lemma IncludesMeansOccurs(s: string, pat: string)
    ensures Includes(s, pat) <==> exists i: nat :: OccursAt(s, pat, i)
  {
    if !Includes(s, pat) {
      assert forall j: nat :: !OccursAt(s, pat, j);
    }
  }

  /** `s.replace(pat, rep)` with a string pattern: only the first occurrence is replaced. */
  function ReplaceFirst(s: string, pat: string, rep: string): (r: string)
    ensures IndexFrom(s, pat, 0).None? ==> r == s
    ensures IndexFrom(s, pat, 0).Some? ==>
      var i := IndexFrom(s, pat, 0).value;
      r == s[..i] + rep + s[i + |pat|..]
  {
    match IndexFrom(s, pat, 0)
    case None => s
    case Some(i) => s[..i] + rep + s[i + |pat|..]
  }
}

=== FILE: victory.dfy ===
/** The victory screen (`src/scenes/VictoryScene.js`): the figures it shows,
    the perfect-score mark and achievement, its own copy of the competition
    labels and the release-quality grade. The projected-streams figure and
    the webhook call are not modelled. */
module Victory {

  import opened Common
  import opened Strings
  import opened Bands
  import opened Progress

  /** What the screen keeps from its data and from the engine registry. */
  datatype Screen = Screen(finalScore: int, finalBudget: int, artistName: string, email: string)

  /** `init(data)`: figures default to 0, the artist's name to "INDIE_ARTIST"
      and the email to "artist@music.com". */
  function Init(t: Transfer, artistName: Option<string>, email: Option<string>): (s: Screen)
    ensures s.finalScore == OrNumber(t.score, 0) && s.finalBudget == OrNumber(t.budget, 0)
    ensures s.artistName == OrString(artistName, "INDIE_ARTIST")
    ensures s.email == OrString(email, "artist@music.com")
  {
    Screen(OrNumber(t.score, 0), OrNumber(t.budget, 0),
           OrString(artistName, "INDIE_ARTIST"), OrString(email, "artist@music.com"))
  }

  /** A perfect release: exactly 100 points. */
  predicate IsPerfect(s: Screen)
  {
    s.finalScore == 100
  }

  const PerfectMark: string := "(PERFECT!)"

  /** The first stats line, `Final Score: ${score}/100 ` followed by the
      perfect mark for a perfect score. */
  function ScoreLine(score: int): (line: string)
    ensures |line| >= |PerfectMark|
    ensures |line| > 13 && line[..13] == "Final Score: "
    ensures score == 100 ==> line[|line| - |PerfectMark|..] == PerfectMark
    ensures score != 100 ==> line[|line| - 5..] == "/100 "
  {
    "Final Score: " + IntToString(score) + "/100 " + (if score == 100 then PerfectMark else "")
  }

  /** The score line ends with the perfect mark exactly for a perfect score,
      the same condition that shows the achievement banner. */
  lemma ScoreLineMarksPerfect(score: int)
    ensures ScoreLine(score)[|ScoreLine(score)| - |PerfectMark|..] == PerfectMark <==> score == 100
  {
    var line := ScoreLine(score);
    if score != 100 {
      assert line[|line| - 1] == ' ';
      assert PerfectMark[|PerfectMark| - 1] == ')';
      assert line[|line| - |PerfectMark|..][|PerfectMark| - 1] == line[|line| - 1];
    }
  }

  /** The victory screen's `getCompetitionLevel(score)`, in agreement with
      the one band function. */
  function GetCompetitionLevel(score: int): (level: string)
    ensures level == Label(CompetitionOf(score))
  {
    if score >= 85 then "Very Low"
    else if score >= 70 then "Low"
    else if score >= 55 then "Moderate"
    else if score >= 40 then "High"
    else "Very High"
  }

  /** Release quality, worst first. */
  datatype Quality = NeedsWork | Average | Good | Great | Excellent | Masterpiece

  /** The scores at which the grade improves by one step. */
  const QualityCutoffs: seq<int> := [50, 60, 70, 80, 90]

  function QualityRank(q: Quality): nat
  {
    match q
    case NeedsWork => 0
    case Average => 1
    case Good => 2
    case Great => 3
    case Excellent => 4
    case Masterpiece => 5
  }

  function QualityName(q: Quality): string
  {
    match q
    case NeedsWork => "Needs Work"
    case Average => "Average"
    case Good => "Good"
    case Great => "Great"
    case Excellent => "Excellent"
    case Masterpiece => "Masterpiece"
  }

  /** `getReleaseQuality(score)`: its grade's rank is the number of quality
      cut-offs the score reaches. */
  function ReleaseQuality(score: int): (q: Quality)
    ensures QualityRank(q) == Reached(QualityCutoffs, score)
  {
    ReachedFive(score);
    if score >= 90 then Masterpiece
    else if score >= 80 then Excellent
    else if score >= 70 then Great
    else if score >= 60 then Good
    else if score >= 50 then Average
    else NeedsWork
  }

  lemma ReachedFive(score: int)
    ensures Reached(QualityCutoffs, score) ==
      (if 50 <= score then 1 else 0) + Reached([60, 70, 80, 90], score)
    ensures Reached([60, 70, 80, 90], score) ==
      (if 60 <= score then 1 else 0) + (if 70 <= score then 1 else 0)
      + (if 80 <= score then 1 else 0) + (if 90 <= score then 1 else 0)
  {
    assert QualityCutoffs[1..] == [60, 70, 80, 90];
    ReachedFour(60, 70, 80, 90, score);
  }

  /** A higher score never earns a worse grade. */
  lemma ReleaseQualityMonotone(s1: int, s2: int)
    requires s1 <= s2
    ensures QualityRank(ReleaseQuality(s1)) <= QualityRank(ReleaseQuality(s2))
  {
    ReachedMonotone(QualityCutoffs, s1, s2);
  }

  /** The quality text shown. */
  function ReleaseQualityText(score: int): string
  {
    QualityName(ReleaseQuality(score))
  }

  /** A perfect score is a masterpiece with very low competition. */
  lemma PerfectScreen(s: Screen)
    requires IsPerfect(s)
    ensures ReleaseQualityText(s.finalScore) == "Masterpiece"
    ensures GetCompetitionLevel(s.finalScore) == "Very Low"
  {
  }
}

=== FILE: weapon_system.dfy ===
/** The weapon registry (`src/systems/WeaponSystem.js`): the unlocked
    weapons in unlock order without duplicates, the current weapon, and the
    time of the last shot, which gates firing by the current weapon's
    cooldown. A projectile is a value carrying its damage and the time at
    which its three-second lifetime runs out. */
module WeaponSystem {

  import opened Common
  import opened Constants

  /** Lifetime of a projectile in milliseconds (the `delayedCall(3000, destroy)`). */
  const ProjectileLifetime: int := 3000

  datatype Registry = Registry(current: WeaponKey, unlocked: seq<WeaponKey>, lastFired: int)

  predicate NoDuplicates(s: seq<WeaponKey>)
  {
    forall i, j :: 0 <= i < j < |s| ==> s[i] != s[j]
  }

  /** The registry invariant: a non-empty duplicate-free list holding the current weapon. */
  predicate Valid(r: Registry)
  {
    |r.unlocked| > 0 && NoDuplicates(r.unlocked) && r.current in r.unlocked
  }

  /** A new registry: the guitar, alone, never fired. */
  function New(): (r: Registry)
    ensures Valid(r)
    ensures r.current == GuitarApi && r.unlocked == [GuitarApi] && r.lastFired == 0
  {
    Registry(GuitarApi, [GuitarApi], 0)
  }

  /** The registry after `unlockWeapon` and its boolean answer. */
  datatype UnlockResult = UnlockResult(registry: Registry, added: bool)

  /** `unlockWeapon(key)`: append the key unless it is already unlocked. */
  function UnlockWeapon(r: Registry, k: WeaponKey): (u: UnlockResult)
    ensures u.added <==> k !in r.unlocked
    ensures u.added ==> u.registry == r.(unlocked := r.unlocked + [k])
    ensures !u.added ==> u.registry == r
    ensures k in u.registry.unlocked
    ensures NoDuplicates(r.unlocked) ==> NoDuplicates(u.registry.unlocked)
    ensures Valid(r) ==> Valid(u.registry)
  {
    if k !in r.unlocked then UnlockResult(r.(unlocked := r.unlocked + [k]), true)
    else UnlockResult(r, false)
  }

  /** Unlocking twice is unlocking once. */
  lemma UnlockIdempotent(r: Registry, k: WeaponKey)
    ensures UnlockWeapon(UnlockWeapon(r, k).registry, k).registry == UnlockWeapon(r, k).registry
    ensures !UnlockWeapon(UnlockWeapon(r, k).registry, k).added
  {
  }

  /** `Array#indexOf`: the first position of `x`, or -1 (see `IndexOfFirst`). */
  function IndexOf(s: seq<WeaponKey>, x: WeaponKey): (i: int)
    ensures -1 <= i < |s|
    ensures i >= 0 ==> s[i] == x
  {
    if |s| == 0 then -1
    else if s[0] == x then 0
    else
      var k := IndexOf(s[1..], x);
      if k == -1 then -1 else k + 1
  }

  /** `IndexOf` answers -1 exactly for absent keys, and otherwise no earlier
      position holds the key. */
  lemma {:induction false} IndexOfFirst(s: seq<WeaponKey>, x: WeaponKey)
    ensures IndexOf(s, x) == -1 <==> x !in s
    ensures forall j :: 0 <= j < IndexOf(s, x) ==> s[j] != x
  {
    if |s| > 0 && s[0] != x {
      IndexOfFirst(s[1..], x);
      assert s == [s[0]] + s[1..];
    }
  }

  /** In a duplicate-free list, every entry is found at its own position. */
  lemma IndexOfDistinct(s: seq<WeaponKey>, i: int)
    requires NoDuplicates(s) && 0 <= i < |s|
    ensures IndexOf(s, s[i]) == i
  {
    IndexOfFirst(s, s[i]);
  }

  /** `switchWeapon()`: the entry after the current one in unlock order,
      wrapping from the last entry to the first; a current weapon missing
      from the list (index -1) lands on the first. The list is never empty:
      it starts with one entry and only grows. */
  function SwitchWeapon(r: Registry): (s: Registry)
    requires |r.unlocked| > 0
    ensures s.unlocked == r.unlocked && s.lastFired == r.lastFired
    ensures IndexOf(r.unlocked, r.current) + 1 < |r.unlocked| ==>
              s.current == r.unlocked[IndexOf(r.unlocked, r.current) + 1]
    ensures IndexOf(r.unlocked, r.current) + 1 == |r.unlocked| ==> s.current == r.unlocked[0]
  {
    var i := IndexOf(r.unlocked, r.current);
    var len := |r.unlocked|;
    assert i + 1 < len ==> (i + 1) % len == i + 1;
    assert i + 1 == len ==> (i + 1) % len == 0;
    r.(current := r.unlocked[(i + 1) % len])
  }

  /** `switchWeapon()` applied `n` times. */
  function SwitchTimes(r: Registry, n: nat): (s: Registry)
    requires |r.unlocked| > 0
    ensures s.unlocked == r.unlocked && s.lastFired == r.lastFired
    decreases n
  {
    if n == 0 then r else SwitchTimes(SwitchWeapon(r), n - 1)
  }

  /** Switching always lands on an unlocked weapon, so it keeps the invariant. */
  lemma SwitchKeepsValid(r: Registry)
    requires |r.unlocked| > 0
    ensures SwitchWeapon(r).current in r.unlocked
    ensures Valid(r) ==> Valid(SwitchWeapon(r))
  {
    var i := IndexOf(r.unlocked, r.current);
    assert 0 <= i + 1 <= |r.unlocked|;
  }

  lemma {:induction false} SwitchTimesAdd(r: Registry, a: nat, b: nat)
    requires |r.unlocked| > 0
    ensures SwitchTimes(r, a + b) == SwitchTimes(SwitchTimes(r, a), b)
    decreases a
  {
    if a > 0 {
      var r' := SwitchWeapon(r);
      SwitchTimesAdd(r', a - 1, b);
      assert SwitchTimes(r, a + b) == SwitchTimes(r', a - 1 + b);
      assert SwitchTimes(r, a) == SwitchTimes(r', a - 1);
    }
  }

  /** Before reaching the end of the list, `n` switches move `n` places forward. */
  lemma {:induction false} SwitchTimesAdvances(r: Registry, i: nat, n: nat)
    requires Valid(r) && i + n < |r.unlocked| && r.unlocked[i] == r.current
    ensures SwitchTimes(r, n).current == r.unlocked[i + n]
    decreases n
  {
    if n > 0 {
      IndexOfDistinct(r.unlocked, i);
      var s := SwitchWeapon(r);
      assert s.current == r.unlocked[i + 1];
      SwitchTimesAdvances(s, i + 1, n - 1);
    }
  }

  /** As many switches as there are unlocked weapons come back to the start. */
  lemma SwitchCycleReturns(r: Registry)
    requires Valid(r)
    ensures SwitchTimes(r, |r.unlocked|).current == r.current
  {
    var len := |r.unlocked|;
    IndexOfFirst(r.unlocked, r.current);
    var i := IndexOf(r.unlocked, r.current);
    var k := len - 1 - i;
    SwitchTimesAdvances(r, i, k);
    var atLast := SwitchTimes(r, k);
    IndexOfDistinct(r.unlocked, len - 1);
    var atFirst := SwitchWeapon(atLast);
    assert atFirst.current == r.unlocked[0];
    SwitchTimesAdvances(atFirst, 0, i);
    SwitchTimesAdd(r, k, i + 1);
    assert SwitchTimes(atLast, i + 1) == SwitchTimes(atFirst, i);
  }

  /** From a new registry, unlocking the synthesizer then switching selects
      it, and switching again returns to the guitar. */
  lemma UnlockThenSwitchScenario()
    ensures SwitchWeapon(UnlockWeapon(New(), SynthBudget).registry).current == SynthBudget
    ensures SwitchWeapon(SwitchWeapon(UnlockWeapon(New(), SynthBudget).registry)).current == GuitarApi
  {
    var r := UnlockWeapon(New(), SynthBudget).registry;
    assert r.unlocked == [GuitarApi, SynthBudget];
    assert IndexOf(r.unlocked, GuitarApi) == 0;
    assert IndexOf(r.unlocked, SynthBudget) == 1;
  }

  /** The registry after `setWeapon` and its boolean answer. */
  datatype SetResult = SetResult(registry: Registry, changed: bool)

  /** `setWeapon(key)`: select an unlocked weapon; refuse any other. */
  function SetWeapon(r: Registry, k: WeaponKey): (s: SetResult)
    ensures s.changed <==> k in r.unlocked
    ensures s.changed ==> s.registry == r.(current := k)
    ensures !s.changed ==> s.registry == r
    ensures Valid(r) ==> Valid(s.registry)
  {
    if k in r.unlocked then SetResult(r.(current := k), true) else SetResult(r, false)
  }

  /** `canFire()`: strictly more than the current weapon's cooldown has passed since the last shot. */
  function CanFire(r: Registry, now: int): (b: bool)
    ensures b ==> now > r.lastFired + 250
    ensures now - r.lastFired > 1000 ==> b
    ensures r.current == MicGolden ==> (b <==> now - r.lastFired > 1000)
  {
    now - r.lastFired > Weapon(r.current).cooldown
  }

  /** A shot in flight. */
  datatype Projectile = Projectile(
    weapon: WeaponKey, damage: int, speed: int, heading: Facing, expiresAt: int)

  /** The registry after `fire` and the projectile, or none (`null`). */
  datatype FireResult = FireResult(registry: Registry, projectile: Option<Projectile>)

  /** `fire(x, y, direction)`: refused while the cooldown runs, leaving the
      registry as it was; otherwise the shot is stamped `now` and carries
      the current weapon's damage and speed. */
  function Fire(r: Registry, now: int, heading: Facing): (f: FireResult)
    ensures f.projectile.None? <==> now - r.lastFired <= Weapon(r.current).cooldown
    ensures f.projectile.None? ==> f.registry == r
    ensures f.projectile.Some? ==> f.registry == r.(lastFired := now)
    ensures f.projectile.Some? ==> f.projectile.value.damage == Weapon(r.current).damage
    ensures f.projectile.Some? ==> f.projectile.value.speed == Weapon(r.current).projectileSpeed
    ensures f.projectile.Some? ==> f.projectile.value.weapon == r.current
    ensures f.projectile.Some? ==> f.projectile.value.expiresAt == now + 3000
  {
    if !CanFire(r, now) then FireResult(r, None)
    else
      var w := Weapon(r.current);
      FireResult(r.(lastFired := now),
                 Some(Projectile(r.current, w.damage, w.projectileSpeed, heading, now + ProjectileLifetime)))
  }

  /** A second shot at the same instant is always refused. */
  lemma NoTwoShotsAtOnce(r: Registry, now: int, h1: Facing, h2: Facing)
    ensures Fire(r, now, h1).projectile.Some? ==> Fire(Fire(r, now, h1).registry, now, h2).projectile.None?
  {
    WeaponsWellFormed();
  }

  /** The projectile is still in flight at `now` (its destroy timer has not fired). */
  predicate InFlight(p: Projectile, now: int)
  {
    now < p.expiresAt
  }
}

=== FILE: world1.dfy ===
/** World 1, Data Valley (`src/scenes/World1_DataValley.js`): five temples,
    each opening a three-click puzzle whose solution is worth a completed
    quest; a boss that appears once every temple has been entered and a
    puzzle resolves, attacks in volleys of five or eight, and pays 20
    points, 200 budget and the budget synthesizer when defeated; then the
    save record and the move to world 2. Dying sends the figures to the
    game-over screen once the player's death tween has ended. The play
    rules shared with world 2 are `Level`'s. Every step follows one of two
    readings: the handlers as written, which respawn the boss on every later
    puzzle and pay its defeat again on every late hit, or with those two
    corrections. */
module World1DataValley {

  import opened Common
  import opened Constants
  import opened Progress
  import ScoreSystem
  import BudgetSystem
  import WeaponSystem
  import PlayerEntity
  import EnemyEntity
  import Level
  import GameOver

  const TempleNames: seq<string> := ["MusicBrainz", "YouTube", "Google Trends", "iTunes", "Spotify"]

  /** Clicks that resolve a puzzle. */
  const PuzzleClicks: nat := 3

  const BossMaxHp: int := 200
  const PhaseTwoHp: int := 100
  const BossProjectileDamage: int := 10

  /** A temple's puzzle: not yet shown, shown with a number of clicks, its
      500 ms resolve timer running, or resolved and gone. */
  datatype Puzzle = Closed | Open(clicks: nat) | Resolving(clicks: nat) | Done

  /** The boss. `defeated` records that `defeatBoss` has run. */
  datatype Boss = Boss(hp: int, maxHp: int, phase: int, defeated: bool)

  /** `spawnBoss()`'s boss: 200 of 200 hit points, phase 1. */
  function NewBoss(): (b: Boss)
    ensures b.hp == b.maxHp == 200 && b.phase == 1 && !b.defeated
  {
    Boss(BossMaxHp, BossMaxHp, 1, false)
  }

  /** `exitTweens` counts the boss exit tweens still running (one per run of
      `defeatBoss`); `completionPending` records that one has ended and so
      started the three-second completion timer. */
  datatype State = State(level: Level.World, temples: seq<bool>, puzzles: seq<Puzzle>, boss: Option<Boss>,
                         exitTweens: nat, completionPending: bool)

  predicate AllCompleted(temples: seq<bool>)
  {
    forall i :: 0 <= i < |temples| ==> temples[i]
  }

  /** Fresh ledgers, a new player and registry, the scene's enemies, a coin
      group, fifteen data crystals, five untouched temples and no boss. */
  function Create(enemies: seq<EnemyEntity.Enemy>): (s: State)
    ensures s.level.score == ScoreSystem.New() && s.level.budget == BudgetSystem.New()
    ensures s.level.score.score == 50 && s.level.budget.budget == 0
    ensures s.level.weapons == WeaponSystem.New() && s.level.player == PlayerEntity.New()
    ensures s.level.coins == Some([]) && s.level.crystals == 15
    ensures |s.temples| == 5 && !s.temples[0] && !s.temples[4] && s.boss.None?
    ensures s.exitTweens == 0 && !s.completionPending
    ensures Level.EnemiesWellFormed(enemies) ==> Inv(s)
  {
    State(Level.Enter(ScoreSystem.New(), BudgetSystem.New(), WeaponSystem.New(), enemies, true, 15),
          [false, false, false, false, false], [Closed, Closed, Closed, Closed, Closed], None, 0, false)
  }

  /** Entering a temple (the overlap with the interact key just pressed):
      only an uncompleted temple opens, and it is marked completed at once,
      before its puzzle is solved. */
  function EnterTemple(s: State, i: nat, interacting: bool): (t: State)
    requires |s.temples| == 5 && |s.puzzles| == 5
    ensures var opens := i < 5 && interacting && !s.temples[i];
            (opens ==> t == s.(temples := s.temples[i := true], puzzles := s.puzzles[i := Open(0)]))
            && (!opens ==> t == s)
  {
    if i < 5 && interacting && !s.temples[i] then
      s.(temples := s.temples[i := true], puzzles := s.puzzles[i := Open(0)])
    else s
  }

  /** A click on any of the puzzle's buttons (the same button twice counts
      twice); the flag says the 500 ms resolve timer was started, which
      happens when the count becomes exactly three. */
  function ClickPuzzle(p: Puzzle): (r: (Puzzle, bool))
    ensures r.1 <==> p.Open? && p.clicks + 1 == PuzzleClicks
    ensures p.Open? && p.clicks + 1 != PuzzleClicks ==> r.0 == Open(p.clicks + 1)
    ensures p.Open? && p.clicks + 1 == PuzzleClicks ==> r.0 == Resolving(PuzzleClicks)
    ensures p.Resolving? ==> r.0 == Resolving(p.clicks + 1)
    ensures p.Closed? || p.Done? ==> r.0 == p
  {
    match p
    case Open(c) => if c + 1 == PuzzleClicks then (Resolving(c + 1), true) else (Open(c + 1), false)
    case Resolving(c) => (Resolving(c + 1), false)
    case _ => (p, false)
  }

  /** `n` clicks on a puzzle. */
  function ClickTimes(p: Puzzle, n: nat): (r: (Puzzle, nat))
    decreases n
  {
    if n == 0 then (p, 0)
    else
      var first := ClickPuzzle(p);
      var rest := ClickTimes(first.0, n - 1);
      (rest.0, (if first.1 then 1 else 0) + rest.1)
  }

  /** On a freshly opened puzzle, `n` clicks start the resolve timer exactly
      once when `n` is at least three and never before. */
  lemma ResolveAfterThreeClicks(n: nat)
    ensures ClickTimes(Open(0), n).1 == (if n >= 3 then 1 else 0)
    ensures n >= 3 ==> ClickTimes(Open(0), n).0 == Resolving(n)
    ensures n < 3 ==> ClickTimes(Open(0), n).0 == Open(n)
  {
    if n >= 3 {
      ResolvingAbsorbs(3, n - 3);
      assert ClickTimes(Open(2), n - 2) == (Resolving(n), 1);
      assert ClickTimes(Open(1), n - 1) == (Resolving(n), 1);
    }
  }

  lemma {:induction false} ResolvingAbsorbs(c: nat, n: nat)
    ensures ClickTimes(Resolving(c), n) == (Resolving(c + n), 0)
    decreases n
  {
    if n > 0 {
      ResolvingAbsorbs(c + 1, n - 1);
    }
  }

  /** `checkAllTemplesCompleted()` as the source writes it: whenever every
      temple is completed, `spawnBoss()` runs and replaces the boss. */
  function CheckAllTemplesAsWritten(temples: seq<bool>, boss: Option<Boss>): (r: (Option<Boss>, bool))
    ensures r.1 <==> AllCompleted(temples)
    ensures r.1 ==> r.0 == Some(NewBoss())
    ensures !r.1 ==> r.0 == boss
  {
    if AllCompleted(temples) then (Some(NewBoss()), true) else (boss, false)
  }

  /** Temples are marked completed on entry, so with all five entered every
      later puzzle resolution spawns the boss again, even over one already
      defeated. The first boss's exit tween still ends the world a few
      seconds later, so the fresh boss pays again only if it falls within
      that window. */
  lemma RespawnAsWritten()
    ensures var defeated := Some(Boss(0, 200, 2, true));
            CheckAllTemplesAsWritten([true, true, true, true, true], defeated) == (Some(NewBoss()), true)
  {
  }

  /** The corrected check: the boss spawns when every temple is completed and
      no boss has been spawned yet. */
  function CheckAllTemples(temples: seq<bool>, boss: Option<Boss>): (r: (Option<Boss>, bool))
    ensures r.1 <==> AllCompleted(temples) && boss.None?
    ensures r.1 ==> r.0 == Some(NewBoss())
    ensures !r.1 ==> r.0 == boss
  {
    if AllCompleted(temples) && boss.None? then (Some(NewBoss()), true) else (boss, false)
  }

  /** The spawn check a reading uses: as written it spawns whenever every
      temple is completed, corrected only when there is no boss yet. */
  function CheckTemples(h: Handlers, temples: seq<bool>, boss: Option<Boss>): (r: (Option<Boss>, bool))
    ensures r.1 <==> AllCompleted(temples) && (h.AsWritten? || boss.None?)
    ensures r.1 ==> r.0 == Some(NewBoss())
    ensures !r.1 ==> r.0 == boss
  {
    if h.AsWritten? then CheckAllTemplesAsWritten(temples, boss) else CheckAllTemples(temples, boss)
  }

  /** What the scene reports to the outside. */
  datatype Signal =
    | Volley(count: nat)
    | BossSpawned
    | PhaseTwo
    | BossDefeated
    | PlayerDied(data: Transfer)
    | Saved(save: SaveData)
    | StartScene(key: string, data: Transfer)

  /** The puzzle's resolve timer firing: close it, complete the quest (+15),
      and run the spawn check: as written a fresh boss replaces any boss once
      every temple is completed, corrected only a first one appears. */
  function ResolvePuzzle(s: State, i: nat, h: Handlers): (r: (State, seq<Signal>))
    requires |s.temples| == 5 && |s.puzzles| == 5
    ensures !(i < 5 && s.puzzles[i].Resolving?) ==> r == (s, [])
    ensures i < 5 && s.puzzles[i].Resolving? ==>
              r.0.level == s.level.(score := ScoreSystem.CompleteQuest(s.level.score))
              && r.0.puzzles == s.puzzles[i := Done] && r.0.temples == s.temples
              && (r.1 == [BossSpawned] <==> AllCompleted(s.temples) && (h.AsWritten? || s.boss.None?))
              && (r.1 == [BossSpawned] ==> r.0.boss == Some(NewBoss()))
              && (r.1 != [BossSpawned] ==> r.1 == [] && r.0.boss == s.boss)
  {
    if i < 5 && s.puzzles[i].Resolving? then
      var spawn := CheckTemples(h, s.temples, s.boss);
      (s.(level := s.level.(score := ScoreSystem.CompleteQuest(s.level.score)),
          puzzles := s.puzzles[i := Done], boss := spawn.0),
       if spawn.1 then [BossSpawned] else [])
    else (s, [])
  }

  /** `bossAttack()`: five projectiles in phase 1 and eight otherwise, fired
      by the attack timer only while the boss has hit points left. */
  function BossVolley(boss: Option<Boss>): (r: seq<Signal>)
    ensures r == [] <==> boss.None? || boss.value.hp <= 0
    ensures boss.Some? && boss.value.hp > 0 && boss.value.phase == 1 ==> r == [Volley(5)]
    ensures boss.Some? && boss.value.hp > 0 && boss.value.phase != 1 ==> r == [Volley(8)]
  {
    match boss
    case None => []
    case Some(b) => if b.hp <= 0 then [] else [Volley(if b.phase == 1 then 5 else 8)]
  }

  /** What a hit on the boss did. */
  datatype BossHit = BossHit(boss: Boss, enteredPhaseTwo: bool, defeatRan: bool)

  /** `damageBoss(damage)` as the source writes it: every hit lowers the hit
      points, the first drop to 100 or below enters phase 2, and every hit
      that leaves the boss at 0 or below runs `defeatBoss`, also on a boss
      already defeated and still on screen for its one-second exit tween. */
  function DamageBossAsWritten(b: Boss, damage: int): (h: BossHit)
    ensures h.boss.hp == b.hp - damage
    ensures h.enteredPhaseTwo <==> b.hp - damage <= PhaseTwoHp && b.phase == 1
    ensures h.boss.phase == (if h.enteredPhaseTwo then 2 else b.phase)
    ensures h.defeatRan <==> b.hp - damage <= 0
    ensures h.boss.defeated == (b.defeated || h.defeatRan)
  {
    var hp := b.hp - damage;
    var two := hp <= PhaseTwoHp && b.phase == 1;
    BossHit(b.(hp := hp, phase := if two then 2 else b.phase, defeated := b.defeated || hp <= 0),
            two, hp <= 0)
  }

  /** The corrected `damageBoss`: a defeated boss ignores further hits. */
  function DamageBoss(b: Boss, damage: int): (h: BossHit)
    ensures b.defeated ==> h == BossHit(b, false, false)
    ensures !b.defeated ==> h == DamageBossAsWritten(b, damage)
  {
    if b.defeated then BossHit(b, false, false) else DamageBossAsWritten(b, damage)
  }

  /** How many times `defeatBoss` runs over a run of hits, as written and corrected. */
  function DefeatsAsWritten(b: Boss, damages: seq<int>): nat
    decreases |damages|
  {
    if |damages| == 0 then 0
    else
      var h := DamageBossAsWritten(b, damages[0]);
      (if h.defeatRan then 1 else 0) + DefeatsAsWritten(h.boss, damages[1..])
  }

  function Defeats(b: Boss, damages: seq<int>): nat
    decreases |damages|
  {
    if |damages| == 0 then 0
    else
      var h := DamageBoss(b, damages[0]);
      (if h.defeatRan then 1 else 0) + Defeats(h.boss, damages[1..])
  }

  function FinalBoss(b: Boss, damages: seq<int>): Boss
    decreases |damages|
  {
    if |damages| == 0 then b else FinalBoss(DamageBoss(b, damages[0]).boss, damages[1..])
  }

  /** A boss at 10 hit points hit twice for 25 before its exit tween ends:
      `defeatBoss` runs twice as written and once with the correction. */
  lemma DoubleDefeatAsWritten()
    ensures DefeatsAsWritten(Boss(10, 200, 2, false), [25, 25]) == 2
    ensures Defeats(Boss(10, 200, 2, false), [25, 25]) == 1
  {
    assert [25, 25][1..] == [25];
    assert [25][1..] == [];
  }

  /** With the correction, `defeatBoss` runs at most once over any run of
      hits, exactly when a boss not yet defeated ends up defeated. */
  lemma {:induction false} DefeatedOnce(b: Boss, damages: seq<int>)
    ensures Defeats(b, damages) == (if !b.defeated && FinalBoss(b, damages).defeated then 1 else 0)
    ensures b.defeated ==> FinalBoss(b, damages) == b
    decreases |damages|
  {
    if |damages| > 0 {
      var h := DamageBoss(b, damages[0]);
      DefeatedOnce(h.boss, damages[1..]);
    }
  }

  /** `defeatBoss()`'s rewards: +20 points, +200 budget, the budget
      synthesizer unlocked. */
  function DefeatRewards(w: Level.World): (v: Level.World)
    ensures v.score == ScoreSystem.AddScore(w.score, 20)
    ensures v.budget == BudgetSystem.AddBudget(w.budget, 200)
    ensures v.weapons == WeaponSystem.UnlockWeapon(w.weapons, SynthBudget).registry
    ensures v.player == w.player && v.enemies == w.enemies && v.coins == w.coins
  {
    w.(score := ScoreSystem.AddScore(w.score, 20),
       budget := BudgetSystem.AddBudget(w.budget, 200),
       weapons := WeaponSystem.UnlockWeapon(w.weapons, SynthBudget).registry)
  }

  /** The double defeat as written, from a fresh world: the score gains
      40 instead of 20 and the budget 400 instead of 200. */
  lemma DoubleRewardsAsWritten(w: Level.World)
    requires w.score.score == 50 && w.budget.budget == 0
    ensures DefeatRewards(DefeatRewards(w)).score.score == 90
    ensures DefeatRewards(DefeatRewards(w)).budget.budget == 400
    ensures DefeatRewards(w).score.score == 70 && DefeatRewards(w).budget.budget == 200
  {
  }

  /** The damage rule a reading uses: as written every hit counts, corrected
      a defeated boss ignores hits. */
  function DamageBossBy(h: Handlers, b: Boss, damage: int): (r: BossHit)
    ensures h.Corrected? && b.defeated ==> r == BossHit(b, false, false)
    ensures h.AsWritten? || !b.defeated ==> r == DamageBossAsWritten(b, damage)
  {
    if h.AsWritten? then DamageBossAsWritten(b, damage) else DamageBoss(b, damage)
  }

  /** A projectile hitting the boss: `damageBoss(projectile.damage || 10)`
      under the reading, then, if the defeat ran, the rewards and a new exit
      tween. */
  function HitBoss(s: State, p: WeaponSystem.Projectile, h: Handlers): (r: (State, seq<Signal>))
    ensures s.boss.None? ==> r == (s, [])
    ensures s.boss.Some? ==>
              var d := DamageBossBy(h, s.boss.value, OrNumber(Some(p.damage), 10));
              r.0.boss == Some(d.boss)
              && r.0.level == (if d.defeatRan then DefeatRewards(s.level) else s.level)
              && r.0.exitTweens == (if d.defeatRan then s.exitTweens + 1 else s.exitTweens)
              && r.1 == (if d.enteredPhaseTwo then [PhaseTwo] else []) + (if d.defeatRan then [BossDefeated] else [])
    ensures r.0.temples == s.temples && r.0.puzzles == s.puzzles && r.0.completionPending == s.completionPending
  {
    match s.boss
    case None => (s, [])
    case Some(b) =>
      var d := DamageBossBy(h, b, OrNumber(Some(p.damage), 10));
      (s.(boss := Some(d.boss), level := if d.defeatRan then DefeatRewards(s.level) else s.level,
          exitTweens := if d.defeatRan then s.exitTweens + 1 else s.exitTweens),
       (if d.enteredPhaseTwo then [PhaseTwo] else []) + (if d.defeatRan then [BossDefeated] else []))
  }

  /** `saveProgress()`: resume in world 2 with the current figures and weapons; no genre. */
  function SaveProgress(s: State): (d: SaveData)
    ensures d.currentWorld == Some(2) && d.genre.None?
    ensures d.score == Some(s.level.score.score) && d.budget == Some(s.level.budget.budget)
    ensures d.unlockedWeapons == s.level.weapons.unlocked
  {
    SaveData(Some(2), Some(s.level.score.score), Some(s.level.budget.budget), s.level.weapons.unlocked, None)
  }

  /** The data the `playerDied` handler hands to the game-over screen, read
      when the death tween ends. */
  function DeathTransfer(s: State): (t: Transfer)
    ensures t == Transfer(Some(s.level.score.score), Some(s.level.budget.budget), Some(1))
  {
    Transfer(Some(s.level.score.score), Some(s.level.budget.budget), Some(1))
  }

  /** The data `completeWorld()` hands to world 2. */
  function NextWorldTransfer(s: State): (t: Transfer)
    ensures t == Transfer(Some(s.level.score.score), Some(s.level.budget.budget), None)
  {
    Transfer(Some(s.level.score.score), Some(s.level.budget.budget), None)
  }

  datatype Event =
    | Play(ev: Level.Event)
    | TempleOverlap(temple: nat, interacting: bool)
    | PuzzleClick(temple: nat)
    | PuzzleTimerFired(temple: nat)
    | BossAttackTimerFired
    | BossProjectileHitsPlayer
    | ProjectileHitsBoss(projectile: WeaponSystem.Projectile)
    | DeathTweenEnded
    | ExitTweenEnded
    | CompletionTimerFired

  /** One event at time `now` under one reading of the handlers. A killing
      blow only starts the player's one-second death tween; `playerDied` is
      emitted when that tween ends, with the figures of that moment. The
      tween exists only once the player is dead. A projectile hits the boss
      only while in flight. Each run of `defeatBoss` starts an exit tween;
      the end of any of them starts the completion timer, which saves and
      moves to world 2 whatever boss is then on screen. */
  function Step(s: State, ev: Event, now: int, h: Handlers): (r: (State, seq<Signal>))
    requires |s.temples| == 5 && |s.puzzles| == 5 && |s.level.weapons.unlocked| > 0
    ensures forall i :: 0 <= i < |r.1| && r.1[i].PlayerDied? ==>
              ev.DeathTweenEnded? && s.level.player.dead && r.1[i].data == DeathTransfer(s)
    ensures forall i :: 0 <= i < |r.1| && r.1[i].StartScene? ==>
              ev.CompletionTimerFired? && s.completionPending && r.1[i].key == "World2_ScoringMaze"
    ensures r.0.temples == s.temples || ev.TempleOverlap?
    ensures r.0.boss == s.boss || ev.PuzzleTimerFired? || ev.ProjectileHitsBoss?
    ensures s.completionPending ==> r.0.completionPending
    ensures ev.ProjectileHitsBoss? && !WeaponSystem.InFlight(ev.projectile, now) ==> r == (s, [])
  {
    match ev
    case Play(e) => (s.(level := Level.Step(s.level, e, now, h).0), [])
    case TempleOverlap(i, interacting) => (EnterTemple(s, i, interacting), [])
    case PuzzleClick(i) =>
      if i < 5 then (s.(puzzles := s.puzzles[i := ClickPuzzle(s.puzzles[i]).0]), []) else (s, [])
    case PuzzleTimerFired(i) => ResolvePuzzle(s, i, h)
    case BossAttackTimerFired => (s, BossVolley(s.boss))
    case BossProjectileHitsPlayer =>
      (s.(level := Level.ApplyEffect(s.level, EnemyEntity.DamagePlayer(BossProjectileDamage), now).0), [])
    case ProjectileHitsBoss(p) => if WeaponSystem.InFlight(p, now) then HitBoss(s, p, h) else (s, [])
    case DeathTweenEnded =>
      (s, if s.level.player.dead then [PlayerDied(DeathTransfer(s))] else [])
    case ExitTweenEnded =>
      if s.exitTweens > 0 then (s.(exitTweens := s.exitTweens - 1, completionPending := true), []) else (s, [])
    case CompletionTimerFired =>
      if s.completionPending then
        (s, [Saved(SaveProgress(s)), StartScene("World2_ScoringMaze", NextWorldTransfer(s))])
      else (s, [])
  }

  /** The boss's shape: hit points at most 200, phase 1 or 2, phase 2 from
      100 hit points down, and defeated exactly at 0 or below. */
  predicate BossInv(b: Boss)
  {
    b.hp <= BossMaxHp && b.maxHp == BossMaxHp && (b.phase == 1 || b.phase == 2)
    && (b.hp <= PhaseTwoHp ==> b.phase == 2) && (b.defeated <==> b.hp <= 0)
  }

  /** The scene invariant: the shared one, five temples each with its puzzle
      opened exactly when entered, a boss only once every temple is
      completed, and a well-shaped boss. */
  predicate Inv(s: State)
  {
    Level.Valid(s.level) && |s.temples| == 5 && |s.puzzles| == 5
    && (forall i :: 0 <= i < 5 ==> (s.temples[i] <==> !s.puzzles[i].Closed?))
    && (s.boss.Some? ==> AllCompleted(s.temples) && BossInv(s.boss.value))
  }

  /** Every event keeps the invariant, under either reading. */
  lemma StepKeepsInv(s: State, ev: Event, now: int, h: Handlers)
    requires Inv(s)
    requires ev.ProjectileHitsBoss? ==> ev.projectile.damage >= 0
    ensures Inv(Step(s, ev, now, h).0)
  {
    match ev
    case Play(e) => Level.StepKeepsValid(s.level, e, now, h);
    case TempleOverlap(i, interacting) =>
    case PuzzleClick(i) =>
    case PuzzleTimerFired(i) =>
    case BossAttackTimerFired =>
    case BossProjectileHitsPlayer =>
      Level.ApplyEffectKeepsValid(s.level, EnemyEntity.DamagePlayer(BossProjectileDamage), now);
    case ProjectileHitsBoss(p) =>
    case DeathTweenEnded =>
    case ExitTweenEnded =>
    case CompletionTimerFired =>
  }

  /** A boss is spawned only once every temple has been entered. */
  lemma BossNeedsAllTemples(s: State, ev: Event, now: int, h: Handlers)
    requires Inv(s)
    requires ev.ProjectileHitsBoss? ==> ev.projectile.damage >= 0
    ensures Step(s, ev, now, h).0.boss.Some? ==> AllCompleted(Step(s, ev, now, h).0.temples)
  {
    StepKeepsInv(s, ev, now, h);
  }

  /** An event and the engine time at which it happens. */
  datatype Timed = At(ev: Event, now: int)

  /** A run of events, each at its own time and under one reading, with the
      signals it produced. */
  function Run(s: State, evs: seq<Timed>, h: Handlers): (r: (State, seq<Signal>))
    requires Inv(s)
    requires forall i :: 0 <= i < |evs| ==> (evs[i].ev.ProjectileHitsBoss? ==> evs[i].ev.projectile.damage >= 0)
    ensures Inv(r.0)
    decreases |evs|
  {
    if |evs| == 0 then (s, [])
    else
      StepKeepsInv(s, evs[0].ev, evs[0].now, h);
      var first := Step(s, evs[0].ev, evs[0].now, h);
      var rest := Run(first.0, evs[1..], h);
      (rest.0, first.1 + rest.1)
  }

  /** With the corrections, one step spawns the boss only when there was
      none, and defeats it only when it was not yet defeated; a spawned boss
      never goes away. */
  lemma StepSignals(s: State, ev: Event, now: int)
    requires |s.temples| == 5 && |s.puzzles| == 5 && |s.level.weapons.unlocked| > 0
    ensures var r := Step(s, ev, now, Corrected);
            Count(r.1, BossSpawned) == (if s.boss.None? && r.0.boss.Some? then 1 else 0)
            && Count(r.1, BossDefeated) ==
                 (if (s.boss.None? || !s.boss.value.defeated) && r.0.boss.Some? && r.0.boss.value.defeated then 1 else 0)
            && (s.boss.Some? ==> r.0.boss.Some?)
            && (s.boss.Some? && s.boss.value.defeated ==> r.0.boss == s.boss)
  {
    var r := Step(s, ev, now, Corrected);
    match ev
    case PuzzleTimerFired(i) =>
      CountAbsent(r.1, BossDefeated);
      if BossSpawned !in r.1 {
        CountAbsent(r.1, BossSpawned);
      }
    case ProjectileHitsBoss(p) =>
      if s.boss.Some? && WeaponSystem.InFlight(p, now) {
        var h := DamageBoss(s.boss.value, OrNumber(Some(p.damage), 10));
        var a: seq<Signal> := if h.enteredPhaseTwo then [PhaseTwo] else [];
        var b: seq<Signal> := if h.defeatRan then [BossDefeated] else [];
        CountAppend(a, b, BossSpawned);
        CountAppend(a, b, BossDefeated);
      }
    case _ =>
      assert r.0.boss == s.boss;
      CountAbsent(r.1, BossSpawned);
      CountAbsent(r.1, BossDefeated);
  }

  /** With the corrections, over any run the boss spawns at most once and its
      defeat, with its rewards, happens at most once. */
  lemma {:induction false} BossOnceInAnyRun(s: State, evs: seq<Timed>)
    requires Inv(s)
    requires forall i :: 0 <= i < |evs| ==> (evs[i].ev.ProjectileHitsBoss? ==> evs[i].ev.projectile.damage >= 0)
    ensures var r := Run(s, evs, Corrected);
            Count(r.1, BossSpawned) == (if s.boss.None? && r.0.boss.Some? then 1 else 0)
            && Count(r.1, BossDefeated) ==
                 (if (s.boss.None? || !s.boss.value.defeated) && r.0.boss.Some? && r.0.boss.value.defeated then 1 else 0)
            && (s.boss.Some? ==> r.0.boss.Some?)
            && (s.boss.Some? && s.boss.value.defeated ==> r.0.boss == s.boss)
    decreases |evs|
  {
    if |evs| > 0 {
      StepKeepsInv(s, evs[0].ev, evs[0].now, Corrected);
      StepSignals(s, evs[0].ev, evs[0].now);
      var first := Step(s, evs[0].ev, evs[0].now, Corrected);
      BossOnceInAnyRun(first.0, evs[1..]);
      var rest := Run(first.0, evs[1..], Corrected);
      CountAppend(first.1, rest.1, BossSpawned);
      CountAppend(first.1, rest.1, BossDefeated);
    }
  }

  /** As written, a hit on a boss already defeated and still in its exit
      tween runs `defeatBoss` again: the rewards are paid a second time and
      the defeat is reported again. With the correction the hit does nothing. */
  lemma LateHitAsWritten(s: State, p: WeaponSystem.Projectile, now: int)
    requires Inv(s) && s.boss.Some? && s.boss.value.defeated && p.damage >= 0 && WeaponSystem.InFlight(p, now)
    ensures var r := Step(s, ProjectileHitsBoss(p), now, AsWritten);
            r.0.level == DefeatRewards(s.level) && r.1 == [BossDefeated]
            && r.0.level.score.score == Min(100, s.level.score.score + 20)
            && r.0.level.budget.budget == s.level.budget.budget + 200
    ensures Step(s, ProjectileHitsBoss(p), now, Corrected) == (s, [])
  {
    var d := DamageBossBy(AsWritten, s.boss.value, OrNumber(Some(p.damage), 10));
    assert d.defeatRan && !d.enteredPhaseTwo;
  }

  /** As written, once every temple is entered a puzzle resolved after the
      boss's defeat spawns a fresh boss at full strength. With the
      correction the defeated boss stays. */
  lemma RespawnStepAsWritten(s: State, i: nat, now: int)
    requires Inv(s) && i < 5 && s.puzzles[i].Resolving? && s.boss.Some? && s.boss.value.defeated
    ensures var r := Step(s, PuzzleTimerFired(i), now, AsWritten);
            r.0.boss == Some(NewBoss()) && r.1 == [BossSpawned]
    ensures var r := Step(s, PuzzleTimerFired(i), now, Corrected);
            r.0.boss == s.boss && r.1 == []
  {
  }

  /** The respawn does not keep the player in world 1: when the first
      boss's exit tween ends, the completion timer it starts still saves and
      starts world 2, with a fresh boss on screen. */
  lemma RespawnStillLeaves(s: State, i: nat, t1: int, t2: int, t3: int)
    requires Inv(s) && i < 5 && s.puzzles[i].Resolving? && s.boss.Some? && s.boss.value.defeated
    requires s.exitTweens > 0
    ensures var a := Step(s, PuzzleTimerFired(i), t1, AsWritten).0;
            var b := Step(a, ExitTweenEnded, t2, AsWritten).0;
            a.boss == Some(NewBoss()) && b.boss == Some(NewBoss())
            && Step(b, CompletionTimerFired, t3, AsWritten).1
               == [Saved(SaveProgress(b)), StartScene("World2_ScoringMaze", NextWorldTransfer(b))]
  {
  }

  /** A killing blow from the boss reports nothing at once; when the death
      tween then ends, the game-over screen receives the figures of that
      moment and world 1, and its retry button starts this scene again. */
  lemma DeathWaitsForTween(s: State, now: int, later: int, h: Handlers)
    requires Inv(s) && !s.level.player.dead
    ensures var t := Step(s, BossProjectileHitsPlayer, now, h);
            t.1 == []
            && (t.0.level.player.dead <==> !s.level.player.invulnerable && s.level.player.hp <= BossProjectileDamage)
            && (t.0.level.player.dead ==>
                  Step(t.0, DeathTweenEnded, later, h).1
                  == [PlayerDied(Transfer(Some(t.0.level.score.score), Some(t.0.level.budget.budget), Some(1)))])
    ensures Step(s, DeathTweenEnded, later, h).1 == []
    ensures GameOver.RetryScene(GameOver.Init(DeathTransfer(s))) == "World1_DataValley"
  {
  }

  /** A live boss above 100 hit points fires five projectiles, one at or below 100 fires eight. */
  lemma VolleySize(s: State)
    requires Inv(s) && s.boss.Some? && s.boss.value.hp > 0
    ensures s.boss.value.hp <= PhaseTwoHp ==> BossVolley(s.boss) == [Volley(8)]
    ensures s.boss.value.phase == 1 ==> BossVolley(s.boss) == [Volley(5)] && s.boss.value.hp > PhaseTwoHp
  {
  }}

=== FILE: world2.dfy ===
/** World 2, the Scoring Maze (`src/scenes/World2_ScoringMaze.js`): the
    score and budget carried over from world 1, three score doors, the genre
    hall whose portals set the genre once, "The Algorithm", a boss whose
    size, speed and colour depend on the score when it appears, its rewards
    (25 points, 500 budget, the drum machine), and the save record and the
    move to world 3. The scene listens for no player death: hit points can
    reach zero here without ending the game. Every step follows one of two
    readings: the projectile overlap as written, which pays the boss's
    defeat again on every late hit, or with that correction. */
module World2ScoringMaze {

  import opened Common
  import opened Strings
  import opened Constants
  import opened Bands
  import opened Progress
  import ScoreSystem
  import BudgetSystem
  import WeaponSystem
  import PlayerEntity
  import EnemyEntity
  import Level
  import World1DataValley

  /** The score each door asks for: bronze, silver, gold. */
  const DoorScores: seq<int> := [40, 70, 85]

  /** The genre hall's portals, in the hall's order. */
  const PortalGenres: seq<string> := ["pop", "rock", "electro", "rap", "jazz", "metal", "synthwave"]

  const BossHp: int := 300
  const BossTouchDamage: int := 20

  /** "The Algorithm". `defeated` records that `defeatBoss` has run. */
  datatype Boss = Boss(hp: int, size: int, speed: int, color: int, defeated: bool)

  /** `doors[i]` is true while door `i` stands; `spawnPending` while the
      two-second timer started by the genre choice runs. */
  datatype State = State(level: Level.World, doors: seq<bool>, genreChosen: bool,
                         spawnPending: bool, boss: Option<Boss>)

  /** `init(data)`: `data.score || 50` and `data.budget || 0`. */
  function Init(t: Transfer): (r: (int, int))
    ensures r.0 == OrNumber(t.score, 50) && r.1 == OrNumber(t.budget, 0)
  {
    (OrNumber(t.score, 50), OrNumber(t.budget, 0))
  }

  /** `create()`: a fresh ledger moved by the carried score minus 50, a
      fresh budget raised by the carried budget, a registry with the budget
      synthesizer unlocked, no coin group, no crystals, three closed doors. */
  function Create(t: Transfer, enemies: seq<EnemyEntity.Enemy>): (s: State)
    ensures s.level.score == ScoreSystem.AddScore(ScoreSystem.New(), Init(t).0 - 50)
    ensures s.level.budget == BudgetSystem.AddBudget(BudgetSystem.New(), Init(t).1)
    ensures s.level.weapons == WeaponSystem.UnlockWeapon(WeaponSystem.New(), SynthBudget).registry
    ensures s.level.coins.None? && s.level.crystals == 0 && s.boss.None? && !s.genreChosen
    ensures |s.doors| == 3 && s.doors[0] && s.doors[1] && s.doors[2]
  {
    var init := Init(t);
    State(Level.Enter(ScoreSystem.AddScore(ScoreSystem.New(), init.0 - 50),
                      BudgetSystem.AddBudget(BudgetSystem.New(), init.1),
                      WeaponSystem.UnlockWeapon(WeaponSystem.New(), SynthBudget).registry,
                      enemies, false, 0),
          [true, true, true], false, false, None)
  }

  /** What arrives: a score from 1 to 100 arrives unchanged, a missing or
      zero score (JavaScript's `||` treats 0 as missing) becomes 50, other
      scores are clamped into the ledger's range; the budget arrives
      exactly, or 0 when missing. The registry holds the guitar and the
      budget synthesizer. */
  lemma CarryOver(t: Transfer, enemies: seq<EnemyEntity.Enemy>)
    ensures var s := Create(t, enemies);
            (t.score.Some? && 1 <= t.score.value <= 100 ==> s.level.score.score == t.score.value)
            && (t.score.None? || t.score.value == 0 ==> s.level.score.score == 50)
            && (t.score.Some? && t.score.value > 100 ==> s.level.score.score == 100)
            && (t.score.Some? && t.score.value < 0 ==> s.level.score.score == 0)
            && s.level.budget.budget == OrNumber(t.budget, 0)
            && s.level.weapons.unlocked == [GuitarApi, SynthBudget]
    ensures Level.EnemiesWellFormed(enemies) && OrNumber(t.budget, 0) >= 0 ==> Inv(Create(t, enemies))
  {
  }

  /** World 1 hands over its figures; world 2 starts from them, except that
      a score of 0 restarts at 50. */
  lemma FromWorldOne(w1: World1DataValley.State, enemies: seq<EnemyEntity.Enemy>)
    requires World1DataValley.Inv(w1) && Level.EnemiesWellFormed(enemies)
    ensures var s := Create(World1DataValley.NextWorldTransfer(w1), enemies);
            Inv(s)
            && s.level.budget.budget == w1.level.budget.budget
            && s.level.score.score == (if w1.level.score.score == 0 then 50 else w1.level.score.score)
  {
    CarryOver(World1DataValley.NextWorldTransfer(w1), enemies);
  }

  /** What the scene reports to the outside. */
  datatype Signal =
    | Message(text: string)
    | GenreChosen
    | BossSpawned
    | BossDefeated
    | Saved(save: SaveData)
    | StartScene(key: string, data: Transfer)

  /** The player overlapping a standing door: it opens (is destroyed) when
      the score reaches the door's requirement, otherwise a message says
      what is needed. */
  function TouchDoor(s: State, i: nat): (r: (State, seq<Signal>))
    requires |s.doors| == 3
    ensures !(i < 3 && s.doors[i]) ==> r == (s, [])
    ensures i < 3 && s.doors[i] && s.level.score.score >= DoorScores[i] ==>
              r == (s.(doors := s.doors[i := false]), [Message("Door opened!")])
    ensures i < 3 && s.doors[i] && s.level.score.score < DoorScores[i] ==>
              r == (s, [Message("Need score ≥" + IntToString(DoorScores[i]) + " to pass!")])
  {
    if i < 3 && s.doors[i] then
      if s.level.score.score >= DoorScores[i] then (s.(doors := s.doors[i := false]), [Message("Door opened!")])
      else (s, [Message("Need score ≥" + IntToString(DoorScores[i]) + " to pass!")])
    else (s, [])
  }

  /** The doors sit on the competition cut-offs: the bronze door opens from
      the "High" band on, the silver one from "Low", the gold one only at
      "Very Low". */
  lemma DoorsMatchBands(score: int)
    ensures score >= DoorScores[0] <==> Rank(CompetitionOf(score)) >= 1
    ensures score >= DoorScores[1] <==> Rank(CompetitionOf(score)) >= 3
    ensures score >= DoorScores[2] <==> CompetitionOf(score) == VeryLow
  {
  }

  /** The player pressing the interact key over portal `i` before any genre
      was chosen: record the genre with its bonus and start the two-second
      timer that spawns the boss. */
  function ChooseGenre(s: State, i: nat, interacting: bool): (r: (State, seq<Signal>))
    ensures !(i < |PortalGenres| && interacting && !s.genreChosen) ==> r == (s, [])
    ensures i < |PortalGenres| && interacting && !s.genreChosen ==>
              r.0 == s.(level := s.level.(score := ScoreSystem.SetGenre(s.level.score, PortalGenres[i])),
                        genreChosen := true, spawnPending := true)
              && r.1 == [GenreChosen]
  {
    if i < |PortalGenres| && interacting && !s.genreChosen then
      (s.(level := s.level.(score := ScoreSystem.SetGenre(s.level.score, PortalGenres[i])),
          genreChosen := true, spawnPending := true),
       [GenreChosen])
    else (s, [])
  }

  /** `spawnBoss()`: 300 hit points; below 40 points a big fast red boss,
      below 70 a medium yellow one, otherwise a small slow green one. */
  function SpawnBoss(score: int): (b: Boss)
    ensures b.hp == BossHp && !b.defeated
    ensures score < 40 ==> b.size == 80 && b.speed == 100 && b.color == 0xFF0000
    ensures 40 <= score < 70 ==> b.size == 60 && b.speed == 70 && b.color == 0xFFFF00
    ensures score >= 70 ==> b.size == 40 && b.speed == 50 && b.color == 0x00FF00
  {
    if score < 40 then Boss(BossHp, 80, 100, 0xFF0000, false)
    else if score < 70 then Boss(BossHp, 60, 70, 0xFFFF00, false)
    else Boss(BossHp, 40, 50, 0x00FF00, false)
  }

  /** A better score never meets a bigger or faster boss. */
  lemma SpawnBossMonotone(s1: int, s2: int)
    requires s1 <= s2
    ensures SpawnBoss(s2).size <= SpawnBoss(s1).size
    ensures SpawnBoss(s2).speed <= SpawnBoss(s1).speed
  {
  }

  /** The boss's colour is the colour of the score's competition band at the
      two ends: red in the "Very High" band, green in "Low" and "Very Low". */
  lemma SpawnBossMatchesBands(score: int)
    ensures SpawnBoss(score).color == 0xFF0000 <==> CompetitionOf(score) == VeryHigh
    ensures SpawnBoss(score).color == 0x00FF00 <==> Rank(CompetitionOf(score)) >= 3
    ensures CompetitionOf(score) == VeryHigh ==> SpawnBoss(score).color == Color(CompetitionOf(score))
  {
  }

  /** What a projectile on the boss did. */
  datatype BossHit = BossHit(boss: Boss, defeatRan: bool)

  /** The projectile overlap as the source writes it: every hit lowers the
      hit points by `damage || 10`, and every hit that leaves them at 0 or
      below runs `defeatBoss`, also during the one-second exit tween of a
      boss already defeated. */
  function HitBossAsWritten(b: Boss, damage: int): (h: BossHit)
    ensures h.boss.hp == b.hp - OrNumber(Some(damage), 10)
    ensures h.defeatRan <==> h.boss.hp <= 0
    ensures h.boss.defeated == (b.defeated || h.defeatRan)
    ensures h.boss.size == b.size && h.boss.speed == b.speed && h.boss.color == b.color
  {
    var hp := b.hp - OrNumber(Some(damage), 10);
    BossHit(b.(hp := hp, defeated := b.defeated || hp <= 0), hp <= 0)
  }

  /** A boss at 10 hit points hit twice for 25 during the exit tween: the
      defeat, with its +25 points, +500 budget and unlock, runs twice. */
  lemma DoubleDefeatAsWritten()
    ensures var b := Boss(10, 40, 50, 0x00FF00, false);
            HitBossAsWritten(b, 25).defeatRan && HitBossAsWritten(HitBossAsWritten(b, 25).boss, 25).defeatRan
    ensures var w := DefeatRewards(DefeatRewards(Level.Enter(ScoreSystem.New(), BudgetSystem.New(),
                                                             WeaponSystem.New(), [], false, 0)));
            w.score.score == 100 && w.budget.budget == 1000
  {
  }

  /** The corrected overlap: a defeated boss ignores further hits. */
  function HitBoss(b: Boss, damage: int): (h: BossHit)
    ensures b.defeated ==> h == BossHit(b, false)
    ensures !b.defeated ==> h == HitBossAsWritten(b, damage)
  {
    if b.defeated then BossHit(b, false) else HitBossAsWritten(b, damage)
  }

  /** The overlap rule a reading uses: as written every hit counts,
      corrected a defeated boss ignores hits. */
  function HitBossBy(h: Handlers, b: Boss, damage: int): (r: BossHit)
    ensures h.Corrected? && b.defeated ==> r == BossHit(b, false)
    ensures h.AsWritten? || !b.defeated ==> r == HitBossAsWritten(b, damage)
  {
    if h.AsWritten? then HitBossAsWritten(b, damage) else HitBoss(b, damage)
  }

  /** `defeatBoss()`'s rewards: +25 points, +500 budget, the drum machine unlocked. */
  function DefeatRewards(w: Level.World): (v: Level.World)
    ensures v.score == ScoreSystem.AddScore(w.score, 25)
    ensures v.budget == BudgetSystem.AddBudget(w.budget, 500)
    ensures v.weapons == WeaponSystem.UnlockWeapon(w.weapons, DrumsTempo).registry
    ensures v.player == w.player && v.enemies == w.enemies && v.coins == w.coins
  {
    w.(score := ScoreSystem.AddScore(w.score, 25),
       budget := BudgetSystem.AddBudget(w.budget, 500),
       weapons := WeaponSystem.UnlockWeapon(w.weapons, DrumsTempo).registry)
  }

  /** `saveProgress()`: resume in world 3 with the current figures, weapons and genre. */
  function SaveProgress(s: State): (d: SaveData)
    ensures d.currentWorld == Some(3) && d.genre == s.level.score.genre
    ensures d.score == Some(s.level.score.score) && d.budget == Some(s.level.budget.budget)
    ensures d.unlockedWeapons == s.level.weapons.unlocked
  {
    SaveData(Some(3), Some(s.level.score.score), Some(s.level.budget.budget),
             s.level.weapons.unlocked, s.level.score.genre)
  }

  datatype Event =
    | Play(ev: Level.Event)
    | DoorOverlap(door: nat)
    | PortalOverlap(portal: nat, interacting: bool)
    | SpawnTimerFired
    | ProjectileHitsBoss(projectile: WeaponSystem.Projectile)
    | BossTouchesPlayer
    | CompletionTimerFired

  /** One event at time `now` under one reading of the handlers. A player
      death starts nothing here. A projectile hits the boss only while in
      flight. The completion timer exists only once the boss is defeated. */
  function Step(s: State, ev: Event, now: int, h: Handlers): (r: (State, seq<Signal>))
    requires |s.doors| == 3 && |s.level.weapons.unlocked| > 0
    ensures forall i :: 0 <= i < |r.1| && r.1[i].StartScene? ==>
              ev.CompletionTimerFired? && r.1[i].key == "World3_FridayForest"
    ensures r.0.doors == s.doors || ev.DoorOverlap?
    ensures r.0.genreChosen == s.genreChosen || ev.PortalOverlap?
    ensures r.0.boss == s.boss || ev.SpawnTimerFired? || ev.ProjectileHitsBoss?
    ensures ev.ProjectileHitsBoss? && !WeaponSystem.InFlight(ev.projectile, now) ==> r == (s, [])
  {
    match ev
    case Play(e) => (s.(level := Level.Step(s.level, e, now, h).0), [])
    case DoorOverlap(i) => TouchDoor(s, i)
    case PortalOverlap(i, interacting) => ChooseGenre(s, i, interacting)
    case SpawnTimerFired =>
      if s.spawnPending then
        (s.(spawnPending := false, boss := Some(SpawnBoss(s.level.score.score))), [BossSpawned])
      else (s, [])
    case ProjectileHitsBoss(p) =>
      if s.boss.Some? && WeaponSystem.InFlight(p, now) then
        var d := HitBossBy(h, s.boss.value, p.damage);
        (s.(boss := Some(d.boss), level := if d.defeatRan then DefeatRewards(s.level) else s.level),
         if d.defeatRan then [BossDefeated] else [])
      else (s, [])
    case BossTouchesPlayer =>
      if s.boss.Some? then
        (s.(level := Level.ApplyEffect(s.level, EnemyEntity.DamagePlayer(BossTouchDamage), now).0), [])
      else (s, [])
    case CompletionTimerFired =>
      if s.boss.Some? && s.boss.value.defeated then
        (s, [Saved(SaveProgress(s)),
             StartScene("World3_FridayForest", Transfer(Some(s.level.score.score), Some(s.level.budget.budget), None))])
      else (s, [])
  }

  /** The scene invariant: the shared one, three doors, the spawn timer and
      the boss only after the genre choice and never both, and a boss
      defeated exactly at 0 hit points or below. */
  predicate Inv(s: State)
  {
    Level.Valid(s.level) && |s.doors| == 3
    && (s.spawnPending ==> s.genreChosen && s.boss.None?)
    && (s.boss.Some? ==> s.genreChosen && s.boss.value.hp <= BossHp
                         && (s.boss.value.defeated <==> s.boss.value.hp <= 0))
  }

  /** Every event keeps the invariant, under either reading. */
  lemma StepKeepsInv(s: State, ev: Event, now: int, h: Handlers)
    requires Inv(s)
    requires ev.ProjectileHitsBoss? ==> ev.projectile.damage >= 0
    ensures Inv(Step(s, ev, now, h).0)
  {
    match ev
    case Play(e) => Level.StepKeepsValid(s.level, e, now, h);
    case DoorOverlap(i) =>
    case PortalOverlap(i, interacting) =>
    case SpawnTimerFired =>
    case ProjectileHitsBoss(p) =>
    case BossTouchesPlayer =>
      Level.ApplyEffectKeepsValid(s.level, EnemyEntity.DamagePlayer(BossTouchDamage), now);
    case CompletionTimerFired =>
  }

  /** With the correction, one step chooses a genre only when none was
      chosen, spawns the boss only when there was none, and defeats it only
      when it was not yet defeated. */
  lemma StepSignals(s: State, ev: Event, now: int)
    requires |s.doors| == 3 && |s.level.weapons.unlocked| > 0
    requires s.spawnPending ==> s.boss.None?
    ensures var r := Step(s, ev, now, Corrected);
            Count(r.1, GenreChosen) == (if !s.genreChosen && r.0.genreChosen then 1 else 0)
            && Count(r.1, BossSpawned) == (if s.boss.None? && r.0.boss.Some? then 1 else 0)
            && Count(r.1, BossDefeated) ==
                 (if (s.boss.None? || !s.boss.value.defeated) && r.0.boss.Some? && r.0.boss.value.defeated then 1 else 0)
  {
    StepGenreCount(s, ev, now, Corrected);
    StepSpawnCount(s, ev, now, Corrected);
    StepDefeatCount(s, ev, now);
  }

  /** Under either reading a step reports a genre choice exactly when it
      makes the first one. */
  lemma StepGenreCount(s: State, ev: Event, now: int, h: Handlers)
    requires |s.doors| == 3 && |s.level.weapons.unlocked| > 0
    ensures var r := Step(s, ev, now, h);
            Count(r.1, GenreChosen) == (if !s.genreChosen && r.0.genreChosen then 1 else 0)
  {
    var r := Step(s, ev, now, h);
    if !ev.PortalOverlap? {
      assert r.0.genreChosen == s.genreChosen;
      CountAbsent(r.1, GenreChosen);
    }
  }

  /** Under either reading a step reports a spawn exactly when the boss
      appears. */
  lemma StepSpawnCount(s: State, ev: Event, now: int, h: Handlers)
    requires |s.doors| == 3 && |s.level.weapons.unlocked| > 0
    requires s.spawnPending ==> s.boss.None?
    ensures var r := Step(s, ev, now, h);
            Count(r.1, BossSpawned) == (if s.boss.None? && r.0.boss.Some? then 1 else 0)
  {
    var r := Step(s, ev, now, h);
    if !ev.SpawnTimerFired? {
      assert r.0.boss.None? ==> s.boss.None?;
      assert s.boss.Some? ==> r.0.boss.Some?;
      CountAbsent(r.1, BossSpawned);
    }
  }

  /** With the correction a step reports a defeat exactly when the boss
      becomes defeated. */
  lemma StepDefeatCount(s: State, ev: Event, now: int)
    requires |s.doors| == 3 && |s.level.weapons.unlocked| > 0
    requires s.spawnPending ==> s.boss.None?
    ensures var r := Step(s, ev, now, Corrected);
            Count(r.1, BossDefeated) ==
              (if (s.boss.None? || !s.boss.value.defeated) && r.0.boss.Some? && r.0.boss.value.defeated then 1 else 0)
  {
    var r := Step(s, ev, now, Corrected);
    if !ev.ProjectileHitsBoss? {
      assert r.0.boss == s.boss || (s.boss.None? && !r.0.boss.value.defeated);
      CountAbsent(r.1, BossDefeated);
    }
  }

  /** Under either reading a chosen genre and a spawned boss stay and a
      fallen door never returns; with the correction a defeated boss is also
      left alone. */
  lemma StepPersists(s: State, ev: Event, now: int, h: Handlers)
    requires Inv(s)
    ensures var r := Step(s, ev, now, h);
            (s.genreChosen ==> r.0.genreChosen && r.0.level.score.genre == s.level.score.genre)
            && (s.boss.Some? ==> r.0.boss.Some?)
            && (h.Corrected? && s.boss.Some? && s.boss.value.defeated ==> r.0.boss == s.boss)
            && |r.0.doors| == 3 && (forall i :: 0 <= i < 3 && !s.doors[i] ==> !r.0.doors[i])
  {
    match ev
    case Play(e) => Level.StepKeepsGenre(s.level, e, now, h);
    case DoorOverlap(i) =>
    case PortalOverlap(i, interacting) =>
    case SpawnTimerFired =>
    case ProjectileHitsBoss(p) =>
    case BossTouchesPlayer =>
    case CompletionTimerFired =>
  }

  /** An event and the engine time at which it happens. */
  datatype Timed = At(ev: Event, now: int)

  /** A run of events, each at its own time and under one reading, with the
      signals it produced. */
  function Run(s: State, evs: seq<Timed>, h: Handlers): (r: (State, seq<Signal>))
    requires Inv(s)
    requires forall i :: 0 <= i < |evs| ==> (evs[i].ev.ProjectileHitsBoss? ==> evs[i].ev.projectile.damage >= 0)
    ensures Inv(r.0)
    decreases |evs|
  {
    if |evs| == 0 then (s, [])
    else
      StepKeepsInv(s, evs[0].ev, evs[0].now, h);
      var first := Step(s, evs[0].ev, evs[0].now, h);
      var rest := Run(first.0, evs[1..], h);
      (rest.0, first.1 + rest.1)
  }

  /** With the correction, over any run the genre is chosen at most once and is never replaced
      afterwards, the boss spawns at most once, its defeat with the rewards
      happens at most once, and opened doors stay open. */
  lemma {:induction false} OnceInAnyRun(s: State, evs: seq<Timed>)
    requires Inv(s)
    requires forall i :: 0 <= i < |evs| ==> (evs[i].ev.ProjectileHitsBoss? ==> evs[i].ev.projectile.damage >= 0)
    ensures var r := Run(s, evs, Corrected);
            Count(r.1, GenreChosen) == (if !s.genreChosen && r.0.genreChosen then 1 else 0)
            && Count(r.1, BossSpawned) == (if s.boss.None? && r.0.boss.Some? then 1 else 0)
            && Count(r.1, BossDefeated) ==
                 (if (s.boss.None? || !s.boss.value.defeated) && r.0.boss.Some? && r.0.boss.value.defeated then 1 else 0)
            && (s.genreChosen ==> r.0.genreChosen && r.0.level.score.genre == s.level.score.genre)
            && (s.boss.Some? ==> r.0.boss.Some?)
            && (s.boss.Some? && s.boss.value.defeated ==> r.0.boss == s.boss)
            && (forall i :: 0 <= i < 3 && !s.doors[i] ==> !r.0.doors[i])
    decreases |evs|
  {
    if |evs| > 0 {
      StepKeepsInv(s, evs[0].ev, evs[0].now, Corrected);
      StepSignals(s, evs[0].ev, evs[0].now);
      StepPersists(s, evs[0].ev, evs[0].now, Corrected);
      var first := Step(s, evs[0].ev, evs[0].now, Corrected);
      OnceInAnyRun(first.0, evs[1..]);
      var rest := Run(first.0, evs[1..], Corrected);
      CountAppend(first.1, rest.1, GenreChosen);
      CountAppend(first.1, rest.1, BossSpawned);
      CountAppend(first.1, rest.1, BossDefeated);
    }
  }

  /** As written, a hit on a boss already defeated and still in its exit
      tween runs `defeatBoss` again: the rewards are paid a second time and
      the defeat is reported again. With the correction the hit does nothing. */
  lemma LateHitAsWritten(s: State, p: WeaponSystem.Projectile, now: int)
    requires Inv(s) && s.boss.Some? && s.boss.value.defeated && p.damage >= 0 && WeaponSystem.InFlight(p, now)
    ensures var r := Step(s, ProjectileHitsBoss(p), now, AsWritten);
            r.0.level == DefeatRewards(s.level) && r.1 == [BossDefeated]
            && r.0.level.budget.budget == s.level.budget.budget + 500
    ensures Step(s, ProjectileHitsBoss(p), now, Corrected) == (s, [])
  {
  }
}
